=== FILE: README.md ===
# TaskFlow core, modelled in Dafny

TaskFlow is a project and ticket tracker. It has a Node/Express + Mongoose backend and a React frontend. This project models the parts of it that decide things:

- **Backend controllers**, each as a pure function on one immutable `Store` holding users, projects, tickets, comments and OTP records:
  - projects: create, list, get, update (including the cascade for removed members), delete (cascading), add member, remove member;
  - tickets: create (including membership expansion), list, get, update, delete, status change;
  - comments: create (including the notify set), list, update, delete;
  - authentication: register, verify email, resend OTP, login, forgot password, reset password, delete user.

  Each handler returns an `Outcome`, which holds:
  - the new store;
  - the mails it attempts;
  - a result that is either a value or one of the HTTP errors 400, 401, 403, 404 or 500.

  The store is returned even on an error, because some handlers save partial work before they fail.
- **Mongoose schemas**, as enum domains, defaults, length bounds and the project-key predicate `^[A-Z]{2,10}$`.
- **Frontend**:
  - the project and ticket reducers;
  - the query merge in `fetchTickets`;
  - Kanban grouping and drag arithmetic;
  - the OTP input sanitiser and countdown;
  - the filter and sort pipelines of the MyTasks, Members, Workspace and Archived pages;
  - the client-side validation of the Register and ResetPassword forms.

Layout, one module per file:

| module | contents |
|---|---|
| `Wrappers` | `Option` and `Result` |
| `Seqs` | `Filter`, `Find` (first match), `MapSeq`, an insertion `Sort`, subsequence |
| `Text` | ASCII case mapping, trim, substring, email normalisation |
| `Schema` | records, enums and field predicates |
| `Store` | the store, find/save and the cross-record invariants |
| `ProjectOps`, `TicketOps`, `CommentOps`, `AuthOps` | the controllers |
| `Invariants` | proofs that every store-changing handler keeps referential integrity and "assignees are members" |
| `SchemaGaps` | how the controllers behave once schema validation is applied to their writes, and once a populate selection hides the field a handler tests |
| `ClientLists`, `ProjectContext`, `TicketContext`, `Kanban` | the client state |
| `VerifyEmailPage`, `MyTasksPage`, `MembersPage`, `WorkspacePage`, `ArchivedPage`, `RegisterPage`, `ResetPasswordPage` | the pages |

Modelling decisions:

- **Collections.** Each collection is a sequence in insertion order. `findById` and `findOne` return the first match, `save` replaces the record with that id, and `deleteMany` filters.
- **Fresh ids.** Fresh ids, clock readings (`now`), OTP codes and reset tokens are parameters.
- **Opaque functions.** bcrypt and sha256 are opaque injective constructors.
- **Mail.** A mail is modelled only as an attempted send. Whether the send fails is a parameter where the outcome depends on it.

## Model

| member | source | states |
|---|---|---|
| Schema.ParseRole | backend/models/User.js:29-33 | a role string is accepted exactly when it names one of admin, manager, developer or viewer, and the parsed role prints back as the same string |
| Schema.ParseProjectStatus | backend/models/Project.js:36-40 | a project status is accepted exactly when it is active, archived or completed, and it round-trips with its name |
| Schema.ParseTicketStatus | backend/models/Ticket.js:35-39 | a ticket status is accepted exactly when it is todo, in-progress or done, and it round-trips with its name |
| Schema.ParsePriority | backend/models/Ticket.js:40-44 | a priority is accepted exactly when it is low, medium, high or critical, and it round-trips with its name |
| Schema.ParseTicketType | backend/models/Ticket.js:45-49 | a ticket type is accepted exactly when it is bug, feature, task or improvement, and it round-trips with its name |
| Schema.NewUser | backend/models/User.js:12-45 | a new user has the normalised email and the hashed password, role developer, is not verified, has notifications on and holds no reset token |
| Schema.NormalizeKey | backend/models/Project.js:14-16 | the stored key is the input upper-cased and then trimmed, so it has no lower-case letter |
| Schema.NormalizeKeyChars | backend/models/Project.js:14-16 | the stored key is one contiguous run of the input, upper-cased character by character, and everything in the input outside that run is whitespace |
| Schema.ValidKeyIsNormal | backend/models/Project.js:11-18 | a key that matches `^[A-Z]{2,10}$` is unchanged by the setter and has at most 10 characters |
| Schema.NewUserSchemaOk | backend/models/User.js:6-28 | a trimmed name of 1 to 50 characters, a non-empty normalised email and a password of at least 6 characters pass the User validators |
| Text.NormalizeEmail | backend/models/User.js:12-17 | the stored email is the input lower-cased and then trimmed, so it has no upper-case letter and does not end in whitespace |
| Text.NormalizeEmailChars | backend/models/User.js:12-17 | the stored email is one contiguous run of the input, lower-cased character by character, and everything in the input outside that run is whitespace |
| Text.Trim | backend/models/User.js:9-17 | the trimmed string is a contiguous slice of the input, with only whitespace outside it, and when non-empty it neither starts nor ends with whitespace |
| Text.TrimIdempotent | backend/models/User.js:9-17 | trimming twice is the same as trimming once |
| Text.NormalizeEmailIdempotent | backend/models/User.js:12-17 | normalising an email twice is the same as normalising it once |
| Text.DigitsOnly | frontend/src/pages/VerifyEmail.jsx:145 | the result keeps exactly the decimal digits of the input, in order |
| Store.UnassignInProject | backend/controllers/projectController.js:103-111 | exactly the tickets of the given project whose assignee is dropped lose their assignee; every other ticket is unchanged, and positions are kept |
| Store.AddMember | backend/controllers/ticketController.js:36-52 | after adding, the user is a member and the members are exactly the old ones plus that user, with the old list a prefix |
| Store.SaveWiderProject | backend/controllers/ticketController.js:36-52 | saving a project with the same owner and a superset of members only widens membership |
| Store.AssigneesKeptWhenProjectsGrow | backend/controllers/ticketController.js:36-52 | an assignee who was a member stays a member after membership only widens |
| ProjectOps.CreateProject | backend/controllers/projectController.js:6-27 | an empty title gives 400 and leaves the store unchanged; otherwise the new project is owned by the caller, is active, has members `[caller]` unless a list is given (which is taken verbatim), and is the only change |
| ProjectOps.GetProjects | backend/controllers/projectController.js:29-41 | the listed projects are exactly the stored projects the caller is a member of, in stored order |
| ProjectOps.GetProjectById | backend/controllers/projectController.js:43-70 | an absent project gives 404 and a non-member gets 403; a member gets the stored project; nothing changes |
| ProjectOps.ByIdIsListed | backend/controllers/projectController.js:29-70 | fetching a project by id succeeds exactly when it is stored and appears in the caller's project list |
| ProjectOps.OwnerGate | backend/controllers/projectController.js:76-84 | existence is checked first (404), then ownership (403); the gate passes exactly for the owner |
| ProjectOps.OwnerGateAdmitsMember | backend/controllers/projectController.js:43-84 | whoever passes the owner gate can also fetch the project by id, and gets the same project |
| ProjectOps.UpdateProject | backend/controllers/projectController.js:72-120 | only the owner succeeds, and a failure changes nothing; only supplied fields change; exactly this project's tickets whose assignee was removed from the members lose the assignee |
| ProjectOps.DeleteProjectSteps | backend/controllers/projectController.js:137-145 | the three writes remove, in order, the comments on the project's tickets, then those tickets, then the project, and nothing else |
| ProjectOps.DeleteProject | backend/controllers/projectController.js:122-151 | only the owner succeeds; afterwards no comment, ticket or project of it remains, and the records of other projects are kept |
| ProjectOps.DeleteProjectStepsKeepLinks | backend/controllers/projectController.js:137-145 | every intermediate store of the cascade still has no comment without its ticket and no ticket without its project |
| ProjectOps.AddTeamMember | backend/controllers/projectController.js:153-199 | the owner gate comes first; a present user gives 400 with no change; otherwise exactly that user is appended, and a mail to them is attempted exactly when they exist and have notifications on |
| ProjectOps.RemoveTeamMember | backend/controllers/projectController.js:201-238 | after the owner gate, removing the owner gives 400; otherwise every occurrence of the user leaves the members and their assignments in this project are cleared, member or not |
| TicketOps.ExpandMembership | backend/controllers/ticketController.js:36-52 | the user becomes a member, the project is saved only if it had to change, and membership only widens |
| TicketOps.MailIfNotified | backend/controllers/ticketController.js:67-86 | at most one mail is attempted, exactly when the user exists and has notifications on |
| TicketOps.CreateTicket | backend/controllers/ticketController.js:7-92 | 400 for a missing title or project, then 404 for an absent project, then 403 for a non-member; an unknown assignee gives 404 after the caller's membership is already saved; on success the project list changes only by saving the project with the caller and then the assignee added, and only if that changed it, and the ticket is the one `BuildTicket` describes |
| TicketOps.BuildTicket | backend/controllers/ticketController.js:54-63 | the new ticket is created by the caller with the given assignee, status todo, no number, and priority medium, type bug and no tags unless given |
| TicketOps.CreateInProject | backend/controllers/ticketController.js:36-63 | inside a project the caller is a member of, the only failure is an unknown assignee, which leaves the tickets unchanged and membership only widened |
| TicketOps.ExpandTwice | backend/controllers/ticketController.js:36-52 | two membership saves in a row leave the same project list as one save of the final project |
| TicketOps.Finish | backend/controllers/ticketController.js:54-86 | the new ticket is appended, and the assignment mail goes out exactly to an assignee who is not the caller and has notifications on |
| TicketOps.GetTickets | backend/controllers/ticketController.js:94-148 | a named project must exist (404) and have the caller as a member (403), and a member naming an existing project always succeeds; the result is an ordered subsequence of tickets in the caller's projects that match the query |
| TicketOps.GetTicketById | backend/controllers/ticketController.js:150-177 | an absent ticket gives 404 and a ticket whose project is gone gives 500; a non-member gets 403; it succeeds exactly for members of the ticket's project and returns the stored ticket; nothing changes |
| TicketOps.ByIdIsListed | backend/controllers/ticketController.js:94-177 | a ticket fetched by id is also in the unfiltered list and in its project's list, and when the project-scoped list can be fetched, fetching the ticket by id succeeds with the stored ticket |
| TicketOps.PatchTicket | backend/controllers/ticketController.js:216-225 | only non-empty fields overwrite; the assignee overwrites whenever it is given, including with null; id, project, creator and number are kept |
| TicketOps.UpdateTicket | backend/controllers/ticketController.js:179-259 | 404, then 500 if the ticket's project is gone, then 403 for a non-member; a named assignee that does not exist gives 404; a member succeeds whenever any named assignee exists; the assignee becomes a member, and the project list changes only by that save; a failure changes nothing; the assignment mail goes out only to a new assignee who is not the caller |
| TicketOps.ApplyTicketUpdate | backend/controllers/ticketController.js:205-253 | once the checks pass, the update succeeds with the patched ticket saved |
| TicketOps.DeleteTicketSteps | backend/controllers/ticketController.js:279-283 | the two writes remove the ticket's comments and then the ticket, and nothing else |
| TicketOps.DeleteTicket | backend/controllers/ticketController.js:261-288 | 404, then 500 if the ticket's project is gone, then 403 for anyone but the project owner or the ticket's creator; it succeeds exactly for them; afterwards the ticket and its comments are gone and everything else is kept |
| TicketOps.DeleteTicketStepsKeepLinks | backend/controllers/ticketController.js:279-283 | both intermediate stores keep every comment's ticket and every ticket's project present |
| TicketOps.UpdateTicketStatus | backend/controllers/ticketController.js:290-351 | a status outside the enum gives 400 before any lookup, then 404, then 500 if the ticket's project is gone, then 403 for a non-member; on success only the status changes; a status mail goes exactly to an assignee who is not the caller and has notifications on, as the handler evidently intends (see Findings) |
| CommentOps.NotifySet | backend/controllers/commentController.js:47-61 | the notified users are exactly the creator and the assignee, minus the caller, each at most once |
| CommentOps.CommentMails | backend/controllers/commentController.js:63-84 | mails go exactly to the notified users who exist and have notifications on, and no user gets two |
| CommentOps.CreateComment | backend/controllers/commentController.js:7-88 | 400 for empty text before any lookup, then 404, then 500 if the ticket's project is gone, then 403 for a non-member; the comment has the caller as author and the ticket as target; it is the only store change, and membership is untouched |
| CommentOps.GetComments | backend/controllers/commentController.js:90-121 | member-only (403); the result is exactly the ticket's comments, ascending by creation time |
| CommentOps.UpdateComment | backend/controllers/commentController.js:123-150 | author-only, with the 403 before the empty-text 400; only the text changes |
| CommentOps.DeleteComment | backend/controllers/commentController.js:152-171 | 404 for a missing comment, then "Not authorized to delete this comment" for anyone but the author, with nothing changed; for the author exactly that comment is removed |
| AuthOps.Register | backend/controllers/authController.js:20-76 | 400 for a missing field, then 400 for a taken email; a schema failure gives 500; success exactly otherwise; the user starts unverified, and a verification OTP expiring ten minutes later is stored |
| AuthOps.RegisterKeepsEmailsUnique | backend/controllers/authController.js:28-40 | registering never creates a second user with the same email |
| AuthOps.RegisterThenLogin | backend/controllers/authController.js:163-196 | right after a successful registration, logging in with the same email and password yields the new user |
| AuthOps.RegisterAcceptsValidInput | backend/controllers/authController.js:20-76 | a valid name, email and password with a free email always register |
| AuthOps.SaveOtp | backend/controllers/authController.js:103-107 | saving an OTP replaces exactly the records with its id |
| AuthOps.SavedOtpReplaces | backend/controllers/authController.js:103-107 | after a save, the previous version of that OTP is gone |
| AuthOps.VerifyEmail | backend/controllers/authController.js:78-116 | 400 for missing input; "Invalid or expired OTP" exactly when no unused, unexpired verification OTP matches the lowercased email and code; when one matches, 404 if its user is gone and otherwise success, with that user verified and that OTP used, nothing else changed |
| AuthOps.RegisterThenVerify | backend/controllers/authController.js:42-116 | the code mailed at registration verifies the new account at any time within its ten minutes, when no older live record has the same address and code |
| AuthOps.MarkVerified | backend/controllers/authController.js:103-107 | the user becomes verified and that OTP is marked used; the other OTPs and all projects, tickets and comments are kept |
| AuthOps.VerifyReplayFails | backend/controllers/authController.js:86-107 | replaying a code that just verified fails, at that time or any later time |
| AuthOps.ResendOtp | backend/controllers/authController.js:118-161 | 400 for no email, 404 for an unknown user, 400 for a verified user; for an unverified user the store is exactly the resend writes, one verification-code mail to that user is attempted, and the result is 500 with the send error or success; a failed send keeps the new OTP |
| AuthOps.Resend | backend/controllers/authController.js:136-149 | the resend writes the old OTPs as used and append one fresh OTP |
| AuthOps.ResendLeavesOneUnused | backend/controllers/authController.js:118-149 | for a request email with no upper-case letter or surrounding whitespace, after a resend the only unused verification OTP for that email is the new one |
| AuthOps.ResentOneUnused | backend/controllers/authController.js:136-149 | a store produced by the resend writes holds exactly one unused OTP for the email |
| AuthOps.PaddedResendKeepsOldCode | backend/controllers/authController.js:118-149 | for an unverified user stored with email e, a resend asked for as " " + e still finds the user, but an unused code already sent to e stays unused next to the new one |
| AuthOps.Login | backend/controllers/authController.js:163-196 | 400 for missing credentials; an unknown email and a wrong password give the same 401; success exactly when the hash matches; nothing changes |
| AuthOps.ForgotPassword | backend/controllers/authController.js:198-242 | 400, then 404; only the token's digest and an expiry one hour ahead are stored; if the mail fails, both fields are cleared and the result is 500; either way no other user and no other collection changes |
| AuthOps.ResetPassword | backend/controllers/authController.js:244-287 | 400 for a missing or short password; success exactly when some user holds the token's digest unexpired; both token fields are cleared; a failure changes nothing |
| AuthOps.ForgotThenReset | backend/controllers/authController.js:212-278 | a token from a delivered reset mail resets the password within the hour |
| AuthOps.ResetTokenSingleUse | backend/controllers/authController.js:262-278 | a reset token that worked once never works again |
| AuthOps.DeleteUser | backend/controllers/authController.js:339-386 | 404, then 400 carrying the number of projects the user owns, then 400 carrying the number of tickets assigned to them; authored tickets and comments do not block, and they are counted in the report; only that user is removed |
| AuthOps.DeleteUserKeepsRoles | backend/controllers/authController.js:339-386 | after deletion, every project owner and every ticket assignee is still a stored user |
| Invariants.CreateProjectKeeps | backend/controllers/projectController.js:6-27 | creating a project keeps the store consistent |
| Invariants.UpdateProjectKeeps | backend/controllers/projectController.js:72-120 | updating a project keeps assignees members, because removed members are unassigned |
| Invariants.AddTeamMemberKeeps | backend/controllers/projectController.js:153-199 | adding a member keeps the store consistent |
| Invariants.RemoveTeamMemberKeeps | backend/controllers/projectController.js:201-238 | removing a member keeps assignees members |
| Invariants.DeleteProjectKeeps | backend/controllers/projectController.js:122-151 | the delete cascade leaves no dangling ticket or comment |
| Invariants.CreateTicketKeeps | backend/controllers/ticketController.js:7-92 | creating a ticket, including the partial save before a 404, keeps the store consistent |
| Invariants.UpdateTicketKeeps | backend/controllers/ticketController.js:179-259 | updating a ticket keeps its assignee a member |
| Invariants.UpdateTicketStatusKeeps | backend/controllers/ticketController.js:290-351 | a status change keeps the store consistent |
| Invariants.DeleteTicketKeeps | backend/controllers/ticketController.js:261-288 | deleting a ticket leaves no dangling comment |
| Invariants.CreateCommentKeeps | backend/controllers/commentController.js:7-88 | creating a comment keeps the store consistent |
| Invariants.UpdateCommentKeeps | backend/controllers/commentController.js:123-150 | editing a comment keeps the store consistent |
| Invariants.DeleteCommentKeeps | backend/controllers/commentController.js:152-171 | deleting a comment keeps the store consistent |
| Invariants.ReplaceProjectKeeps | backend/controllers/projectController.js:103-111 | replacing a project while unassigning every ticket whose assignee would fall out keeps the store consistent |
| Invariants.ReplaceTicketKeeps | backend/controllers/ticketController.js:227-228 | saving a ticket whose assignee is a member of its grown project keeps the store consistent |
| SchemaGaps.CreateProjectAsWritten | backend/controllers/projectController.js:14-19 | once the schema validators run, project creation never succeeds: a non-empty title gives 500 because `key` is missing |
| SchemaGaps.CreateTicketAsWritten | backend/controllers/ticketController.js:54-63 | once the schema validators run, ticket creation never succeeds; where the handler would succeed it gives 500, after saving the caller's membership |
| SchemaGaps.UpdateTicketStatusSelecting | backend/controllers/ticketController.js:318-345 | with the assignee re-populated through a field selection, the status change writes and replies as the corrected handler, and mails exactly as it does when the selection loads the notification flag and never otherwise |
| SchemaGaps.UpdateTicketStatusAsWritten | backend/controllers/ticketController.js:322-326 | with the name-and-email selection the handler writes and replies as the corrected one and never sends a status mail |
| SchemaGaps.StatusMailDropped | backend/controllers/ticketController.js:322-326 | a member changing the status of a ticket assigned to someone else with notifications on: the corrected handler mails the assignee, the handler as written sends nothing |
| SchemaGaps.KeyedProjectPassesSchema | backend/models/Project.js:3-45 | the project the controller builds, given a valid key and titles within bounds, passes the Project validators |
| SchemaGaps.NumberedTicketPassesSchema | backend/models/Ticket.js:3-65 | the ticket the controller builds, given any ticket number and text within bounds, passes the Ticket validators |
| ClientLists.ReplaceById | frontend/src/contexts/ProjectContext.jsx:38-49 | exactly the items with the matching id are replaced, and length and order are kept |
| ClientLists.RemoveById | frontend/src/contexts/ProjectContext.jsx:50-57 | exactly the items with the id are removed, and the rest keep their order |
| ClientLists.SyncCurrent | frontend/src/contexts/ProjectContext.jsx:44-47 | the current item is replaced only when its id matches |
| ClientLists.DropCurrent | frontend/src/contexts/ProjectContext.jsx:54-55 | the current item is cleared exactly when its id matches |
| ClientLists.ReplaceIdempotent | frontend/src/contexts/ProjectContext.jsx:38-49 | replacing twice with the same item is the same as replacing once |
| ClientLists.RemoveAfterPrepend | frontend/src/contexts/ProjectContext.jsx:32-57 | removing a just-prepended item with a new id gives back the old list |
| ClientLists.ReplaceAgrees | frontend/src/contexts/ProjectContext.jsx:38-49 | an update keeps the current item equal to the list's item with its id |
| ClientLists.RemoveAgrees | frontend/src/contexts/ProjectContext.jsx:50-57 | a delete keeps the current item in agreement with the list |
| ProjectContext.Reduce | frontend/src/contexts/ProjectContext.jsx:22-63 | per action: SET_PROJECTS replaces the list and clears the error; ADD prepends; UPDATE and DELETE act by id and sync the current project; SET_ERROR stops loading; CLEAR changes only the current project; an unknown action changes nothing |
| ProjectContext.ReduceKeepsAgreement | frontend/src/contexts/ProjectContext.jsx:22-63 | the list actions keep the current project in agreement with the list |
| ProjectContext.AddThenDelete | frontend/src/contexts/ProjectContext.jsx:32-57 | deleting a just-added project restores the list |
| ProjectContext.UpdateTwice | frontend/src/contexts/ProjectContext.jsx:38-49 | repeating an update changes nothing more |
| TicketContext.Reduce | frontend/src/contexts/TicketContext.jsx:30-75 | as for projects; in addition SET_FILTERS overwrites exactly the given keys and keeps the others, and CLEAR_FILTERS restores the initial filters |
| TicketContext.Query | frontend/src/contexts/TicketContext.jsx:83-86 | a key is sent exactly when its value, taken from the params over the stored filters, is truthy |
| TicketContext.ClearedQueryIsEmpty | frontend/src/contexts/TicketContext.jsx:15-28 | the initial filters send no query parameter at all |
| TicketContext.StoredFiltersActAsParams | frontend/src/contexts/TicketContext.jsx:66-86 | storing a patch with SET_FILTERS and then querying with no params gives the same query as passing the patch as params |
| TicketContext.ReduceKeepsAgreement | frontend/src/contexts/TicketContext.jsx:30-75 | the list actions keep the current ticket in agreement with the list |
| TicketContext.AddThenDelete | frontend/src/contexts/TicketContext.jsx:40-65 | deleting a just-added ticket restores the list |
| Kanban.Group | frontend/src/components/KanbanBoard.jsx:42-49 | each column holds exactly the tickets with its status, in their original order |
| Kanban.GroupPartitions | frontend/src/components/KanbanBoard.jsx:42-49 | the three columns together are a permutation of the tickets, so no ticket is lost or doubled |
| Kanban.WithColumn | frontend/src/components/KanbanBoard.jsx:68-79 | setting one column leaves the others unchanged |
| Kanban.SpliceRemove | frontend/src/components/KanbanBoard.jsx:69 | the element at the index is removed and the others shift down one place |
| Kanban.SpliceInsert | frontend/src/components/KanbanBoard.jsx:70 | the element lands at the index, clamped to the end, and the rest keep their order |
| Kanban.RemoveInserted | frontend/src/components/KanbanBoard.jsx:69-70 | removing at the position just inserted gives back the column |
| Kanban.InsertRemoved | frontend/src/components/KanbanBoard.jsx:69-70 | reinserting a removed element at its old position gives back the column |
| Kanban.MoveWithin | frontend/src/components/KanbanBoard.jsx:68-71 | a same-column move permutes that column, puts the card at the destination index, and leaves the other columns alone |
| Kanban.MoveAcross | frontend/src/components/KanbanBoard.jsx:72-79 | a cross-column move takes the card from the source index and puts it at the destination index; the total count is kept |
| Kanban.DragEnd | frontend/src/components/KanbanBoard.jsx:51-96 | no destination, the same place or an unknown id is a no-op; only cross-column moves call the status update, with the destination column |
| Kanban.Settle | frontend/src/components/KanbanBoard.jsx:42-96 | with no status call the drag's columns stand; a failed call restores the columns from before the drag; a saved ticket replaces its namesake in the list, every column then holds exactly the listed tickets of its status, any card with the saved id is the saved ticket, and a ticket that was listed shows in the column of its new status |
| Kanban.SettleShowsList | frontend/src/contexts/TicketContext.jsx:137-147 | after a status call settles, the board is exactly the grouping of the ticket list the context now holds |
| Kanban.DragBackRestores | frontend/src/components/KanbanBoard.jsx:51-96 | dragging a card back to where it came from restores the board |
| VerifyEmailPage.SanitizeCode | frontend/src/pages/VerifyEmail.jsx:145 | the code holds only digits, at most 6 of them, and is the first digits of the input in order |
| VerifyEmailPage.SanitizeIdempotent | frontend/src/pages/VerifyEmail.jsx:145 | sanitising twice is the same as sanitising once |
| VerifyEmailPage.Type | frontend/src/pages/VerifyEmail.jsx:144-148 | typing stores the sanitised code and clears the error, and nothing else changes |
| VerifyEmailPage.TypedCodeWellFormed | frontend/src/pages/VerifyEmail.jsx:175 | after typing, verify is enabled exactly when nothing is loading and the input held at least 6 digits |
| VerifyEmailPage.Tick | frontend/src/pages/VerifyEmail.jsx:33-37 | the countdown drops by one while it is positive |
| VerifyEmailPage.TicksCountDown | frontend/src/pages/VerifyEmail.jsx:33-37 | after k ticks the countdown is k lower, floored at zero, and nothing else changes |
| VerifyEmailPage.ResendMessage | frontend/src/pages/VerifyEmail.jsx:66 | the shown message is never empty: the server's message when it has one, otherwise the fallback |
| VerifyEmailPage.ResendStarted | frontend/src/pages/VerifyEmail.jsx:57-59 | pressing resend clears the error and locks the button, and nothing else changes |
| VerifyEmailPage.ResendSettled | frontend/src/pages/VerifyEmail.jsx:61-68 | a successful resend sets the countdown to 60; a failure shows the server's message, or the fallback, and keeps the countdown; the button unlocks either way |
| VerifyEmailPage.Resend | frontend/src/pages/VerifyEmail.jsx:57-70 | the whole handler: a success leaves no earlier error and restarts the countdown at 60; a failure shows only its own message |
| VerifyEmailPage.ResendLocksForCooldown | frontend/src/pages/VerifyEmail.jsx:200 | after a successful resend the resend button stays disabled for exactly 60 ticks |
| MyTasksPage.FilteredTickets | frontend/src/pages/MyTasks.jsx:99-108 | an ordered subsequence of exactly the tickets that pass the project, priority and type filters; with every filter 'all' it is all tickets |
| MyTasksPage.Stats | frontend/src/pages/MyTasks.jsx:110-115 | the total is the number shown, and each status count is the number shown with that status |
| MyTasksPage.StatsAddUp | frontend/src/pages/MyTasks.jsx:110-115 | todo + in progress + done = total |
| MembersPage.FilteredMembers | frontend/src/pages/Members.jsx:80-100 | a permutation of exactly the members that match the search on name or email, case-insensitively, and the role; non-increasing by active or completed count, with missing stats as 0; in name order; members tied on the sort key keep their filtered order; unchanged order for another key |
| MembersPage.SortKeepsTies | frontend/src/pages/Members.jsx:91-100 | for each sort key, the members with equal key values come out in the order they went in |
| MembersPage.PrecedesTotal | frontend/src/pages/Members.jsx:91-100 | every sort comparator orders any two members one way or the other |
| MembersPage.SortByKey | frontend/src/pages/Members.jsx:91-100 | the sort orders by the chosen comparator, and for an unknown key it keeps the order |
| MembersPage.EveryoneListedUnfiltered | frontend/src/pages/Members.jsx:82-89 | an empty search with role 'all' lists every member |
| WorkspacePage.FilteredProjects | frontend/src/pages/Workspace.jsx:100-110 | an ordered subsequence of exactly the projects whose title or key contains the search, ignoring case, and whose status passes; a missing key never matches; empty search with 'all' gives all projects |
| ArchivedPage.ArchivedProjects | frontend/src/pages/Archived.jsx:78-80 | exactly the archived or completed projects, in order |
| ArchivedPage.CompletedTickets | frontend/src/pages/Archived.jsx:82 | exactly the done tickets, in order |
| ArchivedPage.FilteredProjects | frontend/src/pages/Archived.jsx:84-90 | a subsequence of the archived projects, with exactly those that match the search on title or key |
| ArchivedPage.ArchiveSearchIsWorkspaceSearch | frontend/src/pages/Archived.jsx:84-90 | the archive search is the Workspace search with status 'all', restricted to shelved projects |
| ArchivedPage.FilteredTickets | frontend/src/pages/Archived.jsx:92-99 | done tickets whose title alone matches the search and whose project passes; 'all' with an empty search gives every done ticket |
| RegisterPage.Submit | frontend/src/pages/Register.jsx:37-68 | an empty required field blocks the browser submit; a mismatch is reported before a short password; the call goes out exactly when both checks pass, with name, email and password and no confirmation |
| RegisterPage.SentFormRegisters | frontend/src/pages/Register.jsx:41-55 | a form the page sends, with a valid name and email not yet taken, registers successfully on the server |
| ResetPasswordPage.Submit | frontend/src/pages/ResetPassword.jsx:34-62 | a mismatch is reported before a short password; no call is made when either fails; the call carries only the password and the route token |
| ResetPasswordPage.SentResetDependsOnlyOnToken | frontend/src/pages/ResetPassword.jsx:38-51 | for a form the page sends, the server's reset succeeds exactly when the token is held and unexpired |

## Left out

- Mongoose I/O: queries, `populate` and the gaps between awaited writes are not modelled, except for the field selection behind the status-change mail (a Finding below). The store is one immutable value, and each handler's writes are applied in source order.
- Sort orders by `createdAt` in `getProjects` and `getTickets`. These results are modelled in stored order, while `getComments` is sorted.
- TicketOps.GetTickets: the `$regex` search is modelled as a case-insensitive literal substring test, so regex metacharacters are not interpreted.
- Text.Lower: case mapping covers ASCII only, because JavaScript's full Unicode case tables are out of scope.
- MembersPage.FilteredMembers: `localeCompare` is modelled as code-unit lexicographic order, because locale collation is not specified.
- AuthOps.Register: the email `match` regex of the User schema is not modelled; only the required, trim and lowercase parts are.
- The bcrypt pre-save hook of backend/models/User.js is not modelled, and hashing is an opaque function applied where the password is set.
- ProjectOps.CreateProject: the trim and 100/500-character validators of the Project schema are not applied. The required `key` is the subject of a Finding below.
- ProjectOps.UpdateProject: the length and enum validators that `save()` would run on the updated project are not applied. Neither are the `trim` setters on title and description (backend/models/Project.js:8, 22): ProjectOps.ApplyPatch stores a patched value as given, where the source stores it trimmed. A whitespace-only title is truthy, so the source assigns it, the setter leaves "", and `save()` fails the required validator with a 500 after the `Ticket.updateMany` unassignment of removed members has already run (projectController.js:103-113). The model returns success with the untrimmed title.
- TicketOps.CreateTicket: the 200/2000-character validators of the Ticket schema are not applied. Neither are the `trim` setters on title, description and each tag (backend/models/Ticket.js:8, 17, 53): TicketOps.BuildTicket stores them as given, where the source stores them trimmed, and a whitespace-only title, which passes the handler's `!title` test, would be trimmed to "" and refused by the required validator with a 500. Schema.TicketSchemaOk likewise tests the untrimmed title. Priority and type arrive as parsed enum values, so the schema's enum validators (backend/models/Ticket.js:40-49) are not modelled either: a request with a priority or type outside the enum would get a ValidationError 500 from `Ticket.create`. The required `ticketNumber` is the subject of a Finding below.
- TicketOps.UpdateTicket: the length validators and the status, priority and type enum checks that `save()` would run are not applied. Neither are the `trim` setters on title, description and tags (backend/models/Ticket.js:8, 17, 53): TicketOps.PatchTicket stores patched values as given, where the source stores them trimmed. A whitespace-only title is truthy, so the source assigns it, the setter leaves "", and `ticket.save()` fails with a 500 after the membership save of a new assignee (ticketController.js:210-227). The model returns success with the untrimmed title. Enum fields in a patch are already parsed values.
- CommentOps.CreateComment: the trim and 1000-character validators of the Comment schema are not applied.
- CommentOps.UpdateComment: the 1000-character validator is not applied, and neither is the `trim` setter on text (backend/models/Comment.js:18). The model stores the text as given, where the source stores it trimmed. A whitespace-only text passes the handler's `!text` test, is trimmed to "", and `comment.save()` fails the required validator with a 500 (commentController.js:138-143); the model returns success with the untrimmed text, and Schema.CommentSchemaOk likewise tests the untrimmed text.
- Analytics, `getMe`, `updateProfile` and `getAllUsers` are outside the modelled core.
- Routes, JWT issuing and the authentication middleware are not modelled. The actor is a parameter.
- `generateOTP` and `crypto.randomBytes` are not modelled, because they rely on randomness. The code and the token are parameters.
- Email templates and transport are not modelled. Only the attempted send is. A send failure is a parameter where it changes the outcome: in resend and in forgot-password.
- AuthOps.RegisterThenVerify: requires a request email with no surrounding whitespace. Register stores the trimmed address on the code record, while verifyEmail looks the code up under the untrimmed lower-cased request, so a padded address does not find its code. models/OTP.js is not part of this model.
- AuthOps.ResendLeavesOneUnused: requires a request email that is already lower-case and has no surrounding whitespace. The user lookup goes through the email setters, which trim, but the update that uses up old codes matches the lower-cased request as given. So for a padded email the older codes stay unused, which AuthOps.PaddedResendKeepsOldCode shows. Whether the OTP schema trims its email is not known here, because models/OTP.js is not part of this model.
- AuthOps.Register, AuthOps.ResetPassword, RegisterPage.Submit, ResetPasswordPage.Submit and Schema.NewUserSchemaOk: JavaScript `.length` counts UTF-16 code units, while `|s|` counts characters. The password and name length checks therefore differ for characters outside the Basic Multilingual Plane.
- Text.IsSpace, Text.Trim, Text.NormalizeEmail and Schema.NormalizeKey: whitespace is the ASCII set (space, tab, line feed, vertical tab, form feed, carriage return). JavaScript `trim` also strips Unicode spaces and line terminators, such as the no-break space.
- RegisterPage.Submit: the browser's `type="email"` check on the email field (frontend/src/pages/Register.jsx:146) is not modelled. The browser blocks submission of a malformed address and strips whitespace from the value. The model treats the field as plain text that only has to be non-empty.
- TicketOps.GetTickets: the `status`, `priority` and `type` query values are taken as already parsed enum values. A string outside the enum, which Mongoose would match against nothing, is not modelled.
- Kanban.DragEnd: the drag id is modelled as the ticket id, and the drag library's guarantee of a valid source index is a precondition.
- MyTasksPage.FilteredTickets and ArchivedPage.FilteredTickets: a ticket's populated project is taken as present, so the `?.` case of a missing project is not modelled.
- Members input shape: the endpoint that would supply members with stats, `getTeamMembers`, is not defined in the backend. The page is modelled over a given list.
- React rendering, toasts, navigation and styling are not modelled.

## Findings

| source | as written | input that shows it | evidently intended | confidence | as-written member | corrected member |
|---|---|---|---|---|---|---|
| backend/controllers/projectController.js:14-19 | `Project.create` is called without a `key`, but the schema requires one (backend/models/Project.js:11-18) | any createProject request with a non-empty title | creation succeeds with a key supplied or generated | not executed | SchemaGaps.CreateProjectAsWritten | ProjectOps.CreateProject |
| backend/controllers/ticketController.js:54-63 | `Ticket.create` is called without a `ticketNumber`, but the schema requires one (backend/models/Ticket.js:11-14) | any createTicket request by a member with a valid title, project and assignee | creation succeeds with a per-project number | not executed | SchemaGaps.CreateTicketAsWritten | TicketOps.CreateTicket |
| backend/controllers/ticketController.js:322-326 | the assignee is re-populated with only `name email`, then `emailNotifications` is tested; the unselected field is undefined | a member moves a ticket assigned to another user whose notifications are on | that assignee is mailed, as createTicket does after a fresh `User.findById` (ticketController.js:65-69) | not executed; medium, since it rests on Mongoose re-populating an already populated path and not applying defaults to unselected fields | SchemaGaps.UpdateTicketStatusAsWritten | TicketOps.UpdateTicketStatus |

=== FILE: archived_page.dfy ===
/** frontend/src/pages/Archived.jsx: finished projects and done tickets,
    narrowed by the page's search box and project select. */
module ArchivedPage {
  import opened Seqs
  import opened Text
  import opened Schema
  import opened ClientLists
  import WorkspacePage

  function IsShelved(p: Project): bool {
    p.status == Archived || p.status == Completed
  }

  /** `archivedProjects`. */
  function ArchivedProjects(ps: seq<Project>): (r: seq<Project>)
    ensures IsSubseq(r, ps)
    ensures forall p :: p in r <==> p in ps && (p.status == Archived || p.status == Completed)
  {
    Filter(ps, IsShelved)
  }

  /** `completedTickets`. */
  function CompletedTickets(ts: seq<Ticket>): (r: seq<Ticket>)
    ensures IsSubseq(r, ts)
    ensures forall t :: t in r <==> t in ts && t.status == Done
  {
    Filter(ts, StatusIs(Done))
  }

  /** `filteredProjects`: the same search as the workspace page. */
  function FilteredProjects(ps: seq<Project>, search: string): (r: seq<Project>)
    ensures IsSubseq(r, ArchivedProjects(ps))
    ensures forall p :: p in r <==>
      p in ps && (p.status == Archived || p.status == Completed) && WorkspacePage.SearchMatches(search, p)
  {
    Filter(ArchivedProjects(ps), WorkspacePage.Searcher(search))
  }

  /** Searching the archive is searching the workspace with every status
      admitted and keeping the finished projects. */
  lemma ArchiveSearchIsWorkspaceSearch(ps: seq<Project>, search: string)
    ensures FilteredProjects(ps, search) ==
      Filter(WorkspacePage.FilteredProjects(ps, WorkspacePage.WorkspaceFilters(search, All)), IsShelved)
  {
    var f := WorkspacePage.WorkspaceFilters(search, All);
    FilterCommutes(ps, IsShelved, WorkspacePage.Searcher(search));
    FilterSameKeep(ps, WorkspacePage.Matcher(f), WorkspacePage.Searcher(search));
  }

  predicate TicketMatches(search: string, project: Choice<ProjectId>, t: Ticket) {
    (search == "" || IncludesIgnoreCase(t.title, search)) && Admits(project, t.project)
  }

  function TicketMatcher(search: string, project: Choice<ProjectId>): Ticket -> bool {
    (t: Ticket) => TicketMatches(search, project, t)
  }

  /** `filteredTickets`: the search looks at titles only. */
  function FilteredTickets(ts: seq<Ticket>, search: string, project: Choice<ProjectId>): (r: seq<Ticket>)
    ensures IsSubseq(r, CompletedTickets(ts))
    ensures forall t :: t in r <==>
      t in ts && t.status == Done && (search == "" || IncludesIgnoreCase(t.title, search)) && Admits(project, t.project)
    ensures search == "" && project.All? ==> r == CompletedTickets(ts)
  {
    Filter(CompletedTickets(ts), TicketMatcher(search, project))
  }
}

=== FILE: auth_ops.dfy ===
/** backend/controllers/authController.js: registration with an emailed
    one-time code, email verification, login, the password-reset token
    lifecycle and the guards on deleting a user. Random codes and tokens
    arrive as parameters; whether a mail was delivered is a parameter only
    where the source lets a delivery failure change the outcome. */
module AuthOps {
  import opened Wrappers
  import opened Seqs
  import opened Text
  import opened Schema
  import opened Store

  const MissingFields := "Please provide all required fields"
  const UserAlreadyExists := "User already exists"
  const EmailAndOtpRequired := "Email and OTP are required"
  const InvalidOtp := "Invalid or expired OTP"
  const UserNotFound := "User not found"
  const EmailRequired := "Email is required"
  const AlreadyVerified := "Email is already verified"
  const MissingCredentials := "Please provide email and password"
  const InvalidCredentials := "Invalid credentials"
  const EmailAddressRequired := "Please provide email address"
  const NoUserWithEmail := "No user found with this email"
  const EmailNotSent := "Email could not be sent"
  const NewPasswordRequired := "Please provide new password"
  const PasswordTooShort := "Password must be at least 6 characters"
  const InvalidResetToken := "Invalid or expired reset token"
  const OwnsProjects := "Cannot delete user who owns projects. Transfer ownership first."
  const HasAssignedTickets := "Cannot delete user with assigned tickets. Unassign tickets first."
  const Verified := "Email verified successfully"
  const OtpSent := "Verification OTP sent to your email"
  const ResetLinkSent := "Password reset link sent to your email"
  /** The head of the message Mongoose gives a failed `User.create`. */
  const UserValidationFailed := "User validation failed"

  /** A verification code lives ten minutes, a reset token one hour. */
  const OtpLifetime: int := 10 * 60 * 1000
  const ResetLifetime: int := 60 * 60 * 1000
  const MinPasswordLength := 6

  predicate FreshOtpId(st: Store, id: OtpId) {
    forall o :: o in st.otps ==> o.id != id
  }

  /** `otp.save()`. */
  function SaveOtp(st: Store, o: Otp): (r: Store)
    ensures r == st.(otps := r.otps)
    ensures |r.otps| == |st.otps|
    ensures forall i :: 0 <= i < |st.otps| ==>
      r.otps[i] == if st.otps[i].id == o.id then o else st.otps[i]
  {
    st.(otps := MapSeq(st.otps, (q: Otp) => if q.id == o.id then o else q))
  }

  /** After `otp.save()` no other version of the saved record is left. */
  lemma SavedOtpReplaces(st: Store, o: Otp, prev: Otp)
    requires prev.id == o.id && prev != o
    ensures prev !in SaveOtp(st, o).otps
  {
    var r := SaveOtp(st, o);
    forall k | 0 <= k < |r.otps|
      ensures r.otps[k] != prev
    {
    }
  }

  /** The verifyEmail query: that address, that code, unused, not yet expired. */
  predicate LiveOtp(o: Otp, email: string, code: string, now: Millis) {
    o.email == email && o.code == code && o.purpose == EmailVerification && !o.isUsed && o.expiresAt > now
  }

  /** An unused verification code for that address, whatever its value. */
  predicate Unused(o: Otp, email: string) {
    o.email == email && o.purpose == EmailVerification && !o.isUsed
  }

  // ------------------------------------------------------------- register

  /** register: 400 when a field is missing, 400 when the normalised email is
      taken, 500 when `User.create` rejects the document (a name over 50
      characters or blank once trimmed, a password under six characters);
      otherwise an unverified user and a ten-minute code for the user's
      stored email. The code is mailed; a failed send is swallowed. */
  function Register(st: Store, name: string, email: string, password: string, now: Millis,
                    userId: UserId, otpId: OtpId, code: string): (r: Outcome<User>)
    requires FreshUserId(st, userId) && FreshOtpId(st, otpId)
    ensures r.result.Failure? ==> r.store == st && r.mails == []
    ensures name == "" || email == "" || password == "" ==> r == Fail(st, BadRequest(MissingFields))
    ensures r.result.Success? <==>
      && name != "" && email != "" && password != "" && FindUserByEmail(st, email).None?
      && UserSchemaOk(NewUser(userId, name, email, password))
    ensures name != "" && email != "" && password != "" && FindUserByEmail(st, email).Some? ==>
      r == Fail(st, BadRequest(UserAlreadyExists))
    ensures name != "" && email != "" && password != "" && FindUserByEmail(st, email).None? &&
            |password| < MinPasswordLength ==>
      r == Fail(st, ServerError(UserValidationFailed))
    ensures r.result.Success? ==>
      var u := r.result.value;
      && u == NewUser(userId, name, email, password)
      && !u.isEmailVerified && u.email == NormalizeEmail(email)
      && r.store.users == st.users + [u]
      && r.store.otps == st.otps + [Otp(otpId, userId, u.email, code, EmailVerification, false, now + OtpLifetime)]
      && r.store.projects == st.projects && r.store.tickets == st.tickets && r.store.comments == st.comments
      && r.mails == [Mail(userId, VerificationCode(code))]
  {
    if name == "" || email == "" || password == "" then Fail(st, BadRequest(MissingFields))
    else if FindUserByEmail(st, email).Some? then Fail(st, BadRequest(UserAlreadyExists))
    else if !UserSchemaOk(NewUser(userId, name, email, password)) then Fail(st, ServerError(UserValidationFailed))
    else
      var u := NewUser(userId, name, email, password);
      var o := Otp(otpId, userId, u.email, code, EmailVerification, false, now + OtpLifetime);
      Outcome(st.(users := st.users + [u], otps := st.otps + [o]), [Mail(userId, VerificationCode(code))], Success(u))
  }

  /** register never creates a second account for a normalised email. */
  lemma RegisterKeepsEmailsUnique(st: Store, name: string, email: string, password: string, now: Millis,
                                  userId: UserId, otpId: OtpId, code: string)
    requires FreshUserId(st, userId) && FreshOtpId(st, otpId)
    requires EmailsUnique(st.users)
    ensures EmailsUnique(Register(st, name, email, password, now, userId, otpId, code).store.users)
  {
    var r := Register(st, name, email, password, now, userId, otpId, code);
    if r.result.Success? {
      var us := r.store.users;
      forall i, j | 0 <= i < j < |us|
        ensures us[i].email != us[j].email
      {
        if j == |us| - 1 {
          assert us[i] in st.users;
        } else {
          assert us[i] == st.users[i] && us[j] == st.users[j];
        }
      }
    }
  }

  /** A freshly registered account logs in with the password it registered. */
  lemma {:induction false} RegisterThenLogin(st: Store, name: string, email: string, password: string, now: Millis,
                                             userId: UserId, otpId: OtpId, code: string)
    requires FreshUserId(st, userId) && FreshOtpId(st, otpId)
    requires Register(st, name, email, password, now, userId, otpId, code).result.Success?
    ensures Login(Register(st, name, email, password, now, userId, otpId, code).store, email, password).result
            == Success(userId)
  {
    var r := Register(st, name, email, password, now, userId, otpId, code);
    var u := r.result.value;
    FindAppend(st.users, [u], (x: User) => x.email == NormalizeEmail(email));
    assert FindUserByEmail(r.store, email) == Some(u);
  }

  /** Inputs that meet every User validator and an unused address always
      register: the 500 branch is reached only through the validators. */
  lemma RegisterAcceptsValidInput(st: Store, name: string, email: string, password: string, now: Millis,
                                  userId: UserId, otpId: OtpId, code: string)
    requires FreshUserId(st, userId) && FreshOtpId(st, otpId)
    requires 0 < |Trim(name)| <= 50 && NormalizeEmail(email) != "" && |password| >= MinPasswordLength
    requires FindUserByEmail(st, email).None?
    ensures Register(st, name, email, password, now, userId, otpId, code).result.Success?
  {
    NewUserSchemaOk(userId, name, email, password);
  }

  // ---------------------------------------------------------- verifyEmail

  /** verifyEmail: the first code record for the lower-cased address that
      matches, is unused and has not expired. A wrong code and an expired one
      are the same 400. On success the owner is marked verified and the code
      used. */
  function VerifyEmail(st: Store, email: string, code: string, now: Millis): (r: Outcome<string>)
    ensures r.mails == []
    ensures r.result.Failure? ==> r.store == st
    ensures email == "" || code == "" ==> r.result == Failure(BadRequest(EmailAndOtpRequired))
    ensures email != "" && code != "" ==>
      (r.result == Failure(BadRequest(InvalidOtp)) <==>
        forall o :: o in st.otps ==> !LiveOtp(o, Lower(email), code, now))
    ensures email != "" && code != "" && FirstLive(st, email, code, now).Some? ==>
      var o := FirstLive(st, email, code, now).value;
      && (FindUser(st, o.user).None? ==> r.result == Failure(NotFound(UserNotFound)))
      && (FindUser(st, o.user).Some? ==>
            r.result == Success(Verified) && r.store == MarkVerified(st, o, FindUser(st, o.user).value))
    ensures r.result.Success? ==>
      exists o :: o in st.otps && LiveOtp(o, Lower(email), code, now) && VerifiedBy(st, o, r.store)
  {
    if email == "" || code == "" then Fail(st, BadRequest(EmailAndOtpRequired))
    else
      match FirstLive(st, email, code, now)
      case None => Fail(st, BadRequest(InvalidOtp))
      case Some(o) =>
        match FindUser(st, o.user)
        case None => Fail(st, NotFound(UserNotFound))
        case Some(u) => Outcome(MarkVerified(st, o, u), [], Success(Verified))
  }

  /** The record `OTP.findOne` returns for a verification request. */
  function FirstLive(st: Store, email: string, code: string, now: Millis): Option<Otp> {
    Find(st.otps, (o: Otp) => LiveOtp(o, Lower(email), code, now))
  }

  /** The code register mails verifies the new account while it is live,
      provided no older record for the same address and code is also live. */
  lemma {:induction false} RegisterThenVerify(st: Store, name: string, email: string, password: string, now: Millis,
                                              userId: UserId, otpId: OtpId, code: string, later: Millis)
    requires FreshUserId(st, userId) && FreshOtpId(st, otpId)
    requires Register(st, name, email, password, now, userId, otpId, code).result.Success?
    requires code != "" && NormalizeEmail(email) == Lower(email)
    requires now <= later < now + OtpLifetime
    requires forall o :: o in st.otps ==> !LiveOtp(o, Lower(email), code, later)
    ensures var r := Register(st, name, email, password, now, userId, otpId, code);
            var v := VerifyEmail(r.store, email, code, later);
            && v.result == Success(Verified)
            && FindUser(v.store, userId).Some? && FindUser(v.store, userId).value.isEmailVerified
  {
    var r := Register(st, name, email, password, now, userId, otpId, code);
    var u := r.result.value;
    var o := Otp(otpId, userId, u.email, code, EmailVerification, false, now + OtpLifetime);
    FindAppend(st.otps, [o], (x: Otp) => LiveOtp(x, Lower(email), code, later));
    assert FirstLive(r.store, email, code, later) == Some(o);
    FindAppend(st.users, [u], (x: User) => x.id == userId);
    assert FindUser(r.store, userId) == Some(u);
  }

  /** The two writes of a successful verification. */
  function MarkVerified(st: Store, o: Otp, u: User): (r: Store)
    requires FindUser(st, o.user) == Some(u) && !o.isUsed
    ensures FindUser(r, o.user).Some? && FindUser(r, o.user).value.isEmailVerified
    ensures o !in r.otps
    ensures forall x :: x in r.otps ==> x in st.otps || x == o.(isUsed := true)
    ensures forall x :: x in st.otps && x.id != o.id ==> x in r.otps
    ensures r.projects == st.projects && r.tickets == st.tickets && r.comments == st.comments
  {
    var st1 := SaveUser(st, u.(isEmailVerified := true));
    var st2 := SaveOtp(st1, o.(isUsed := true));
    FindAfterSaveUser(st, u.(isEmailVerified := true), o.user);
    SavedOtpReplaces(st1, o.(isUsed := true), o);
    st2
  }

  /** The writes of a successful verification with code record `o`. */
  predicate VerifiedBy(st: Store, o: Otp, st2: Store) {
    && FindUser(st2, o.user).Some? && FindUser(st2, o.user).value.isEmailVerified
    && o !in st2.otps
    && (forall x :: x in st2.otps ==> x in st.otps || x == o.(isUsed := true))
    && (forall x :: x in st.otps && x.id != o.id ==> x in st2.otps)
    && st2.projects == st.projects && st2.tickets == st.tickets && st2.comments == st.comments
  }

  predicate AtMostOneLive(otps: seq<Otp>, email: string, code: string, now: Millis) {
    forall a, b :: a in otps && b in otps && LiveOtp(a, email, code, now) && LiveOtp(b, email, code, now) ==> a == b
  }

  /** A code cannot be used twice: when at most one live record matches, a
      second verification with the same address and code, now or later, is
      refused with the invalid-code 400. */
  lemma VerifyReplayFails(st: Store, email: string, code: string, now: Millis, later: Millis)
    requires now <= later
    requires AtMostOneLive(st.otps, Lower(email), code, now)
    requires VerifyEmail(st, email, code, now).result.Success?
    ensures VerifyEmail(VerifyEmail(st, email, code, now).store, email, code, later).result
            == Failure(BadRequest(InvalidOtp))
  {
    var st2 := VerifyEmail(st, email, code, now).store;
    var o :| o in st.otps && LiveOtp(o, Lower(email), code, now) && VerifiedBy(st, o, st2);
    forall x | x in st2.otps
      ensures !LiveOtp(x, Lower(email), code, later)
    {
      if x != o.(isUsed := true) {
        assert x in st.otps && x != o;
        assert LiveOtp(x, Lower(email), code, later) ==> LiveOtp(x, Lower(email), code, now);
      }
    }
  }

  // --------------------------------------------------------------- resend

  /** resendVerificationOTP: 400 for a missing email, 404 for an unknown one,
      400 for an account already verified; otherwise every unused code for
      the lower-cased address is marked used and one new code is stored for
      the user's stored email. The send is awaited outside any try, so a
      failed delivery (`mailError`) is a 500 with the store already written. */
  function ResendOtp(st: Store, email: string, now: Millis, otpId: OtpId, code: string,
                     mailError: Option<string>): (r: Outcome<string>)
    requires FreshOtpId(st, otpId)
    ensures email == "" ==> r == Fail(st, BadRequest(EmailRequired))
    ensures email != "" && FindUserByEmail(st, Lower(email)).None? ==> r == Fail(st, NotFound(UserNotFound))
    ensures email != "" && FindUserByEmail(st, Lower(email)).Some?
            && FindUserByEmail(st, Lower(email)).value.isEmailVerified ==>
      r == Fail(st, BadRequest(AlreadyVerified))
    ensures email != "" && FindUserByEmail(st, Lower(email)).Some?
            && !FindUserByEmail(st, Lower(email)).value.isEmailVerified ==>
      && r.store == Resend(st, Lower(email), FindUserByEmail(st, Lower(email)).value, now, otpId, code)
      && r.mails == [Mail(FindUserByEmail(st, Lower(email)).value.id, VerificationCode(code))]
      && r.result == (if mailError.Some? then Failure(ServerError(mailError.value)) else Success(OtpSent))
    ensures r.result.Success? ==> r.result.value == OtpSent && mailError.None?
    ensures r.store != st ==>
      && email != "" && FindUserByEmail(st, Lower(email)).Some?
      && !FindUserByEmail(st, Lower(email)).value.isEmailVerified
      && var u := FindUserByEmail(st, Lower(email)).value;
      && ResentTo(st, Lower(email), u, now, otpId, code, r.store)
      && r.mails == [Mail(u.id, VerificationCode(code))]
      && r.result == (if mailError.Some? then Failure(ServerError(mailError.value)) else Success(OtpSent))
  {
    if email == "" then Fail(st, BadRequest(EmailRequired))
    else
      match FindUserByEmail(st, Lower(email))
      case None => Fail(st, NotFound(UserNotFound))
      case Some(u) =>
        if u.isEmailVerified then Fail(st, BadRequest(AlreadyVerified))
        else
          var st1 := Resend(st, Lower(email), u, now, otpId, code);
          var mails := [Mail(u.id, VerificationCode(code))];
          if mailError.Some? then Outcome(st1, mails, Failure(ServerError(mailError.value)))
          else Outcome(st1, mails, Success(OtpSent))
  }

  /** The writes of resendVerificationOTP: invalidate, then append. */
  function Resend(st: Store, lowered: string, u: User, now: Millis, otpId: OtpId, code: string): (r: Store)
    ensures ResentTo(st, lowered, u, now, otpId, code, r)
  {
    var invalidated := MapSeq(st.otps, (o: Otp) => if Unused(o, lowered) then o.(isUsed := true) else o);
    st.(otps := invalidated + [Otp(otpId, u.id, u.email, code, EmailVerification, false, now + OtpLifetime)])
  }

  predicate ResentTo(st: Store, lowered: string, u: User, now: Millis, otpId: OtpId, code: string, r: Store) {
    && r == st.(otps := r.otps)
    && |r.otps| == |st.otps| + 1
    && r.otps[|st.otps|] == Otp(otpId, u.id, u.email, code, EmailVerification, false, now + OtpLifetime)
    && (forall i :: 0 <= i < |st.otps| ==>
          r.otps[i] == if Unused(st.otps[i], lowered) then st.otps[i].(isUsed := true) else st.otps[i])
  }

  /** After a resend for an unverified user, asked for by an address with no
      whitespace at either end, the stored address has exactly one unused
      verification code: the new one. */
  lemma ResendLeavesOneUnused(st: Store, email: string, now: Millis, otpId: OtpId, code: string,
                              mailError: Option<string>)
    requires FreshOtpId(st, otpId)
    requires email != "" && FindUserByEmail(st, Lower(email)).Some?
             && !FindUserByEmail(st, Lower(email)).value.isEmailVerified
    requires NormalizeEmail(email) == Lower(email)
    ensures var r := ResendOtp(st, email, now, otpId, code, mailError).store;
      forall a :: a in r.otps && Unused(a, NormalizeEmail(email)) <==> a == r.otps[|r.otps| - 1]
  {
    var r := ResendOtp(st, email, now, otpId, code, mailError).store;
    var u := FindUserByEmail(st, Lower(email)).value;
    LowerOfLowerCase(Lower(email));
    assert u.email == NormalizeEmail(Lower(email)) == NormalizeEmail(email);
    ResentOneUnused(st, Lower(email), u, now, otpId, code, r);
  }

  /** The invalidation matches codes by the lower-cased request string, which
      is not trimmed, while the user lookup trims it: a resend asked for as
      " " + e finds the user stored as e, but an unused code already sent to e
      stays unused beside the new one. */
  lemma PaddedResendKeepsOldCode(st: Store, e: string, o: Otp, now: Millis, otpId: OtpId, code: string,
                                 mailError: Option<string>)
    requires FreshOtpId(st, otpId)
    requires e != "" && NormalizeEmail(e) == e
    requires FindUserByEmail(st, e).Some? && !FindUserByEmail(st, e).value.isEmailVerified
    requires o in st.otps && Unused(o, e)
    ensures var r := ResendOtp(st, [' '] + e, now, otpId, code, mailError).store;
            && o in r.otps && Unused(o, e)
            && r.otps[|r.otps| - 1] != o && Unused(r.otps[|r.otps| - 1], e)
  {
    var p := [' '] + e;
    NormalizeEmailOfPadded(e);
    var u := FindUserByEmail(st, e).value;
    assert FindUserByEmail(st, Lower(p)) == Some(u);
    var r := ResendOtp(st, p, now, otpId, code, mailError).store;
    assert |o.email| != |p|;
    ResendKeepsOthers(st, p, u, now, otpId, code, r, o);
  }

  /** The resend writes leave every code for another address as it was. */
  lemma ResendKeepsOthers(st: Store, lowered: string, u: User, now: Millis, otpId: OtpId, code: string,
                          r: Store, o: Otp)
    requires ResentTo(st, lowered, u, now, otpId, code, r)
    requires o in st.otps && o.email != lowered
    ensures o in r.otps
  {
    var i :| 0 <= i < |st.otps| && st.otps[i] == o;
    assert r.otps[i] == o;
  }

  lemma ResentOneUnused(st: Store, lowered: string, u: User, now: Millis, otpId: OtpId, code: string, r: Store)
    requires ResentTo(st, lowered, u, now, otpId, code, r)
    requires u.email == lowered
    ensures forall a :: a in r.otps && Unused(a, lowered) <==> a == r.otps[|r.otps| - 1]
  {
    forall a | a in r.otps && Unused(a, lowered)
      ensures a == r.otps[|r.otps| - 1]
    {
      var i :| 0 <= i < |r.otps| && r.otps[i] == a;
    }
  }

  // ---------------------------------------------------------------- login

  /** login: the same 401 for an unknown email and for a wrong password, so
      the response does not tell which one failed. */
  function Login(st: Store, email: string, password: string): (r: Outcome<UserId>)
    ensures r.store == st && r.mails == []
    ensures email == "" || password == "" ==> r.result == Failure(BadRequest(MissingCredentials))
    ensures email != "" && password != "" ==>
      (r.result == Failure(Unauthorized(InvalidCredentials)) <==>
        FindUserByEmail(st, email).None? || FindUserByEmail(st, email).value.password != Bcrypt(password))
    ensures r.result.Success? <==>
      email != "" && password != "" && FindUserByEmail(st, email).Some?
      && FindUserByEmail(st, email).value.password == Bcrypt(password)
    ensures r.result.Success? ==> Some(r.result.value) == (match FindUserByEmail(st, email) case Some(u) => Some(u.id) case None => None)
  {
    if email == "" || password == "" then Fail(st, BadRequest(MissingCredentials))
    else
      match FindUserByEmail(st, email)
      case None => Fail(st, Unauthorized(InvalidCredentials))
      case Some(u) =>
        if u.password != Bcrypt(password) then Fail(st, Unauthorized(InvalidCredentials))
        else Outcome(st, [], Success(u.id))
  }

  // ------------------------------------------------------- password reset

  /** forgotPassword: stores only the digest of the raw token and an expiry
      one hour out, then mails the raw token. When the mail is not delivered
      both fields are cleared and the result is a 500. */
  function ForgotPassword(st: Store, email: string, now: Millis, rawToken: string, delivered: bool): (r: Outcome<string>)
    ensures email == "" ==> r == Fail(st, BadRequest(EmailAddressRequired))
    ensures email != "" && FindUserByEmail(st, Lower(email)).None? ==> r == Fail(st, NotFound(NoUserWithEmail))
    ensures r.result.Success? <==> email != "" && FindUserByEmail(st, Lower(email)).Some? && delivered
    ensures email != "" && FindUserByEmail(st, Lower(email)).Some? ==>
      var u := FindUserByEmail(st, Lower(email)).value;
      && r.mails == [Mail(u.id, PasswordResetLink(rawToken))]
      && r.store == st.(users := r.store.users)
      && (forall v :: v != u.id ==> FindUser(r.store, v) == FindUser(st, v))
      && (delivered ==>
            && r.result == Success(ResetLinkSent)
            && r.store == SaveUser(st, u.(resetPasswordToken := Some(Sha256(rawToken)),
                                          resetPasswordExpire := Some(now + ResetLifetime))))
      && (!delivered ==>
            && r.result == Failure(ServerError(EmailNotSent))
            && FindUser(r.store, u.id) == Some(u.(resetPasswordToken := None, resetPasswordExpire := None)))
  {
    if email == "" then Fail(st, BadRequest(EmailAddressRequired))
    else
      match FindUserByEmail(st, Lower(email))
      case None => Fail(st, NotFound(NoUserWithEmail))
      case Some(u) =>
        var u1 := u.(resetPasswordToken := Some(Sha256(rawToken)), resetPasswordExpire := Some(now + ResetLifetime));
        var st1 := SaveUser(st, u1);
        var mails := [Mail(u.id, PasswordResetLink(rawToken))];
        SaveUserKeepsOthers(st, u1);
        if delivered then Outcome(st1, mails, Success(ResetLinkSent))
        else
          var u2 := u1.(resetPasswordToken := None, resetPasswordExpire := None);
          var st2 := SaveUser(st1, u2);
          FindAfterSaveUser(st, u1, u.id);
          FindAfterSaveUser(st1, u2, u.id);
          SaveUserKeepsOthers(st1, u2);
          Outcome(st2, mails, Failure(ServerError(EmailNotSent)))
  }

  /** The resetPassword query: the stored digest matches and has not expired. */
  predicate HoldsToken(u: User, token: string, now: Millis) {
    u.resetPasswordToken == Some(Sha256(token)) && u.resetPasswordExpire.Some? && u.resetPasswordExpire.value > now
  }

  /** resetPassword: 400 for a missing or short password, 400 for a digest
      no live user holds; on success the password is replaced and both token
      fields cleared, and on every failure nothing changes. */
  function ResetPassword(st: Store, token: string, password: string, now: Millis): (r: Outcome<UserId>)
    ensures r.mails == []
    ensures r.result.Failure? ==> r.store == st
    ensures password == "" ==> r.result == Failure(BadRequest(NewPasswordRequired))
    ensures password != "" && |password| < MinPasswordLength ==> r.result == Failure(BadRequest(PasswordTooShort))
    ensures r.result.Success? <==>
      |password| >= MinPasswordLength && exists u :: u in st.users && HoldsToken(u, token, now)
    ensures r.result.Success? ==>
      exists u :: u in st.users && HoldsToken(u, token, now) && u.id == r.result.value
        && r.store == SaveUser(st, u.(password := Bcrypt(password), resetPasswordToken := None, resetPasswordExpire := None))
  {
    if password == "" then Fail(st, BadRequest(NewPasswordRequired))
    else if |password| < MinPasswordLength then Fail(st, BadRequest(PasswordTooShort))
    else
      match Find(st.users, (u: User) => HoldsToken(u, token, now))
      case None => Fail(st, BadRequest(InvalidResetToken))
      case Some(u) =>
        var u1 := u.(password := Bcrypt(password), resetPasswordToken := None, resetPasswordExpire := None);
        Outcome(SaveUser(st, u1), [], Success(u.id))
  }

  /** The partner of forgotPassword: the mailed raw token resets the password
      of that account any time before its hour is up. */
  lemma ForgotThenReset(st: Store, email: string, now: Millis, rawToken: string, password: string, later: Millis)
    requires ForgotPassword(st, email, now, rawToken, true).result.Success?
    requires later < now + ResetLifetime
    requires |password| >= MinPasswordLength
    ensures ResetPassword(ForgotPassword(st, email, now, rawToken, true).store, rawToken, password, later).result.Success?
  {
    var u := FindUserByEmail(st, Lower(email)).value;
    var u1 := u.(resetPasswordToken := Some(Sha256(rawToken)), resetPasswordExpire := Some(now + ResetLifetime));
    var st1 := ForgotPassword(st, email, now, rawToken, true).store;
    var i :| 0 <= i < |st.users| && st.users[i] == u;
    assert st1.users[i] == u1;
    assert u1 in st1.users && HoldsToken(u1, rawToken, later);
  }

  /** No two accounts hold the digest of `token`. */
  predicate DigestHeldOnce(us: seq<User>, token: string) {
    forall a, b ::
      a in us && b in us && a.resetPasswordToken == Some(Sha256(token)) && b.resetPasswordToken == Some(Sha256(token))
      ==> a.id == b.id
  }

  /** A reset token is single-use: once it has reset one account, the same
      token is refused, provided no other account holds the same digest. */
  lemma ResetTokenSingleUse(st: Store, token: string, password: string, now: Millis, password2: string, later: Millis)
    requires DigestHeldOnce(st.users, token)
    requires ResetPassword(st, token, password, now).result.Success?
    ensures ResetPassword(ResetPassword(st, token, password, now).store, token, password2, later).result.Failure?
  {
    var r := ResetPassword(st, token, password, now);
    var u :| u in st.users && HoldsToken(u, token, now) && u.id == r.result.value
      && r.store == SaveUser(st, u.(password := Bcrypt(password), resetPasswordToken := None, resetPasswordExpire := None));
    forall x | x in r.store.users
      ensures !HoldsToken(x, token, later)
    {
      var i :| 0 <= i < |r.store.users| && r.store.users[i] == x;
      if st.users[i].id != u.id {
        assert x == st.users[i];
      }
    }
  }

  // ----------------------------------------------------------- deleteUser

  /** What deleteUser reports: the authored tickets and comments it leaves. */
  datatype DeleteReport = DeleteReport(ticketsCreated: nat, commentsCreated: nat)

  function OwnedBy(u: UserId): Project -> bool { (p: Project) => p.owner == u }
  function AssignedTo(u: UserId): Ticket -> bool { (t: Ticket) => t.assignee == Some(u) }

  /** deleteUser: 404, then 400 while the user owns a project (checked first,
      reporting how many), then 400 while a ticket is assigned to the user
      (reporting how many). Authored tickets and comments do not block
      deletion and stay behind, only counted. */
  function DeleteUser(st: Store, userId: UserId): (r: Outcome<DeleteReport>)
    ensures r.mails == []
    ensures r.result.Failure? ==> r.store == st
    ensures FindUser(st, userId).None? ==> r.result == Failure(NotFound(UserNotFound))
    ensures FindUser(st, userId).Some? && (exists p :: p in st.projects && p.owner == userId) ==>
      r.result == Failure(BadRequestWithCount(OwnsProjects, |Filter(st.projects, OwnedBy(userId))|))
    ensures FindUser(st, userId).Some? && (forall p :: p in st.projects ==> p.owner != userId)
            && (exists t :: t in st.tickets && t.assignee == Some(userId)) ==>
      r.result == Failure(BadRequestWithCount(HasAssignedTickets, |Filter(st.tickets, AssignedTo(userId))|))
    ensures r.result.Success? <==>
      FindUser(st, userId).Some?
      && (forall p :: p in st.projects ==> p.owner != userId)
      && (forall t :: t in st.tickets ==> t.assignee != Some(userId))
    ensures r.result.Success? ==>
      && r.store == st.(users := r.store.users)
      && (forall u :: u in r.store.users <==> u in st.users && u.id != userId)
      && r.result.value.ticketsCreated == |Filter(st.tickets, (t: Ticket) => t.creator == userId)|
      && r.result.value.commentsCreated == |Filter(st.comments, (c: Comment) => c.user == userId)|
  {
    if FindUser(st, userId).None? then Fail(st, NotFound(UserNotFound))
    else if Count(st.projects, OwnedBy(userId)) > 0 then
      (var owned := Filter(st.projects, OwnedBy(userId));
       assert owned[0] in owned;
       Fail(st, BadRequestWithCount(OwnsProjects, |owned|)))
    else if Count(st.tickets, AssignedTo(userId)) > 0 then
      (var blocking := Filter(st.tickets, AssignedTo(userId));
       assert blocking[0] in blocking;
       Fail(st, BadRequestWithCount(HasAssignedTickets, |blocking|)))
    else
      var report := DeleteReport(Count(st.tickets, (t: Ticket) => t.creator == userId),
                                 Count(st.comments, (c: Comment) => c.user == userId));
      Outcome(st.(users := Filter(st.users, (u: User) => u.id != userId)), [], Success(report))
  }

  /** Every project owner and every ticket assignee is an existing user. */
  predicate RolesHeldByUsers(st: Store) {
    && (forall p :: p in st.projects ==> UserExists(st, p.owner))
    && (forall t :: t in st.tickets && t.assignee.Some? ==> UserExists(st, t.assignee.value))
  }

  /** The two guards of deleteUser are what keep owners and assignees real. */
  lemma DeleteUserKeepsRoles(st: Store, userId: UserId)
    requires RolesHeldByUsers(st)
    ensures RolesHeldByUsers(DeleteUser(st, userId).store)
  {
    var r := DeleteUser(st, userId);
    if r.result.Success? {
      forall p | p in r.store.projects
        ensures UserExists(r.store, p.owner)
      {
        var u :| u in st.users && u.id == p.owner;
        assert u in r.store.users;
      }
      forall t | t in r.store.tickets && t.assignee.Some?
        ensures UserExists(r.store, t.assignee.value)
      {
        var u :| u in st.users && u.id == t.assignee.value;
        assert u in r.store.users;
      }
    }
  }
}

=== FILE: client_lists.dfy ===
/** List updates shared by the client reducers and the filter choices shared
    by the client pages. Records are identified by a numeric id, written
    `_id` in the client. */
module ClientLists {
  import opened Wrappers
  import opened Seqs

  /** A select whose value is either 'all' or one particular value. */
  datatype Choice<T> = All | Only(value: T)

  /** `choice === 'all' || x === choice`. */
  predicate Admits<T(==)>(c: Choice<T>, x: T) {
    c.All? || c.value == x
  }

  /** A form's submit handler: the browser refuses the submit while a
      `required` field is empty, the handler may stop with an inline error,
      or the request goes out with its payload. */
  datatype Submission<P> = NotSubmitted | Blocked(message: string) | Sent(payload: P)

  /** `items.map(i => i._id === x._id ? x : i)`. */
  function ReplaceById<T>(items: seq<T>, x: T, id: T -> nat): (r: seq<T>)
    ensures |r| == |items|
    ensures forall i :: 0 <= i < |items| ==> id(r[i]) == id(items[i])
    ensures forall i :: 0 <= i < |items| && id(items[i]) == id(x) ==> r[i] == x
    ensures forall i :: 0 <= i < |items| && id(items[i]) != id(x) ==> r[i] == items[i]
  {
    MapSeq(items, (i: T) => if id(i) == id(x) then x else i)
  }

  /** `items.filter(i => i._id !== k)`. */
  function RemoveById<T(==,!new)>(items: seq<T>, k: nat, id: T -> nat): (r: seq<T>)
    ensures forall y :: y in r <==> y in items && id(y) != k
    ensures IsSubseq(r, items)
    ensures (forall y :: y in items ==> id(y) != k) ==> r == items
  {
    Filter(items, (i: T) => id(i) != k)
  }

  /** `cur?._id === x._id ? x : cur`. */
  function SyncCurrent<T>(cur: Option<T>, x: T, id: T -> nat): (r: Option<T>)
    ensures r.Some? <==> cur.Some?
    ensures cur.Some? && id(cur.value) == id(x) ==> r == Some(x)
    ensures cur.Some? && id(cur.value) != id(x) ==> r == cur
  {
    if cur.Some? && id(cur.value) == id(x) then Some(x) else cur
  }

  /** `cur?._id === k ? null : cur`. */
  function DropCurrent<T>(cur: Option<T>, k: nat, id: T -> nat): (r: Option<T>)
    ensures r.None? <==> cur.None? || id(cur.value) == k
    ensures r.Some? ==> r == cur
  {
    if cur.Some? && id(cur.value) == k then None else cur
  }

  /** The selected record agrees with every listed record of the same id,
      so a detail view and the list never show two versions of one record. */
  predicate Agree<T(==)>(items: seq<T>, cur: Option<T>, id: T -> nat) {
    cur.Some? ==> forall i :: 0 <= i < |items| && id(items[i]) == id(cur.value) ==> items[i] == cur.value
  }

  /** Replacing twice with the same record is replacing once. */
  lemma ReplaceIdempotent<T>(items: seq<T>, x: T, id: T -> nat)
    ensures ReplaceById(ReplaceById(items, x, id), x, id) == ReplaceById(items, x, id)
  {
  }

  /** Removing a record that was just prepended under a fresh id gives back
      the list as it was. */
  lemma RemoveAfterPrepend<T(!new)>(items: seq<T>, x: T, id: T -> nat)
    requires forall y :: y in items ==> id(y) != id(x)
    ensures RemoveById([x] + items, id(x), id) == items
  {
    assert ([x] + items)[1..] == items;
  }

  /** After an update the list and the synchronised selection agree. */
  lemma {:induction false} ReplaceAgrees<T>(items: seq<T>, cur: Option<T>, x: T, id: T -> nat)
    requires Agree(items, cur, id)
    ensures Agree(ReplaceById(items, x, id), SyncCurrent(cur, x, id), id)
  {
    var r := ReplaceById(items, x, id);
    var c := SyncCurrent(cur, x, id);
    if c.Some? {
      forall i | 0 <= i < |r| && id(r[i]) == id(c.value)
        ensures r[i] == c.value
      {
        if id(items[i]) == id(x) {
          assert r[i] == x;
        } else {
          assert r[i] == items[i];
        }
      }
    }
  }

  /** Removing records keeps the list and the selection in agreement. */
  lemma {:induction false} RemoveAgrees<T(!new)>(items: seq<T>, cur: Option<T>, k: nat, id: T -> nat)
    requires Agree(items, cur, id)
    ensures Agree(RemoveById(items, k, id), DropCurrent(cur, k, id), id)
  {
    var r := RemoveById(items, k, id);
    var c := DropCurrent(cur, k, id);
    if c.Some? {
      forall i | 0 <= i < |r| && id(r[i]) == id(c.value)
        ensures r[i] == c.value
      {
        assert r[i] in items;
        var j :| 0 <= j < |items| && items[j] == r[i];
      }
    }
  }
}

=== FILE: comment_ops.dfy ===
/** backend/controllers/commentController.js: comments on tickets, open to
    project members, editable and deletable by their author alone. */
module CommentOps {
  import opened Wrappers
  import opened Seqs
  import opened Schema
  import opened Store

  const TextRequired := "Comment text is required"
  const TicketNotFound := "Ticket not found"
  const CommentNotFound := "Comment not found"
  const NotAuthorizedComment := "Not authorized to comment on this ticket"
  const NotAuthorizedView := "Not authorized to view comments"
  const NotAuthorizedUpdate := "Not authorized to update this comment"
  const NotAuthorizedDelete := "Not authorized to delete this comment"
  const CommentDeleted := "Comment deleted"

  /** A populated reference: the user still exists and is not the caller. */
  predicate Notifiable(st: Store, u: UserId, actor: UserId) {
    UserExists(st, u) && u != actor
  }

  /** The notify set of createComment, in insertion order: the ticket's
      creator, then its assignee, each only when populated and not the caller,
      the second dropped when it repeats the first. */
  function NotifySet(st: Store, t: Ticket, actor: UserId): (r: seq<UserId>)
    ensures |r| <= 2
    ensures forall u :: u in r <==>
      Notifiable(st, u, actor) && (u == t.creator || t.assignee == Some(u))
    ensures forall i, j :: 0 <= i < j < |r| ==> r[i] != r[j]
  {
    var first := if Notifiable(st, t.creator, actor) then [t.creator] else [];
    if t.assignee.Some? && Notifiable(st, t.assignee.value, actor) && t.assignee.value !in first
    then first + [t.assignee.value]
    else first
  }

  /** `u` is a stored user who has email notifications on. */
  predicate Accepts(st: Store, u: UserId) {
    FindUser(st, u).Some? && FindUser(st, u).value.emailNotifications
  }

  /** One NewComment mail per notified user who accepts notifications. */
  function CommentMails(st: Store, us: seq<UserId>, ticket: TicketId): (ms: seq<Mail>)
    ensures |ms| <= |us|
    ensures forall m :: m in ms <==> m.kind == NewComment(ticket) && m.to in us && Accepts(st, m.to)
    ensures (forall i, j :: 0 <= i < j < |us| ==> us[i] != us[j]) ==>
      forall i, j :: 0 <= i < j < |ms| ==> ms[i].to != ms[j].to
  {
    if us == [] then []
    else
      var u := us[0];
      var rest := CommentMails(st, us[1..], ticket);
      assert us == [u] + us[1..];
      ConsMails(st, u, us[1..], rest, ticket);
      ConsMailsDistinct(st, u, us[1..], rest, ticket);
      if Accepts(st, u) then [Mail(u, NewComment(ticket))] + rest
      else rest
  }

  /** One step of CommentMails: the mails for `[u] + us` are those for `us`,
      plus one to `u` when `u` accepts notifications. */
  lemma ConsMails(st: Store, u: UserId, us: seq<UserId>, rest: seq<Mail>, ticket: TicketId)
    requires forall m :: m in rest <==> m.kind == NewComment(ticket) && m.to in us && Accepts(st, m.to)
    ensures var ms := if Accepts(st, u) then [Mail(u, NewComment(ticket))] + rest else rest;
      forall m :: m in ms <==> m.kind == NewComment(ticket) && m.to in [u] + us && Accepts(st, m.to)
  {
    var ms := if Accepts(st, u) then [Mail(u, NewComment(ticket))] + rest else rest;
    forall m
      ensures m in ms <==> m.kind == NewComment(ticket) && m.to in [u] + us && Accepts(st, m.to)
    {
      if m.kind == NewComment(ticket) && m.to == u && Accepts(st, u) {
        assert m == Mail(u, NewComment(ticket));
      }
    }
  }

  /** createComment: empty text is refused before any lookup (400), then 404,
      then 500 for a dangling project, then 403 for a non-member. Only the
      comment collection changes: commenting never adds a member. */
  function CreateComment(st: Store, actor: UserId, ticketId: TicketId, text: string, now: Millis, newId: CommentId): (r: Outcome<Comment>)
    requires FreshCommentId(st, newId)
    ensures r.result.Failure? ==> r.store == st && r.mails == []
    ensures text == "" ==> r.result == Failure(BadRequest(TextRequired))
    ensures text != "" && FindTicket(st, ticketId).None? ==> r.result == Failure(NotFound(TicketNotFound))
    ensures text != "" && FindTicket(st, ticketId).Some?
            && FindProject(st, FindTicket(st, ticketId).value.project).None? ==>
      r.result == Failure(ServerError(NullReference))
    ensures text != "" && FindTicket(st, ticketId).Some?
            && FindProject(st, FindTicket(st, ticketId).value.project).Some?
            && !IsMember(FindProject(st, FindTicket(st, ticketId).value.project).value, actor) ==>
      r.result == Failure(Forbidden(NotAuthorizedComment))
    ensures r.result.Success? <==>
      text != "" && FindTicket(st, ticketId).Some?
      && FindProject(st, FindTicket(st, ticketId).value.project).Some?
      && IsMember(FindProject(st, FindTicket(st, ticketId).value.project).value, actor)
    ensures r.result.Success? ==>
      var c := r.result.value;
      var t := FindTicket(st, ticketId).value;
      && c == Comment(newId, ticketId, actor, text, now)
      && r.store == st.(comments := st.comments + [c])
      && FindComment(r.store, newId) == Some(c)
      && (forall m :: m in r.mails <==>
            m.kind == NewComment(ticketId)
            && Notifiable(st, m.to, actor) && (m.to == t.creator || t.assignee == Some(m.to))
            && FindUser(st, m.to).value.emailNotifications)
      && (forall i, j :: 0 <= i < j < |r.mails| ==> r.mails[i].to != r.mails[j].to)
  {
    if text == "" then Fail(st, BadRequest(TextRequired))
    else
      match FindTicket(st, ticketId)
      case None => Fail(st, NotFound(TicketNotFound))
      case Some(t) =>
        match FindProject(st, t.project)
        case None => Fail(st, ServerError(NullReference))
        case Some(p) =>
          if !IsMember(p, actor) then Fail(st, Forbidden(NotAuthorizedComment))
          else
            var c := Comment(newId, ticketId, actor, text, now);
            var st1 := st.(comments := st.comments + [c]);
            assert FindComment(st1, newId) == Some(c) by {
              assert c in st1.comments;
              assert forall x :: x in st1.comments && x.id == newId ==> x == c;
            }
            NotifiedMails(st, t, actor, ticketId);
            Outcome(st1, CommentMails(st, NotifySet(st, t, actor), ticketId), Success(c))
  }

  /** The distinctness half of the CommentMails step. */
  lemma ConsMailsDistinct(st: Store, u: UserId, us: seq<UserId>, rest: seq<Mail>, ticket: TicketId)
    requires forall m :: m in rest ==> m.to in us
    requires (forall i, j :: 0 <= i < j < |us| ==> us[i] != us[j]) ==>
      forall i, j :: 0 <= i < j < |rest| ==> rest[i].to != rest[j].to
    ensures var ms := if Accepts(st, u) then [Mail(u, NewComment(ticket))] + rest else rest;
      (forall i, j :: 0 <= i < j < |[u] + us| ==> ([u] + us)[i] != ([u] + us)[j]) ==>
        forall i, j :: 0 <= i < j < |ms| ==> ms[i].to != ms[j].to
  {
    var full := [u] + us;
    if forall i, j :: 0 <= i < j < |full| ==> full[i] != full[j] {
      forall i, j | 0 <= i < j < |us|
        ensures us[i] != us[j]
      {
        assert full[i + 1] == us[i] && full[j + 1] == us[j];
      }
      forall k | 0 <= k < |us|
        ensures us[k] != u
      {
        assert full[k + 1] == us[k] && full[0] == u;
      }
      if Accepts(st, u) {
        var ms := [Mail(u, NewComment(ticket))] + rest;
        forall i, j | 0 <= i < j < |ms|
          ensures ms[i].to != ms[j].to
        {
          assert ms[j] == rest[j - 1] && rest[j - 1] in rest;
          if i > 0 {
            assert ms[i] == rest[i - 1];
          }
        }
      }
    }
  }

  /** The mails of createComment go once each to the creator and the
      assignee who are not the caller and accept notifications. */
  lemma NotifiedMails(st: Store, t: Ticket, actor: UserId, ticketId: TicketId)
    ensures var ms := CommentMails(st, NotifySet(st, t, actor), ticketId);
      && (forall m :: m in ms <==>
            m.kind == NewComment(ticketId)
            && Notifiable(st, m.to, actor) && (m.to == t.creator || t.assignee == Some(m.to))
            && FindUser(st, m.to).value.emailNotifications)
      && (forall i, j :: 0 <= i < j < |ms| ==> ms[i].to != ms[j].to)
  {
    var ms := CommentMails(st, NotifySet(st, t, actor), ticketId);
    forall m | m in ms
      ensures FindUser(st, m.to).Some?
    {
    }
  }

  predicate CreatedBefore(a: Comment, b: Comment) {
    a.createdAt <= b.createdAt
  }

  /** getComments: member-only; the ticket's comments, oldest first. */
  function GetComments(st: Store, actor: UserId, ticketId: TicketId): (r: Outcome<seq<Comment>>)
    ensures r.store == st && r.mails == []
    ensures FindTicket(st, ticketId).None? ==> r.result == Failure(NotFound(TicketNotFound))
    ensures r.result.Success? <==>
      FindTicket(st, ticketId).Some?
      && FindProject(st, FindTicket(st, ticketId).value.project).Some?
      && IsMember(FindProject(st, FindTicket(st, ticketId).value.project).value, actor)
    ensures FindTicket(st, ticketId).Some? && FindProject(st, FindTicket(st, ticketId).value.project).Some?
            && !IsMember(FindProject(st, FindTicket(st, ticketId).value.project).value, actor) ==>
      r.result == Failure(Forbidden(NotAuthorizedView))
    ensures r.result.Success? ==>
      && multiset(r.result.value) == multiset(Filter(st.comments, (c: Comment) => c.ticket == ticketId))
      && (forall c :: c in r.result.value <==> c in st.comments && c.ticket == ticketId)
      && SortedBy(r.result.value, CreatedBefore)
  {
    match FindTicket(st, ticketId)
    case None => Fail(st, NotFound(TicketNotFound))
    case Some(t) =>
      match FindProject(st, t.project)
      case None => Fail(st, ServerError(NullReference))
      case Some(p) =>
        if !IsMember(p, actor) then Fail(st, Forbidden(NotAuthorizedView))
        else
          var mine := Filter(st.comments, (c: Comment) => c.ticket == ticketId);
          var sorted := Sort(mine, CreatedBefore);
          SortSorted(mine, CreatedBefore);
          assert forall c :: c in sorted <==> c in multiset(sorted);
          Outcome(st, [], Success(sorted))
  }

  /** updateComment: author-only (the project owner has no override); the 403
      check precedes the empty-text 400; only `text` changes. */
  function UpdateComment(st: Store, actor: UserId, id: CommentId, text: string): (r: Outcome<Comment>)
    ensures r.mails == []
    ensures r.result.Failure? ==> r.store == st
    ensures FindComment(st, id).None? ==> r.result == Failure(NotFound(CommentNotFound))
    ensures FindComment(st, id).Some? && FindComment(st, id).value.user != actor ==>
      r.result == Failure(Forbidden(NotAuthorizedUpdate))
    ensures FindComment(st, id).Some? && FindComment(st, id).value.user == actor && text == "" ==>
      r.result == Failure(BadRequest(TextRequired))
    ensures r.result.Success? <==>
      FindComment(st, id).Some? && FindComment(st, id).value.user == actor && text != ""
    ensures r.result.Success? ==>
      && r.result.value == FindComment(st, id).value.(text := text)
      && r.store == SaveComment(st, r.result.value)
  {
    match FindComment(st, id)
    case None => Fail(st, NotFound(CommentNotFound))
    case Some(c) =>
      if c.user != actor then Fail(st, Forbidden(NotAuthorizedUpdate))
      else if text == "" then Fail(st, BadRequest(TextRequired))
      else
        var c1 := c.(text := text);
        Outcome(SaveComment(st, c1), [], Success(c1))
  }

  /** deleteComment: author-only; removes exactly the comments with that id. */
  function DeleteComment(st: Store, actor: UserId, id: CommentId): (r: Outcome<string>)
    ensures r.mails == []
    ensures r.result.Failure? ==> r.store == st
    ensures FindComment(st, id).None? ==> r.result == Failure(NotFound(CommentNotFound))
    ensures FindComment(st, id).Some? && FindComment(st, id).value.user != actor ==>
      r.result == Failure(Forbidden(NotAuthorizedDelete))
    ensures r.result.Success? <==> FindComment(st, id).Some? && FindComment(st, id).value.user == actor
    ensures r.result.Success? ==>
      && r.result.value == CommentDeleted
      && r.store == st.(comments := r.store.comments)
      && (forall c :: c in r.store.comments <==> c in st.comments && c.id != id)
  {
    match FindComment(st, id)
    case None => Fail(st, NotFound(CommentNotFound))
    case Some(c) =>
      if c.user != actor then Fail(st, Forbidden(NotAuthorizedDelete))
      else Outcome(st.(comments := Filter(st.comments, (x: Comment) => x.id != id)), [], Success(CommentDeleted))
  }
}

=== FILE: invariants.dfy ===
/** The two store invariants the handlers maintain: references resolve
    (Linked) and every assignee belongs to its ticket's project
    (AssigneesAreMembers). The second is what the membership expansion on
    ticket create and assign, and the unassignment on member removal, exist
    to keep. */
module Invariants {
  import opened Wrappers
  import opened Seqs
  import opened Schema
  import opened Store
  import ProjectOps
  import TicketOps
  import CommentOps

  predicate Consistent(st: Store) {
    Linked(st) && AssigneesAreMembers(st)
  }

  // -------------------------------------------------------------- helpers

  lemma FindProjectOfPresent(st: Store, p: Project)
    requires p in st.projects
    ensures FindProject(st, p.id).Some?
  {
  }

  lemma FindProjectAfterAppend(st: Store, p: Project, q: ProjectId)
    requires FindProject(st, q).Some?
    ensures FindProject(st.(projects := st.projects + [p]), q) == FindProject(st, q)
  {
    FindAppend(st.projects, [p], (x: Project) => x.id == q);
  }

  lemma FindProjectAfterRemove(st: Store, id: ProjectId, q: ProjectId)
    requires q != id
    ensures FindProject(st.(projects := Filter(st.projects, (x: Project) => x.id != id)), q) == FindProject(st, q)
  {
    FindAfterFilter(st.projects, (x: Project) => x.id != id, (x: Project) => x.id == q);
  }

  /** A store whose projects are a pointwise save of `p` over an existing id
      keeps every project id present. */
  lemma SavedProjectsKeepIds(st: Store, st2: Store, p: Project)
    requires FindProject(st, p.id).Some?
    requires |st2.projects| == |st.projects|
    requires forall i :: 0 <= i < |st.projects| ==>
      st2.projects[i] == if st.projects[i].id == p.id then p else st.projects[i]
    ensures st2.projects == SaveProject(st, p).projects
    ensures forall q :: q in st.projects ==> exists q2 :: q2 in st2.projects && q2.id == q.id
  {
    ProjectIdsKept(st.projects, st2.projects, p);
    var saved := SaveProject(st, p).projects;
    assert |saved| == |st2.projects|;
    assert forall i :: 0 <= i < |saved| ==> saved[i] == st2.projects[i];
  }

  /** Replacing the projects with `p`'s id by `p` keeps every id present. */
  lemma {:induction false} ProjectIdsKept(ps: seq<Project>, ps2: seq<Project>, p: Project)
    requires |ps2| == |ps|
    requires forall i :: 0 <= i < |ps| ==> ps2[i] == if ps[i].id == p.id then p else ps[i]
    ensures forall q :: q in ps ==> exists q2 :: q2 in ps2 && q2.id == q.id
  {
    forall q | q in ps
      ensures exists q2 :: q2 in ps2 && q2.id == q.id
    {
      var i :| 0 <= i < |ps| && ps[i] == q;
      assert ps2[i] in ps2 && ps2[i].id == q.id;
    }
  }

  // ------------------------------------------------------------- projects

  /** createProject adds a project under a fresh id: existing tickets still
      resolve to the project they resolved to. */
  lemma CreateProjectKeeps(st: Store, actor: UserId, title: string, description: Option<string>,
                           teamMembers: Option<seq<UserId>>, newId: ProjectId)
    requires FreshProjectId(st, newId) && Consistent(st)
    ensures Consistent(ProjectOps.CreateProject(st, actor, title, description, teamMembers, newId).store)
  {
    var r := ProjectOps.CreateProject(st, actor, title, description, teamMembers, newId);
    if r.result.Success? {
      var p := r.result.value;
      forall t | t in r.store.tickets && t.assignee.Some? && FindProject(r.store, t.project).Some?
        ensures IsMember(FindProject(r.store, t.project).value, t.assignee.value)
      {
        var q :| q in st.projects && q.id == t.project;
        FindProjectOfPresent(st, q);
        FindProjectAfterAppend(st, p, t.project);
      }
      forall t | t in r.store.tickets
        ensures exists q :: q in r.store.projects && q.id == t.project
      {
        var q :| q in st.projects && q.id == t.project;
        assert q in r.store.projects;
      }
    }
  }

  /** A store whose tickets are a pointwise rewrite keeping ids and
      projects, with the same comments and the same project ids, keeps Linked. */
  lemma {:induction false} RewriteKeepsLinks(st: Store, st2: Store)
    requires Linked(st)
    requires forall q :: q in st.projects ==> exists q2 :: q2 in st2.projects && q2.id == q.id
    requires st2.comments == st.comments
    requires |st2.tickets| == |st.tickets|
    requires forall i :: 0 <= i < |st.tickets| ==>
      st2.tickets[i].id == st.tickets[i].id && st2.tickets[i].project == st.tickets[i].project
    ensures Linked(st2)
  {
    TicketLinksKept(st.tickets, st.projects, st2.tickets, st2.projects);
    CommentLinksKept(st.comments, st.tickets, st2.tickets);
  }

  /** Tickets rewritten in place, keeping their project, still resolve when
      every project id survives. */
  lemma {:induction false} TicketLinksKept(ts: seq<Ticket>, ps: seq<Project>, ts2: seq<Ticket>, ps2: seq<Project>)
    requires forall t :: t in ts ==> exists q :: q in ps && q.id == t.project
    requires forall q :: q in ps ==> exists q2 :: q2 in ps2 && q2.id == q.id
    requires |ts2| == |ts|
    requires forall i :: 0 <= i < |ts| ==> ts2[i].project == ts[i].project
    ensures forall t :: t in ts2 ==> exists q :: q in ps2 && q.id == t.project
  {
    forall t2 | t2 in ts2
      ensures exists q :: q in ps2 && q.id == t2.project
    {
      var i :| 0 <= i < |ts2| && ts2[i] == t2;
      var t := ts[i];
      assert t in ts;
      var q :| q in ps && q.id == t.project;
      var q2 :| q2 in ps2 && q2.id == q.id;
      assert q2.id == t2.project;
    }
  }

  /** Comments still resolve when the tickets are rewritten in place with
      their ids kept. */
  lemma {:induction false} CommentLinksKept(cs: seq<Comment>, ts: seq<Ticket>, ts2: seq<Ticket>)
    requires forall c :: c in cs ==> exists t :: t in ts && t.id == c.ticket
    requires |ts2| == |ts|
    requires forall i :: 0 <= i < |ts| ==> ts2[i].id == ts[i].id
    ensures forall c :: c in cs ==> exists t :: t in ts2 && t.id == c.ticket
  {
    forall c | c in cs
      ensures exists t :: t in ts2 && t.id == c.ticket
    {
      var t :| t in ts && t.id == c.ticket;
      var i :| 0 <= i < |ts| && ts[i] == t;
      assert ts2[i] in ts2 && ts2[i].id == c.ticket;
    }
  }

  /** The shape of updateProject, addTeamMember and removeTeamMember: one
      project is replaced by a version with the same owner, some tickets lose
      their assignee, and every kept assignee that was a member stays one. */
  lemma {:induction false} ReplaceProjectKeeps(st: Store, st2: Store, p: Project, drop: Ticket -> bool)
    requires Consistent(st)
    requires FindProject(st, p.id).Some? && p.owner == FindProject(st, p.id).value.owner
    requires |st2.projects| == |st.projects|
    requires forall i :: 0 <= i < |st.projects| ==>
      st2.projects[i] == if st.projects[i].id == p.id then p else st.projects[i]
    requires st2.comments == st.comments
    requires |st2.tickets| == |st.tickets|
    requires forall i :: 0 <= i < |st.tickets| ==>
      st2.tickets[i] == if drop(st.tickets[i]) then st.tickets[i].(assignee := None) else st.tickets[i]
    requires forall t ::
      (t in st.tickets && t.project == p.id && t.assignee.Some? && !drop(t)
       && IsMember(FindProject(st, p.id).value, t.assignee.value)) ==> IsMember(p, t.assignee.value)
    ensures Consistent(st2)
  {
    SavedProjectsKeepIds(st, st2, p);
    forall i | 0 <= i < |st.tickets|
      ensures st2.tickets[i].id == st.tickets[i].id && st2.tickets[i].project == st.tickets[i].project
    {
    }
    RewriteKeepsLinks(st, st2);
    ReplaceProjectAssignees(st, st2, p, drop);
  }

  /** The assignee half of ReplaceProjectKeeps. */
  lemma {:induction false} ReplaceProjectAssignees(st: Store, st2: Store, p: Project, drop: Ticket -> bool)
    requires Consistent(st)
    requires FindProject(st, p.id).Some? && p.owner == FindProject(st, p.id).value.owner
    requires |st2.projects| == |st.projects|
    requires forall i :: 0 <= i < |st.projects| ==>
      st2.projects[i] == if st.projects[i].id == p.id then p else st.projects[i]
    requires st2.comments == st.comments
    requires |st2.tickets| == |st.tickets|
    requires forall i :: 0 <= i < |st.tickets| ==>
      st2.tickets[i] == if drop(st.tickets[i]) then st.tickets[i].(assignee := None) else st.tickets[i]
    requires forall t ::
      (t in st.tickets && t.project == p.id && t.assignee.Some? && !drop(t)
       && IsMember(FindProject(st, p.id).value, t.assignee.value)) ==> IsMember(p, t.assignee.value)
    requires st2.projects == SaveProject(st, p).projects
    ensures AssigneesAreMembers(st2)
  {
    forall t2 | t2 in st2.tickets && t2.assignee.Some? && FindProject(st2, t2.project).Some?
      ensures IsMember(FindProject(st2, t2.project).value, t2.assignee.value)
    {
      var i :| 0 <= i < |st2.tickets| && st2.tickets[i] == t2;
      var t := st.tickets[i];
      assert !drop(t);
      assert t2 == t && t in st.tickets;
      FindAfterSaveProject(st, p, t.project);
      if t.project == p.id {
        assert IsMember(FindProject(st, p.id).value, t.assignee.value);
      } else {
        assert FindProject(st2, t.project) == FindProject(st, t.project);
      }
    }
  }

  /** updateProject unassigns exactly the members it removes, so no ticket
      keeps an assignee outside the new member list (the owner always counts). */
  lemma UpdateProjectKeeps(st: Store, actor: UserId, id: ProjectId, patch: ProjectOps.ProjectPatch)
    requires Consistent(st)
    ensures Consistent(ProjectOps.UpdateProject(st, actor, id, patch).store)
  {
    var r := ProjectOps.UpdateProject(st, actor, id, patch);
    if r.result.Success? {
      var prev := FindProject(st, id).value;
      var p := r.result.value;
      ReplaceProjectKeeps(st, r.store, p, (t: Ticket) =>
        t.project == id && t.assignee.Some? && t.assignee.value in prev.teamMembers
        && t.assignee.value !in p.teamMembers);
    }
  }

  /** addTeamMember only widens one project. */
  lemma AddTeamMemberKeeps(st: Store, actor: UserId, id: ProjectId, userId: UserId)
    requires Consistent(st)
    ensures Consistent(ProjectOps.AddTeamMember(st, actor, id, userId).store)
  {
    var r := ProjectOps.AddTeamMember(st, actor, id, userId);
    if r.result.Success? {
      ReplaceProjectKeeps(st, r.store, r.result.value, (t: Ticket) => false);
    }
  }

  /** removeTeamMember unassigns the removed user within the project, so the
      invariant survives the shrink. */
  lemma RemoveTeamMemberKeeps(st: Store, actor: UserId, id: ProjectId, userId: UserId)
    requires Consistent(st)
    ensures Consistent(ProjectOps.RemoveTeamMember(st, actor, id, userId).store)
  {
    var r := ProjectOps.RemoveTeamMember(st, actor, id, userId);
    if r.result.Success? {
      ReplaceProjectKeeps(st, r.store, r.result.value, (t: Ticket) => t.project == id && t.assignee == Some(userId));
    }
  }

  /** deleteProject removes the project together with everything that
      pointed at it. */
  lemma DeleteProjectKeeps(st: Store, actor: UserId, id: ProjectId)
    requires Consistent(st)
    ensures Consistent(ProjectOps.DeleteProject(st, actor, id).store)
  {
    var r := ProjectOps.DeleteProject(st, actor, id);
    if r.result.Success? {
      ProjectOps.DeleteProjectStepsKeepLinks(st, id);
      var steps := ProjectOps.DeleteProjectSteps(st, id);
      assert r.store == steps[2];
      forall t | t in r.store.tickets && t.assignee.Some? && FindProject(r.store, t.project).Some?
        ensures IsMember(FindProject(r.store, t.project).value, t.assignee.value)
      {
        assert r.store.projects == Filter(st.projects, (x: Project) => x.id != id);
        FindProjectAfterRemove(st, id, t.project);
      }
    }
  }

  // -------------------------------------------------------------- tickets

  /** A store with the same projects has only grown. */
  lemma SameProjectsGrow(st: Store, st2: Store)
    requires st2.projects == st.projects
    ensures ProjectsGrow(st, st2)
  {
    forall q
      ensures Widens(FindProject(st, q), FindProject(st2, q))
    {
    }
  }

  /** Old tickets resolve to projects that only grew. */
  lemma GrownKeepsOld(st: Store, st2: Store, t: Ticket)
    requires Linked(st) && ProjectsGrow(st, st2) && t in st.tickets
    ensures exists q :: q in st2.projects && q.id == t.project
  {
    var q :| q in st.projects && q.id == t.project;
    FindProjectOfPresent(st, q);
    assert Widens(FindProject(st, t.project), FindProject(st2, t.project));
  }

  /** Appending tickets whose projects exist and whose assignees are members,
      while projects only grow and comments stay, keeps the store consistent. */
  lemma {:induction false} AppendKeeps(st: Store, st2: Store, extra: seq<Ticket>)
    requires Consistent(st) && ProjectsGrow(st, st2)
    requires st2.comments == st.comments && st2.tickets == st.tickets + extra
    requires forall t :: t in extra ==> FindProject(st2, t.project).Some?
    requires forall t :: t in extra && t.assignee.Some? ==>
      IsMember(FindProject(st2, t.project).value, t.assignee.value)
    ensures Consistent(st2)
  {
    forall t | t in st2.tickets && t.assignee.Some? && FindProject(st2, t.project).Some?
      ensures IsMember(FindProject(st2, t.project).value, t.assignee.value)
    {
      if t !in extra {
        assert t in st.tickets;
        AssigneesKeptWhenProjectsGrow(st, st2, t);
      }
    }
    forall t | t in st2.tickets
      ensures exists q :: q in st2.projects && q.id == t.project
    {
      if t in extra {
        assert FindProject(st2, t.project).value in st2.projects;
      } else {
        assert t in st.tickets;
        GrownKeepsOld(st, st2, t);
      }
    }
    forall c | c in st2.comments
      ensures exists t :: t in st2.tickets && t.id == c.ticket
    {
      var t :| t in st.tickets && t.id == c.ticket;
      assert t in st2.tickets;
    }
  }

  /** createTicket puts the creator and the assignee into the project before
      the ticket exists, so the new ticket satisfies the invariant and the old
      ones keep it — also when it stops at the unknown-assignee 404. */
  lemma CreateTicketKeeps(st: Store, actor: UserId, req: TicketOps.NewTicket, newId: TicketId)
    requires FreshTicketId(st, newId) && Consistent(st)
    ensures Consistent(TicketOps.CreateTicket(st, actor, req, newId).store)
  {
    var r := TicketOps.CreateTicket(st, actor, req, newId);
    if r.result.Success? {
      var t := r.result.value;
      assert r.store.tickets == st.tickets + [t];
      AppendKeeps(st, r.store, [t]);
    } else if r.result == Failure(NotFound(TicketOps.AssigneeNotFound)) {
      assert r.store.tickets == st.tickets + [];
      AppendKeeps(st, r.store, []);
    }
  }

  /** The shape of updateTicket and updateTicketStatus: one existing ticket
      is saved with its project unchanged, projects only grow, and the saved
      ticket's assignee is a member as the project now resolves. */
  lemma {:induction false} ReplaceTicketKeeps(st: Store, st2: Store, t1: Ticket)
    requires Consistent(st) && ProjectsGrow(st, st2)
    requires st2.comments == st.comments && st2.tickets == SaveTicket(st, t1).tickets
    requires FindProject(st2, t1.project).Some?
    requires t1.assignee.Some? ==> IsMember(FindProject(st2, t1.project).value, t1.assignee.value)
    ensures Consistent(st2)
  {
    ReplaceTicketAssignees(st, st2, t1);
    ReplaceTicketLinks(st, st2, t1);
  }

  /** The assignee half of ReplaceTicketKeeps. */
  lemma {:induction false} ReplaceTicketAssignees(st: Store, st2: Store, t1: Ticket)
    requires Consistent(st) && ProjectsGrow(st, st2)
    requires st2.comments == st.comments && st2.tickets == SaveTicket(st, t1).tickets
    requires FindProject(st2, t1.project).Some?
    requires t1.assignee.Some? ==> IsMember(FindProject(st2, t1.project).value, t1.assignee.value)
    ensures AssigneesAreMembers(st2)
  {
    forall x | x in st2.tickets && x.assignee.Some? && FindProject(st2, x.project).Some?
      ensures IsMember(FindProject(st2, x.project).value, x.assignee.value)
    {
      var i :| 0 <= i < |st2.tickets| && st2.tickets[i] == x;
      if st.tickets[i].id != t1.id {
        assert x == st.tickets[i] && x in st.tickets;
        AssigneesKeptWhenProjectsGrow(st, st2, x);
      }
    }
  }

  /** The link half of ReplaceTicketKeeps. */
  lemma {:induction false} ReplaceTicketLinks(st: Store, st2: Store, t1: Ticket)
    requires Consistent(st) && ProjectsGrow(st, st2)
    requires st2.comments == st.comments && st2.tickets == SaveTicket(st, t1).tickets
    requires FindProject(st2, t1.project).Some?
    requires t1.assignee.Some? ==> IsMember(FindProject(st2, t1.project).value, t1.assignee.value)
    ensures Linked(st2)
  {
    forall x | x in st2.tickets
      ensures exists q :: q in st2.projects && q.id == x.project
    {
      var i :| 0 <= i < |st2.tickets| && st2.tickets[i] == x;
      if st.tickets[i].id != t1.id {
        assert st.tickets[i] in st.tickets;
        GrownKeepsOld(st, st2, st.tickets[i]);
      } else {
        assert FindProject(st2, t1.project).value in st2.projects;
      }
    }
    forall i | 0 <= i < |st.tickets|
      ensures st2.tickets[i].id == st.tickets[i].id
    {
    }
    CommentLinksKept(st.comments, st.tickets, st2.tickets);
  }

  /** updateTicket's assignment expands membership first; a cleared or kept
      assignee needs nothing. */
  lemma UpdateTicketKeeps(st: Store, actor: UserId, id: TicketId, patch: TicketOps.TicketPatch)
    requires Consistent(st)
    ensures Consistent(TicketOps.UpdateTicket(st, actor, id, patch).store)
  {
    var r := TicketOps.UpdateTicket(st, actor, id, patch);
    if r.result.Success? {
      var t := FindTicket(st, id).value;
      var t1 := r.result.value;
      assert t1.project == t.project && t in st.tickets;
      assert Widens(FindProject(st, t.project), FindProject(r.store, t.project));
      if t1.assignee.Some? && !patch.assignee.AssignTo? {
        AssigneesKeptWhenProjectsGrow(st, r.store, t);
      }
      ReplaceTicketKeeps(st, r.store, t1);
    }
  }

  /** updateTicketStatus touches neither assignee nor project. */
  lemma UpdateTicketStatusKeeps(st: Store, actor: UserId, id: TicketId, status: string)
    requires Consistent(st)
    ensures Consistent(TicketOps.UpdateTicketStatus(st, actor, id, status).store)
  {
    var r := TicketOps.UpdateTicketStatus(st, actor, id, status);
    if r.result.Success? {
      var t := FindTicket(st, id).value;
      var t1 := r.result.value;
      SameProjectsGrow(st, r.store);
      assert t in st.tickets;
      if t1.assignee.Some? {
        AssigneesKeptWhenProjectsGrow(st, r.store, t);
      }
      ReplaceTicketKeeps(st, r.store, t1);
    }
  }

  lemma DeleteTicketKeeps(st: Store, actor: UserId, id: TicketId)
    requires Consistent(st)
    ensures Consistent(TicketOps.DeleteTicket(st, actor, id).store)
  {
    var r := TicketOps.DeleteTicket(st, actor, id);
    if r.result.Success? {
      TicketOps.DeleteTicketStepsKeepLinks(st, id);
      assert r.store == TicketOps.DeleteTicketSteps(st, id)[1];
    }
  }

  // ------------------------------------------------------------- comments

  /** Appending a comment on a stored ticket keeps the store consistent. */
  lemma AppendCommentKeeps(st: Store, c: Comment)
    requires Consistent(st) && FindTicket(st, c.ticket).Some?
    ensures Consistent(st.(comments := st.comments + [c]))
  {
    var st2 := st.(comments := st.comments + [c]);
    forall x | x in st2.comments
      ensures exists t :: t in st2.tickets && t.id == x.ticket
    {
      if x == c {
        assert FindTicket(st, c.ticket).value in st2.tickets;
      } else {
        assert x in st.comments;
      }
    }
  }

  lemma CreateCommentKeeps(st: Store, actor: UserId, ticketId: TicketId, text: string, now: Millis, newId: CommentId)
    requires FreshCommentId(st, newId) && Consistent(st)
    ensures Consistent(CommentOps.CreateComment(st, actor, ticketId, text, now, newId).store)
  {
    var r := CommentOps.CreateComment(st, actor, ticketId, text, now, newId);
    if r.result.Success? {
      AppendCommentKeeps(st, r.result.value);
    }
  }

  /** Editing a comment rewrites only its text, so it still names its ticket. */
  lemma UpdateCommentKeeps(st: Store, actor: UserId, id: CommentId, text: string)
    requires Consistent(st)
    ensures Consistent(CommentOps.UpdateComment(st, actor, id, text).store)
  {
    var r := CommentOps.UpdateComment(st, actor, id, text);
    if r.result.Success? {
      var prev := FindComment(st, id).value;
      var c1 := r.result.value;
      forall i | 0 <= i < |r.store.comments|
        ensures exists t :: t in r.store.tickets && t.id == r.store.comments[i].ticket
      {
        if st.comments[i].id == id {
          assert r.store.comments[i] == c1 && c1.ticket == prev.ticket && prev in st.comments;
        } else {
          assert r.store.comments[i] == st.comments[i] && st.comments[i] in st.comments;
        }
      }
      assert Linked(r.store);
    }
  }

  /** Deleting a comment leaves every other reference in place. */
  lemma DeleteCommentKeeps(st: Store, actor: UserId, id: CommentId)
    requires Consistent(st)
    ensures Consistent(CommentOps.DeleteComment(st, actor, id).store)
  {
    var r := CommentOps.DeleteComment(st, actor, id);
    if r.result.Success? {
      assert forall c :: c in r.store.comments ==> c in st.comments;
    }
  }
}

=== FILE: kanban.dfy ===
/** frontend/src/components/KanbanBoard.jsx: the board's three status
    columns, regrouped whenever the ticket list changes, and the column
    arithmetic of a finished drag. */
module Kanban {
  import opened Wrappers
  import opened Seqs
  import opened Schema
  import opened ClientLists
  import TicketContext

  function IdOf(t: Ticket): nat { TicketContext.IdOf(t) }

  datatype Columns = Columns(todo: seq<Ticket>, inProgress: seq<Ticket>, done: seq<Ticket>)

  /** `columns[id]` for the column of a status. */
  function Column(cs: Columns, c: TicketStatus): seq<Ticket> {
    match c
    case Todo => cs.todo
    case InProgress => cs.inProgress
    case Done => cs.done
  }

  /** `{ ...columns, [id]: s }`. */
  function WithColumn(cs: Columns, c: TicketStatus, s: seq<Ticket>): (r: Columns)
    ensures Column(r, c) == s
    ensures forall d :: d != c ==> Column(r, d) == Column(cs, d)
  {
    match c
    case Todo => cs.(todo := s)
    case InProgress => cs.(inProgress := s)
    case Done => cs.(done := s)
  }

  /** The number of cards on the board. */
  function Size(cs: Columns): nat {
    |Column(cs, Todo)| + |Column(cs, InProgress)| + |Column(cs, Done)|
  }

  /** The grouping effect: each column is the tickets of its status, in list
      order, so no ticket sits in two columns. */
  function Group(tickets: seq<Ticket>): (r: Columns)
    ensures forall c :: Column(r, c) == Filter(tickets, StatusIs(c))
    ensures forall c, t :: t in Column(r, c) <==> t in tickets && t.status == c
  {
    Columns(Filter(tickets, StatusIs(Todo)), Filter(tickets, StatusIs(InProgress)), Filter(tickets, StatusIs(Done)))
  }

  /** Every ticket is on the board exactly as often as it is in the list. */
  lemma GroupPartitions(tickets: seq<Ticket>)
    ensures multiset(Group(tickets).todo) + multiset(Group(tickets).inProgress) + multiset(Group(tickets).done)
            == multiset(tickets)
    ensures Size(Group(tickets)) == |tickets|
  {
    FilterSplit3(tickets, StatusIs(Todo), StatusIs(InProgress), StatusIs(Done));
    var g := Group(tickets);
    assert |multiset(g.todo) + multiset(g.inProgress) + multiset(g.done)| == |multiset(tickets)|;
  }

  /** `s.splice(i, 1)`, for an index inside `s`. */
  function SpliceRemove(s: seq<Ticket>, i: nat): (r: seq<Ticket>)
    requires i < |s|
    ensures |r| == |s| - 1
    ensures forall k :: 0 <= k < i ==> r[k] == s[k]
    ensures forall k :: i <= k < |r| ==> r[k] == s[k + 1]
    ensures multiset(r) + multiset{s[i]} == multiset(s)
  {
    assert s == s[..i] + [s[i]] + s[i + 1..];
    s[..i] + s[i + 1..]
  }

  /** `s.splice(i, 0, x)`: an index past the end inserts at the end. */
  function SpliceInsert(s: seq<Ticket>, i: nat, x: Ticket): (r: seq<Ticket>)
    ensures |r| == |s| + 1
    ensures var j := if i <= |s| then i else |s|;
      && r[j] == x && r[..j] == s[..j] && r[j + 1..] == s[j..]
    ensures multiset(r) == multiset(s) + multiset{x}
  {
    var j := if i <= |s| then i else |s|;
    assert s == s[..j] + s[j..];
    s[..j] + [x] + s[j..]
  }

  /** Taking out the element just put in gives back the sequence. */
  lemma RemoveInserted(s: seq<Ticket>, j: nat, x: Ticket)
    requires j <= |s|
    ensures SpliceRemove(SpliceInsert(s, j, x), j) == s
  {
    var r := SpliceInsert(s, j, x);
    assert r == s[..j] + [x] + s[j..];
  }

  /** Putting back an element where it was taken out restores the sequence. */
  lemma InsertRemoved(s: seq<Ticket>, i: nat)
    requires i < |s|
    ensures SpliceInsert(SpliceRemove(s, i), i, s[i]) == s
  {
    assert s == s[..i] + [s[i]] + s[i + 1..];
  }

  /** A place on the board: a column and a position in it. */
  datatype Location = Location(column: TicketStatus, index: nat)

  /** What the drag library reports when a drag ends; the card id is the
      ticket's id. */
  datatype DragResult = DragResult(destination: Option<Location>, source: Location, draggable: TicketId)

  /** `updateTicketStatus(draggableId, destination.droppableId)`. */
  datatype StatusCall = StatusCall(ticket: TicketId, status: TicketStatus)

  /** The columns shown right after the drag and the status request sent. */
  datatype DragEffect = DragEffect(columns: Columns, call: Option<StatusCall>)

  /** Two boards with the same columns are the same board. */
  lemma SameColumns(a: Columns, b: Columns)
    requires forall e :: Column(a, e) == Column(b, e)
    ensures a == b
  {
    assert Column(a, Todo) == Column(b, Todo);
    assert Column(a, InProgress) == Column(b, InProgress);
    assert Column(a, Done) == Column(b, Done);
  }

  /** The drag changes the board: it has a destination other than its
      source and its card belongs to a listed ticket. */
  predicate Moves(tickets: seq<Ticket>, d: DragResult) {
    && d.destination.Some? && d.destination.value != d.source
    && Find(tickets, (t: Ticket) => t.id == d.draggable).Some?
  }

  /** A drop in the card's own column: the column is reordered, with the
      card at the drop position (or last, for a position past the end). */
  function MoveWithin(cs: Columns, c: TicketStatus, i: nat, j: nat): (r: Columns)
    requires i < |Column(cs, c)|
    ensures Column(r, c) == SpliceInsert(SpliceRemove(Column(cs, c), i), j, Column(cs, c)[i])
    ensures multiset(Column(r, c)) == multiset(Column(cs, c))
    ensures Column(r, c)[if j < |Column(cs, c)| then j else |Column(cs, c)| - 1] == Column(cs, c)[i]
    ensures forall e :: e != c ==> Column(r, e) == Column(cs, e)
    ensures Size(r) == Size(cs)
  {
    var col := Column(cs, c);
    var moved := col[i];
    var rest := SpliceRemove(col, i);
    var next := SpliceInsert(rest, j, moved);
    assert |next| == |col|;
    WithColumn(cs, c, next)
  }

  /** A drop in another column: the card leaves its position in the source
      and enters the destination at the drop position. */
  function MoveAcross(cs: Columns, src: TicketStatus, i: nat, dst: TicketStatus, j: nat): (r: Columns)
    requires src != dst && i < |Column(cs, src)|
    ensures Column(r, src) == SpliceRemove(Column(cs, src), i)
    ensures Column(r, dst) == SpliceInsert(Column(cs, dst), j, Column(cs, src)[i])
    ensures forall e :: e != src && e != dst ==> Column(r, e) == Column(cs, e)
    ensures Size(r) == Size(cs)
  {
    var moved := Column(cs, src)[i];
    var r := WithColumn(WithColumn(cs, src, SpliceRemove(Column(cs, src), i)), dst,
                        SpliceInsert(Column(cs, dst), j, moved));
    r
  }

  /** handleDragEnd up to the status request. The library always reports
      the source position of a card that is in its column. */
  function DragEnd(tickets: seq<Ticket>, cs: Columns, d: DragResult): (r: DragEffect)
    requires d.source.index < |Column(cs, d.source.column)|
    ensures !Moves(tickets, d) ==> r == DragEffect(cs, None)
    ensures Size(r.columns) == Size(cs)
    ensures r.call.Some? <==> Moves(tickets, d) && d.destination.value.column != d.source.column
    ensures r.call.Some? ==> r.call.value == StatusCall(d.draggable, d.destination.value.column)
    ensures Moves(tickets, d) && d.destination.value.column == d.source.column ==>
      r.columns == MoveWithin(cs, d.source.column, d.source.index, d.destination.value.index)
    ensures Moves(tickets, d) && d.destination.value.column != d.source.column ==>
      r.columns == MoveAcross(cs, d.source.column, d.source.index, d.destination.value.column,
                              d.destination.value.index)
  {
    if !Moves(tickets, d) then DragEffect(cs, None)
    else
      var dst := d.destination.value;
      if dst.column == d.source.column then
        DragEffect(MoveWithin(cs, d.source.column, d.source.index, dst.index), None)
      else
        DragEffect(MoveAcross(cs, d.source.column, d.source.index, dst.column, dst.index),
                   Some(StatusCall(d.draggable, dst.column)))
  }

  /** What updateTicketStatus came back with: the saved ticket, which the
      context's UPDATE_TICKET puts into the list, or an error. */
  datatype StatusReply = Saved(ticket: Ticket) | Rejected

  /** The ticket list and the board once the status request settles. A
      rejected request puts back the columns from before the drag. A saved
      one replaces the ticket in the list, and the list change regroups the
      whole board, so the optimistic board is discarded. */
  function Settle(tickets: seq<Ticket>, before: Columns, e: DragEffect, reply: StatusReply): (r: (seq<Ticket>, Columns))
    ensures e.call.None? ==> r == (tickets, e.columns)
    ensures e.call.Some? && reply.Rejected? ==> r == (tickets, before)
    ensures e.call.Some? && reply.Saved? ==>
      && r.0 == ReplaceById(tickets, reply.ticket, IdOf)
      && (forall c, t :: t in Column(r.1, c) <==> t in r.0 && t.status == c)
      && (forall c, t :: t in Column(r.1, c) && t.id == reply.ticket.id ==> t == reply.ticket)
      && ((exists t :: t in tickets && t.id == reply.ticket.id) ==>
            reply.ticket in Column(r.1, reply.ticket.status))
  {
    if e.call.None? then (tickets, e.columns)
    else
      match reply
      case Rejected => (tickets, before)
      case Saved(t) =>
        var ts := ReplaceById(tickets, t, IdOf);
        var g := Group(ts);
        assert forall x :: x in ts && x.id == t.id ==> x == t by {
          forall x | x in ts && x.id == t.id ensures x == t {
            var i :| 0 <= i < |ts| && ts[i] == x;
          }
        }
        assert (exists x :: x in tickets && x.id == t.id) ==> t in ts by {
          if x :| x in tickets && x.id == t.id {
            var i :| 0 <= i < |tickets| && tickets[i] == x;
            assert ts[i] == t;
          }
        }
        (ts, g)
  }

  /** Whenever a status request went out, the settled board shows exactly
      the settled list grouped by status, provided the board before the
      drag did so for the list then. */
  lemma SettleShowsList(tickets: seq<Ticket>, e: DragEffect, reply: StatusReply)
    requires e.call.Some?
    ensures var r := Settle(tickets, Group(tickets), e, reply);
      r.1 == Group(r.0)
  {
    var r := Settle(tickets, Group(tickets), e, reply);
    if reply.Saved? {
      forall c ensures Column(r.1, c) == Column(Group(r.0), c) {
        assert Column(r.1, c) == Filter(r.0, StatusIs(c));
      }
      SameColumns(r.1, Group(r.0));
    }
  }

  /** Dragging a card back to where it came from restores the board, within
      a column and across columns, when the first drop landed inside the
      destination column. */
  lemma {:induction false} DragBackRestores(tickets: seq<Ticket>, cs: Columns, d: DragResult)
    requires d.source.index < |Column(cs, d.source.column)|
    requires Moves(tickets, d)
    requires d.destination.value.column == d.source.column ==>
      d.destination.value.index < |Column(cs, d.source.column)|
    requires d.destination.value.column != d.source.column ==>
      d.destination.value.index <= |Column(cs, d.destination.value.column)|
    ensures var back := DragResult(Some(d.source), d.destination.value, d.draggable);
      && d.destination.value.index < |Column(DragEnd(tickets, cs, d).columns, d.destination.value.column)|
      && DragEnd(tickets, DragEnd(tickets, cs, d).columns, back).columns == cs
  {
    var src := d.source.column;
    var i := d.source.index;
    var dst := d.destination.value;
    var moved := Column(cs, src)[i];
    var rest := SpliceRemove(Column(cs, src), i);
    var mid := DragEnd(tickets, cs, d).columns;
    var back := DragResult(Some(d.source), dst, d.draggable);
    assert Moves(tickets, back);
    var fin := DragEnd(tickets, mid, back).columns;
    if dst.column == src {
      assert mid == MoveWithin(cs, src, i, dst.index);
      assert Column(mid, src)[dst.index] == moved;
      RemoveInserted(rest, dst.index, moved);
      InsertRemoved(Column(cs, src), i);
      assert fin == MoveWithin(mid, src, dst.index, i);
      assert Column(fin, src) == Column(cs, src);
    } else {
      assert mid == MoveAcross(cs, src, i, dst.column, dst.index);
      var target := SpliceInsert(Column(cs, dst.column), dst.index, moved);
      assert Column(mid, dst.column) == target && Column(mid, src) == rest;
      assert target[dst.index] == moved;
      RemoveInserted(Column(cs, dst.column), dst.index, moved);
      InsertRemoved(Column(cs, src), i);
      assert fin == MoveAcross(mid, dst.column, dst.index, src, i);
      assert Column(fin, src) == Column(cs, src);
      assert Column(fin, dst.column) == Column(cs, dst.column);
    }
    SameColumns(fin, cs);
  }
}

=== FILE: members_page.dfy ===
/** frontend/src/pages/Members.jsx: the member directory narrowed by a
    search and a role, then ordered by the chosen key. The `name` order is
    code-unit lexicographic here. */
module MembersPage {
  import opened Wrappers
  import opened Seqs
  import opened Text
  import opened Schema
  import opened ClientLists

  datatype MemberStats = MemberStats(activeTickets: Option<nat>, completedTickets: Option<nat>)

  datatype Member = Member(name: string, email: string, role: Role, stats: Option<MemberStats>)

  /** `m.stats?.activeTickets || 0`. */
  function Active(m: Member): nat {
    if m.stats.Some? && m.stats.value.activeTickets.Some? then m.stats.value.activeTickets.value else 0
  }

  /** `m.stats?.completedTickets || 0`. */
  function Completed(m: Member): nat {
    if m.stats.Some? && m.stats.value.completedTickets.Some? then m.stats.value.completedTickets.value else 0
  }

  /** The `sortBy` select; any other value sorts nothing. */
  datatype SortKey = ByActive | ByCompleted | ByName | Unsorted

  datatype MemberFilters = MemberFilters(search: string, role: Choice<Role>, sortBy: SortKey)

  predicate Matches(f: MemberFilters, m: Member) {
    && (f.search == "" || IncludesIgnoreCase(m.name, f.search) || IncludesIgnoreCase(m.email, f.search))
    && Admits(f.role, m.role)
  }

  function Matcher(f: MemberFilters): Member -> bool {
    (m: Member) => Matches(f, m)
  }

  /** `a` may stay ahead of `b`: the comparator returns at most zero. */
  function Precedes(k: SortKey): (Member, Member) -> bool {
    match k
    case ByActive => (a: Member, b: Member) => Active(b) - Active(a) <= 0
    case ByCompleted => (a: Member, b: Member) => Completed(b) - Completed(a) <= 0
    case ByName => (a: Member, b: Member) => LexLe(a.name, b.name)
    case Unsorted => (a: Member, b: Member) => true
  }

  lemma PrecedesTotal(k: SortKey)
    ensures Total(Precedes(k))
  {
    if k == ByName {
      forall a: Member, b: Member
        ensures Precedes(k)(a, b) || Precedes(k)(b, a)
      {
        LexLeTotal(a.name, b.name);
      }
    }
  }

  /** `filteredMembers`: the matching members, reordered. */
  function FilteredMembers(ms: seq<Member>, f: MemberFilters): (r: seq<Member>)
    ensures multiset(r) == multiset(Filter(ms, Matcher(f)))
    ensures forall m :: m in r <==> m in ms && Matches(f, m)
    ensures f.sortBy == ByActive ==> forall i :: 0 <= i < |r| - 1 ==> Active(r[i]) >= Active(r[i + 1])
    ensures f.sortBy == ByCompleted ==> forall i :: 0 <= i < |r| - 1 ==> Completed(r[i]) >= Completed(r[i + 1])
    ensures f.sortBy == ByName ==> forall i :: 0 <= i < |r| - 1 ==> LexLe(r[i].name, r[i + 1].name)
    ensures f.sortBy == Unsorted ==> r == Filter(ms, Matcher(f))
    ensures f.sortBy == ByActive ==>
              forall n :: Filter(r, ActiveIs(n)) == Filter(Filter(ms, Matcher(f)), ActiveIs(n))
    ensures f.sortBy == ByCompleted ==>
              forall n :: Filter(r, CompletedIs(n)) == Filter(Filter(ms, Matcher(f)), CompletedIs(n))
    ensures f.sortBy == ByName ==>
              forall n :: Filter(r, NameIs(n)) == Filter(Filter(ms, Matcher(f)), NameIs(n))
  {
    var shown := Filter(ms, Matcher(f));
    var r := Sort(shown, Precedes(f.sortBy));
    SortByKey(shown, f.sortBy);
    SortKeepsTies(shown, f.sortBy);
    SortSameElements(shown, Precedes(f.sortBy));
    r
  }

  /** What the stable sort guarantees for each key. */
  lemma SortByKey(shown: seq<Member>, k: SortKey)
    ensures SortedBy(Sort(shown, Precedes(k)), Precedes(k))
    ensures var r := Sort(shown, Precedes(k));
            k == ByActive ==> forall i :: 0 <= i < |r| - 1 ==> Active(r[i]) >= Active(r[i + 1])
    ensures var r := Sort(shown, Precedes(k));
            k == ByCompleted ==> forall i :: 0 <= i < |r| - 1 ==> Completed(r[i]) >= Completed(r[i + 1])
    ensures var r := Sort(shown, Precedes(k));
            k == ByName ==> forall i :: 0 <= i < |r| - 1 ==> LexLe(r[i].name, r[i + 1].name)
    ensures k == Unsorted ==> Sort(shown, Precedes(k)) == shown
  {
    PrecedesTotal(k);
    SortSorted(shown, Precedes(k));
    if k == Unsorted {
      SortKeepsOrderWhenAllTie(shown, Precedes(k));
    }
  }

  function ActiveIs(n: nat): Member -> bool { (m: Member) => Active(m) == n }
  function CompletedIs(n: nat): Member -> bool { (m: Member) => Completed(m) == n }
  function NameIs(n: string): Member -> bool { (m: Member) => m.name == n }

  /** The sort is stable: members whose key ties keep their filtered order. */
  lemma SortKeepsTies(shown: seq<Member>, k: SortKey)
    ensures k == ByActive ==>
              forall n :: Filter(Sort(shown, Precedes(k)), ActiveIs(n)) == Filter(shown, ActiveIs(n))
    ensures k == ByCompleted ==>
              forall n :: Filter(Sort(shown, Precedes(k)), CompletedIs(n)) == Filter(shown, CompletedIs(n))
    ensures k == ByName ==>
              forall n :: Filter(Sort(shown, Precedes(k)), NameIs(n)) == Filter(shown, NameIs(n))
  {
    if k == ByActive {
      forall n: nat ensures Filter(Sort(shown, Precedes(k)), ActiveIs(n)) == Filter(shown, ActiveIs(n)) {
        SortStable(shown, Precedes(k), ActiveIs(n));
      }
    } else if k == ByCompleted {
      forall n: nat ensures Filter(Sort(shown, Precedes(k)), CompletedIs(n)) == Filter(shown, CompletedIs(n)) {
        SortStable(shown, Precedes(k), CompletedIs(n));
      }
    } else if k == ByName {
      forall n: string ensures Filter(Sort(shown, Precedes(k)), NameIs(n)) == Filter(shown, NameIs(n)) {
        LexLeRefl(n);
        SortStable(shown, Precedes(k), NameIs(n));
      }
    }
  }

  /** With no search and every role admitted, every member is listed. */
  lemma EveryoneListedUnfiltered(ms: seq<Member>, k: SortKey)
    ensures multiset(FilteredMembers(ms, MemberFilters("", All, k))) == multiset(ms)
  {
  }
}

=== FILE: my_tasks_page.dfy ===
/** frontend/src/pages/MyTasks.jsx: the caller's tickets narrowed by
    project, priority and type, and the counters shown above them. */
module MyTasksPage {
  import opened Seqs
  import opened Schema
  import opened ClientLists

  datatype TaskFilters = TaskFilters(project: Choice<ProjectId>, priority: Choice<Priority>, kind: Choice<TicketType>)

  const Unfiltered := TaskFilters(All, All, All)

  /** The three conditions of `filteredTickets`. */
  function Matcher(f: TaskFilters): Ticket -> bool {
    (t: Ticket) => Admits(f.project, t.project) && Admits(f.priority, t.priority) && Admits(f.kind, t.kind)
  }

  function FilteredTickets(tickets: seq<Ticket>, f: TaskFilters): (r: seq<Ticket>)
    ensures IsSubseq(r, tickets)
    ensures forall t :: t in r <==>
      t in tickets && Admits(f.project, t.project) && Admits(f.priority, t.priority) && Admits(f.kind, t.kind)
    ensures f == Unfiltered ==> r == tickets
  {
    Filter(tickets, Matcher(f))
  }

  datatype TaskStats = TaskStats(total: nat, todo: nat, inProgress: nat, done: nat)

  /** `taskStats` over the shown tickets. */
  function Stats(shown: seq<Ticket>): (r: TaskStats)
    ensures r.total == |shown|
    ensures r.todo == |Filter(shown, StatusIs(Todo))|
    ensures r.inProgress == |Filter(shown, StatusIs(InProgress))|
    ensures r.done == |Filter(shown, StatusIs(Done))|
  {
    TaskStats(|shown|, Count(shown, StatusIs(Todo)), Count(shown, StatusIs(InProgress)), Count(shown, StatusIs(Done)))
  }

  /** Every ticket has one of the three statuses, so the three counters add
      up to the total. */
  lemma StatsAddUp(shown: seq<Ticket>)
    ensures Stats(shown).todo + Stats(shown).inProgress + Stats(shown).done == Stats(shown).total
  {
    FilterSplit3(shown, StatusIs(Todo), StatusIs(InProgress), StatusIs(Done));
    var a, b, c := Filter(shown, StatusIs(Todo)), Filter(shown, StatusIs(InProgress)), Filter(shown, StatusIs(Done));
    assert |multiset(a) + multiset(b) + multiset(c)| == |multiset(shown)|;
  }
}

=== FILE: project_context.dfy ===
/** frontend/src/contexts/ProjectContext.jsx: the client's project list, the
    selected project and the request flags, driven by a reducer. */
module ProjectContext {
  import opened Wrappers
  import opened Schema
  import opened ClientLists

  datatype ProjectState = ProjectState(
    projects: seq<Project>,
    current: Option<Project>,
    loading: bool,
    error: Option<string>)

  const Initial := ProjectState([], None, false, None)

  datatype ProjectAction =
    | SetLoading(on: bool)
    | SetError(message: string)
    | SetProjects(items: seq<Project>)
    | SetCurrent(selected: Option<Project>)
    | AddProject(added: Project)
    | UpdateProject(updated: Project)
    | DeleteProject(removed: ProjectId)
    | ClearCurrent
    | Unrecognised(name: string)

  function IdOf(p: Project): nat { p.id }

  /** projectReducer. */
  function Reduce(s: ProjectState, a: ProjectAction): (r: ProjectState)
    ensures a.Unrecognised? ==> r == s
    ensures !a.SetError? && !a.SetProjects? ==> r.error == s.error
    ensures a.SetError? || a.SetProjects? || a.SetCurrent? || a.AddProject? || a.UpdateProject? || a.DeleteProject? ==>
      !r.loading
    ensures a.SetLoading? ==> r == s.(loading := a.on)
    ensures a.SetError? ==> r.error == Some(a.message) && r.projects == s.projects && r.current == s.current
    ensures a.SetProjects? ==> r.projects == a.items && r.error.None? && r.current == s.current
    ensures a.SetCurrent? ==> r.current == a.selected && r.projects == s.projects
    ensures a.AddProject? ==>
      && |r.projects| == |s.projects| + 1 && r.projects[0] == a.added && r.projects[1..] == s.projects
      && r.current == s.current
    ensures a.UpdateProject? ==>
      && |r.projects| == |s.projects|
      && (forall i :: 0 <= i < |s.projects| ==>
            r.projects[i] == if s.projects[i].id == a.updated.id then a.updated else s.projects[i])
      && (if s.current.Some? && s.current.value.id == a.updated.id then r.current == Some(a.updated)
          else r.current == s.current)
    ensures a.DeleteProject? ==>
      && (forall p :: p in r.projects <==> p in s.projects && p.id != a.removed)
      && (r.current.None? <==> s.current.None? || s.current.value.id == a.removed)
      && (r.current.Some? ==> r.current == s.current)
    ensures a.ClearCurrent? ==> r == s.(current := None)
  {
    match a
    case SetLoading(on) => s.(loading := on)
    case SetError(m) => s.(error := Some(m), loading := false)
    case SetProjects(ps) => s.(projects := ps, loading := false, error := None)
    case SetCurrent(p) => s.(current := p, loading := false)
    case AddProject(p) => s.(projects := [p] + s.projects, loading := false)
    case UpdateProject(p) =>
      s.(projects := ReplaceById(s.projects, p, IdOf), current := SyncCurrent(s.current, p, IdOf), loading := false)
    case DeleteProject(k) =>
      s.(projects := RemoveById(s.projects, k, IdOf), current := DropCurrent(s.current, k, IdOf), loading := false)
    case ClearCurrent => s.(current := None)
    case Unrecognised(_) => s
  }

  /** The selected project never disagrees with the listed copy of it:
      every action except a wholesale reload or a fresh selection keeps
      that, as long as an added project carries an id not yet listed. */
  lemma {:induction false} ReduceKeepsAgreement(s: ProjectState, a: ProjectAction)
    requires Agree(s.projects, s.current, IdOf)
    requires !a.SetProjects? && !a.SetCurrent?
    requires a.AddProject? ==> forall p :: p in s.projects ==> p.id != a.added.id
    requires a.AddProject? && s.current.Some? ==> s.current.value.id != a.added.id
    ensures Agree(Reduce(s, a).projects, Reduce(s, a).current, IdOf)
  {
    match a
    case UpdateProject(p) => ReplaceAgrees(s.projects, s.current, p, IdOf);
    case DeleteProject(k) => RemoveAgrees(s.projects, s.current, k, IdOf);
    case AddProject(p) =>
      var r := Reduce(s, a);
      if r.current.Some? {
        forall i | 0 <= i < |r.projects| && r.projects[i].id == r.current.value.id
          ensures r.projects[i] == r.current.value
        {
          assert i != 0;
          assert r.projects[i] == s.projects[i - 1];
        }
      }
    case _ =>
  }

  /** Deleting a project just added under a fresh id restores the list. */
  lemma AddThenDelete(s: ProjectState, p: Project)
    requires forall q :: q in s.projects ==> q.id != p.id
    ensures Reduce(Reduce(s, AddProject(p)), DeleteProject(p.id)).projects == s.projects
  {
    RemoveAfterPrepend(s.projects, p, IdOf);
  }

  /** Sending the same update twice is sending it once. */
  lemma UpdateTwice(s: ProjectState, p: Project)
    ensures Reduce(Reduce(s, UpdateProject(p)), UpdateProject(p)) == Reduce(s, UpdateProject(p))
  {
    ReplaceIdempotent(s.projects, p, IdOf);
  }
}

=== FILE: project_ops.dfy ===
/** backend/controllers/projectController.js: the project handlers as pure
    functions of the store and the authenticated caller. */
module ProjectOps {
  import opened Wrappers
  import opened Seqs
  import opened Schema
  import opened Store

  const TitleRequired := "Project title is required"
  const ProjectNotFound := "Project not found"
  const NotAuthorizedToAccess := "Not authorized to access this project"
  const OnlyOwnerUpdate := "Only project owner can update the project"
  const OnlyOwnerDelete := "Only project owner can delete the project"
  const OnlyOwnerAdd := "Only project owner can add team members"
  const OnlyOwnerRemove := "Only project owner can remove team members"
  const AlreadyMember := "User is already a team member"
  const CannotRemoveOwner := "Cannot remove project owner"
  const ProjectDeleted := "Project, associated tickets, and comments deleted"

  /** createProject. The owner is the caller; `teamMembers` is taken verbatim
      when supplied (even if it leaves the owner out) and is `[caller]`
      otherwise. No key is supplied, although the schema requires one. */
  function CreateProject(st: Store, actor: UserId, title: string, description: Option<string>,
                         teamMembers: Option<seq<UserId>>, newId: ProjectId): (r: Outcome<Project>)
    requires FreshProjectId(st, newId)
    ensures r.mails == []
    ensures r.result.Failure? <==> title == ""
    ensures title == "" ==> r.store == st && r.result == Failure(BadRequest(TitleRequired))
    ensures r.result.Success? ==>
      var p := r.result.value;
      && p.id == newId && p.owner == actor && IsMember(p, actor)
      && p.title == title && p.description == description
      && p.key.None? && p.status == DefaultProjectStatus
      && p.teamMembers == (if teamMembers.Some? then teamMembers.value else [actor])
      && r.store == st.(projects := st.projects + [p])
  {
    if title == "" then Fail(st, BadRequest(TitleRequired))
    else
      var p := Project(newId, title, None, description, actor,
                       if teamMembers.Some? then teamMembers.value else [actor],
                       DefaultProjectStatus);
      Outcome(st.(projects := st.projects + [p]), [], Success(p))
  }

  /** getProjects: the projects the caller owns or is listed in, in store
      order (the `createdAt` descending sort is not modelled). */
  function GetProjects(st: Store, actor: UserId): (r: seq<Project>)
    ensures forall p :: p in r <==> p in st.projects && IsMember(p, actor)
    ensures IsSubseq(r, st.projects)
  {
    Filter(st.projects, (p: Project) => IsMember(p, actor))
  }

  /** getProjectById: 404 when absent, 403 for a non-member, else the project.
      Never writes. */
  function GetProjectById(st: Store, actor: UserId, id: ProjectId): (r: Outcome<Project>)
    ensures r.store == st && r.mails == []
    ensures FindProject(st, id).None? ==> r.result == Failure(NotFound(ProjectNotFound))
    ensures FindProject(st, id).Some? && !IsMember(FindProject(st, id).value, actor) ==>
      r.result == Failure(Forbidden(NotAuthorizedToAccess))
    ensures r.result.Success? <==> FindProject(st, id).Some? && IsMember(FindProject(st, id).value, actor)
    ensures r.result.Success? ==> Some(r.result.value) == FindProject(st, id)
  {
    match FindProject(st, id)
    case None => Fail(st, NotFound(ProjectNotFound))
    case Some(p) =>
      if !IsMember(p, actor) then Fail(st, Forbidden(NotAuthorizedToAccess))
      else Outcome(st, [], Success(p))
  }

  /** The guard every owner-only handler runs first: existence (404), then
      ownership (403). */
  function OwnerGate(st: Store, actor: UserId, id: ProjectId, denied: string): (r: Result<Project, Error>)
    ensures FindProject(st, id).None? ==> r == Failure(NotFound(ProjectNotFound))
    ensures FindProject(st, id).Some? && !IsOwner(FindProject(st, id).value, actor) ==>
      r == Failure(Forbidden(denied))
    ensures r.Success? <==> FindProject(st, id).Some? && IsOwner(FindProject(st, id).value, actor)
    ensures r.Success? ==> Some(r.value) == FindProject(st, id)
  {
    match FindProject(st, id)
    case None => Failure(NotFound(ProjectNotFound))
    case Some(p) =>
      if !IsOwner(p, actor) then Failure(Forbidden(denied)) else Success(p)
  }

  /** getProjectById and getProjects agree: a caller can open a project by
      id exactly when the project findById returns is in their list. */
  lemma ByIdIsListed(st: Store, actor: UserId, id: ProjectId)
    ensures GetProjectById(st, actor, id).result.Success? <==>
              FindProject(st, id).Some? && FindProject(st, id).value in GetProjects(st, actor)
  {
  }

  /** Whoever passes an owner-only guard can also open the project, and sees
      the same document. */
  lemma OwnerGateAdmitsMember(st: Store, actor: UserId, id: ProjectId, denied: string)
    ensures OwnerGate(st, actor, id, denied).Success? ==>
              GetProjectById(st, actor, id).result == Success(OwnerGate(st, actor, id, denied).value)
  {
  }

  /** The body fields of updateProject. A string field is applied only when
      non-empty (truthy); `teamMembers` whenever supplied, even empty. */
  datatype ProjectPatch = ProjectPatch(
    title: string,
    description: string,
    status: Option<ProjectStatus>,
    teamMembers: Option<seq<UserId>>)

  function ApplyPatch(p: Project, patch: ProjectPatch): Project {
    p.(title := if patch.title != "" then patch.title else p.title,
       description := if patch.description != "" then Some(patch.description) else p.description,
       status := if patch.status.Some? then patch.status.value else p.status,
       teamMembers := if patch.teamMembers.Some? then patch.teamMembers.value else p.teamMembers)
  }

  /** updateProject. Owner-only. Members present before and absent after lose
      their assignments on this project's tickets; every other ticket, and
      every other collection, is untouched. */
  function UpdateProject(st: Store, actor: UserId, id: ProjectId, patch: ProjectPatch): (r: Outcome<Project>)
    ensures r.mails == []
    ensures r.result.Failure? ==> r.store == st
    ensures r.result.Failure? ==>
      OwnerGate(st, actor, id, OnlyOwnerUpdate).Failure? && r.result == Failure(OwnerGate(st, actor, id, OnlyOwnerUpdate).error)
    ensures r.result.Success? <==> FindProject(st, id).Some? && IsOwner(FindProject(st, id).value, actor)
    ensures r.result.Success? ==>
      var prev := FindProject(st, id).value;
      var p := r.result.value;
      && p.id == id && p.owner == prev.owner && p.key == prev.key
      && p.title == (if patch.title != "" then patch.title else prev.title)
      && p.description == (if patch.description != "" then Some(patch.description) else prev.description)
      && p.status == (if patch.status.Some? then patch.status.value else prev.status)
      && p.teamMembers == (if patch.teamMembers.Some? then patch.teamMembers.value else prev.teamMembers)
      && r.store.users == st.users && r.store.comments == st.comments && r.store.otps == st.otps
      && |r.store.projects| == |st.projects|
      && (forall i :: 0 <= i < |st.projects| ==>
            r.store.projects[i] == if st.projects[i].id == id then p else st.projects[i])
      && |r.store.tickets| == |st.tickets|
      && (forall i :: 0 <= i < |st.tickets| ==>
            var t := st.tickets[i];
            r.store.tickets[i] ==
              if t.project == id && t.assignee.Some? && t.assignee.value in prev.teamMembers
                 && t.assignee.value !in p.teamMembers
              then t.(assignee := None) else t)
  {
    match OwnerGate(st, actor, id, OnlyOwnerUpdate)
    case Failure(e) => Fail(st, e)
    case Success(prev) =>
      var p := ApplyPatch(prev, patch);
      var kept := p.teamMembers;
      var removed := Filter(prev.teamMembers, (m: UserId) => m !in kept);
      var st1 := if removed != [] then
                   st.(tickets := UnassignInProject(st.tickets, id, (a: UserId) => a in removed))
                 else st;
      Outcome(SaveProject(st1, p), [], Success(p))
  }

  /** The three writes of deleteProject in the order the handler awaits them:
      comments on the project's tickets, then the tickets, then the project. */
  function DeleteProjectSteps(st: Store, id: ProjectId): (steps: seq<Store>)
    ensures |steps| == 3
    ensures steps[0] == st.(comments := steps[0].comments)
    ensures steps[1] == steps[0].(tickets := steps[1].tickets)
    ensures steps[2] == steps[1].(projects := steps[2].projects)
    ensures forall c :: c in steps[0].comments <==>
      c in st.comments && !(exists t :: t in st.tickets && t.project == id && t.id == c.ticket)
    ensures forall t :: t in steps[1].tickets <==> t in st.tickets && t.project != id
    ensures forall p :: p in steps[2].projects <==> p in st.projects && p.id != id
  {
    var doomed := set t | t in st.tickets && t.project == id :: t.id;
    var s0 := st.(comments := Filter(st.comments, (c: Comment) => c.ticket !in doomed));
    var s1 := s0.(tickets := Filter(s0.tickets, (t: Ticket) => t.project != id));
    var s2 := s1.(projects := Filter(s1.projects, (p: Project) => p.id != id));
    [s0, s1, s2]
  }

  /** deleteProject. Owner-only; removes the project, its tickets and their
      comments and nothing else. */
  function DeleteProject(st: Store, actor: UserId, id: ProjectId): (r: Outcome<string>)
    ensures r.mails == []
    ensures r.result.Failure? ==> r.store == st
    ensures r.result.Failure? ==>
      OwnerGate(st, actor, id, OnlyOwnerDelete).Failure? && r.result == Failure(OwnerGate(st, actor, id, OnlyOwnerDelete).error)
    ensures r.result.Success? <==> FindProject(st, id).Some? && IsOwner(FindProject(st, id).value, actor)
    ensures r.result.Success? ==>
      && r.result.value == ProjectDeleted
      && r.store.users == st.users && r.store.otps == st.otps
      && (forall p :: p in r.store.projects <==> p in st.projects && p.id != id)
      && (forall t :: t in r.store.tickets <==> t in st.tickets && t.project != id)
      && (forall c :: c in r.store.comments <==>
            c in st.comments && !(exists t :: t in st.tickets && t.project == id && t.id == c.ticket))
  {
    match OwnerGate(st, actor, id, OnlyOwnerDelete)
    case Failure(e) => Fail(st, e)
    case Success(_) =>
      var steps := DeleteProjectSteps(st, id);
      Outcome(steps[2], [], Success(ProjectDeleted))
  }

  /** Each write of the delete cascade keeps every ticket pointing at an
      existing project and every comment at an existing ticket, so a failure
      between two writes leaves no dangling reference. */
  lemma DeleteProjectStepsKeepLinks(st: Store, id: ProjectId)
    requires Linked(st)
    ensures forall k :: 0 <= k < 3 ==> Linked(DeleteProjectSteps(st, id)[k])
  {
    var steps := DeleteProjectSteps(st, id);
    forall k | 0 <= k < 3
      ensures Linked(steps[k])
    {
      forall t | t in steps[k].tickets
        ensures exists p :: p in steps[k].projects && p.id == t.project
      {
        assert t in st.tickets;
        var p :| p in st.projects && p.id == t.project;
        if k == 2 {
          assert t.project != id;
          assert p in steps[2].projects;
        }
      }
      forall c | c in steps[k].comments
        ensures exists t :: t in steps[k].tickets && t.id == c.ticket
      {
        assert c in st.comments;
        var t :| t in st.tickets && t.id == c.ticket;
        if k >= 1 {
          assert t.project != id;
          assert t in steps[k].tickets;
        }
      }
    }
  }

  /** addTeamMember. Owner-only; refuses a user already listed (400) and
      otherwise appends exactly that user, then mails them if they exist and
      accept notifications. */
  function AddTeamMember(st: Store, actor: UserId, id: ProjectId, userId: UserId): (r: Outcome<Project>)
    ensures r.result.Failure? ==> r.store == st && r.mails == []
    ensures OwnerGate(st, actor, id, OnlyOwnerAdd).Failure? ==>
      r.result == Failure(OwnerGate(st, actor, id, OnlyOwnerAdd).error)
    ensures OwnerGate(st, actor, id, OnlyOwnerAdd).Success? &&
            userId in FindProject(st, id).value.teamMembers ==>
      r.result == Failure(BadRequest(AlreadyMember))
    ensures r.result.Success? ==>
      var prev := FindProject(st, id).value;
      && IsOwner(prev, actor) && userId !in prev.teamMembers
      && r.result.value == prev.(teamMembers := prev.teamMembers + [userId])
      && r.store == SaveProject(st, r.result.value)
      && (forall m :: m in r.mails ==> m == Mail(userId, AddedToProject(id)))
      && (r.mails != [] <==> FindUser(st, userId).Some? && FindUser(st, userId).value.emailNotifications)
  {
    match OwnerGate(st, actor, id, OnlyOwnerAdd)
    case Failure(e) => Fail(st, e)
    case Success(prev) =>
      if userId in prev.teamMembers then Fail(st, BadRequest(AlreadyMember))
      else
        var p := prev.(teamMembers := prev.teamMembers + [userId]);
        var st1 := SaveProject(st, p);
        var mails := match FindUser(st1, userId)
                     case Some(u) => if u.emailNotifications then [Mail(userId, AddedToProject(id))] else []
                     case None => [];
        Outcome(st1, mails, Success(p))
  }

  /** removeTeamMember. Owner-only; refuses the owner (400); drops every
      occurrence of the user from teamMembers and unassigns that user's
      tickets in this project, whether or not they were listed. */
  function RemoveTeamMember(st: Store, actor: UserId, id: ProjectId, userId: UserId): (r: Outcome<Project>)
    ensures r.mails == []
    ensures r.result.Failure? ==> r.store == st
    ensures OwnerGate(st, actor, id, OnlyOwnerRemove).Failure? ==>
      r.result == Failure(OwnerGate(st, actor, id, OnlyOwnerRemove).error)
    ensures OwnerGate(st, actor, id, OnlyOwnerRemove).Success? && userId == FindProject(st, id).value.owner ==>
      r.result == Failure(BadRequest(CannotRemoveOwner))
    ensures r.result.Success? ==>
      var prev := FindProject(st, id).value;
      var p := r.result.value;
      && IsOwner(prev, actor) && userId != prev.owner
      && p == prev.(teamMembers := p.teamMembers)
      && (forall m :: m in p.teamMembers <==> m in prev.teamMembers && m != userId)
      && IsSubseq(p.teamMembers, prev.teamMembers)
      && !IsMember(p, userId)
      && r.store.users == st.users && r.store.comments == st.comments && r.store.otps == st.otps
      && |r.store.projects| == |st.projects|
      && (forall i :: 0 <= i < |st.projects| ==>
            r.store.projects[i] == if st.projects[i].id == id then p else st.projects[i])
      && |r.store.tickets| == |st.tickets|
      && (forall i :: 0 <= i < |st.tickets| ==>
            var t := st.tickets[i];
            r.store.tickets[i] ==
              if t.project == id && t.assignee == Some(userId) then t.(assignee := None) else t)
  {
    match OwnerGate(st, actor, id, OnlyOwnerRemove)
    case Failure(e) => Fail(st, e)
    case Success(prev) =>
      if prev.owner == userId then Fail(st, BadRequest(CannotRemoveOwner))
      else
        var p := prev.(teamMembers := Filter(prev.teamMembers, (m: UserId) => m != userId));
        var st1 := st.(tickets := UnassignInProject(st.tickets, id, (a: UserId) => a == userId));
        Outcome(SaveProject(st1, p), [], Success(p))
  }
}

=== FILE: register_page.dfy ===
/** frontend/src/pages/Register.jsx: the sign-up form's submit handler. The
    four fields carry `required`, so the browser refuses an empty one. */
module RegisterPage {
  import opened Wrappers
  import opened Text
  import opened Schema
  import opened Store
  import opened ClientLists
  import AuthOps

  const PasswordsDoNotMatch := "Passwords do not match"
  const PasswordTooShort := "Password must be at least 6 characters"
  const MinLength := 6

  datatype RegisterForm = RegisterForm(name: string, email: string, password: string, confirmPassword: string)

  /** The form data without `confirmPassword`. */
  datatype RegisterPayload = RegisterPayload(name: string, email: string, password: string)

  /** handleSubmit: the mismatch check first, then the length check, then
      the `register` request. */
  function Submit(f: RegisterForm): (r: Submission<RegisterPayload>)
    ensures r.NotSubmitted? <==> f.name == "" || f.email == "" || f.password == "" || f.confirmPassword == ""
    ensures !r.NotSubmitted? && f.password != f.confirmPassword ==> r == Blocked(PasswordsDoNotMatch)
    ensures !r.NotSubmitted? && f.password == f.confirmPassword && |f.password| < MinLength ==>
      r == Blocked(PasswordTooShort)
    ensures r.Sent? <==>
      f.name != "" && f.email != "" && f.password == f.confirmPassword && |f.password| >= MinLength
    ensures r.Sent? ==> r.payload.name == f.name && r.payload.email == f.email && r.payload.password == f.password
  {
    if f.name == "" || f.email == "" || f.password == "" || f.confirmPassword == "" then NotSubmitted
    else if f.password != f.confirmPassword then Blocked(PasswordsDoNotMatch)
    else if |f.password| < MinLength then Blocked(PasswordTooShort)
    else Sent(RegisterPayload(f.name, f.email, f.password))
  }

  /** A payload the form lets through is never refused by the server for a
      missing field or a short password: with a name of 1 to 50 characters
      once trimmed, a non-blank address and an address not yet taken, the
      account is created. */
  lemma SentFormRegisters(st: Store, f: RegisterForm, now: Millis, userId: UserId, otpId: OtpId, code: string)
    requires Submit(f).Sent?
    requires FreshUserId(st, userId) && AuthOps.FreshOtpId(st, otpId)
    requires 0 < |Trim(f.name)| <= 50 && NormalizeEmail(f.email) != ""
    requires FindUserByEmail(st, f.email).None?
    ensures var p := Submit(f).payload;
      AuthOps.Register(st, p.name, p.email, p.password, now, userId, otpId, code).result.Success?
  {
    var p := Submit(f).payload;
    AuthOps.RegisterAcceptsValidInput(st, p.name, p.email, p.password, now, userId, otpId, code);
  }
}

=== FILE: reset_password_page.dfy ===
/** frontend/src/pages/ResetPassword.jsx: the new-password form's submit
    handler. Both fields carry `required`; the token comes from the route. */
module ResetPasswordPage {
  import opened Schema
  import opened Store
  import opened ClientLists
  import AuthOps

  const PasswordsDoNotMatch := "Passwords do not match"
  const PasswordTooShort := "Password must be at least 6 characters"
  const MinLength := 6

  datatype ResetForm = ResetForm(password: string, confirmPassword: string)

  /** `authAPI.resetPassword(token, { password })`. */
  datatype ResetCall = ResetCall(token: string, password: string)

  function Submit(f: ResetForm, token: string): (r: Submission<ResetCall>)
    ensures r.NotSubmitted? <==> f.password == "" || f.confirmPassword == ""
    ensures !r.NotSubmitted? && f.password != f.confirmPassword ==> r == Blocked(PasswordsDoNotMatch)
    ensures !r.NotSubmitted? && f.password == f.confirmPassword && |f.password| < MinLength ==>
      r == Blocked(PasswordTooShort)
    ensures r.Sent? <==> f.password == f.confirmPassword && |f.password| >= MinLength
    ensures r.Sent? ==> r.payload.token == token && r.payload.password == f.password
  {
    if f.password == "" || f.confirmPassword == "" then NotSubmitted
    else if f.password != f.confirmPassword then Blocked(PasswordsDoNotMatch)
    else if |f.password| < MinLength then Blocked(PasswordTooShort)
    else Sent(ResetCall(token, f.password))
  }

  /** The server's own password checks never fire for a request the form
      sends: it succeeds exactly when some user holds a live token. */
  lemma SentResetDependsOnlyOnToken(st: Store, f: ResetForm, token: string, now: Millis)
    requires Submit(f, token).Sent?
    ensures var c := Submit(f, token).payload;
      AuthOps.ResetPassword(st, c.token, c.password, now).result.Success? <==>
        exists u :: u in st.users && AuthOps.HoldsToken(u, token, now)
  {
  }
}

=== FILE: schema.dfy ===
/** The Mongoose schemas of the backend (models/User.js, Project.js,
    Ticket.js, Comment.js): the record types, their enumerations and
    defaults, the setters that normalise fields on write, and the validators
    that a document must pass to be saved. The controllers in this model do
    not run these validators; the validators are stated separately so that
    the places where controller output would be refused stay visible. */
module Schema {
  import opened Wrappers
  import opened Text

  type UserId = nat
  type ProjectId = nat
  type TicketId = nat
  type CommentId = nat
  type OtpId = nat

  /** Milliseconds since the epoch, as `Date.now()`. */
  type Millis = int

  // ---------------------------------------------------------------- enums

  datatype Role = Admin | Manager | Developer | Viewer

  function RoleName(r: Role): string {
    match r
    case Admin => "admin"
    case Manager => "manager"
    case Developer => "developer"
    case Viewer => "viewer"
  }

  /** The `enum` validator of User.role: exactly the four names are accepted. */
  function ParseRole(s: string): (r: Option<Role>)
    ensures r.Some? ==> RoleName(r.value) == s
    ensures r.None? ==> forall x: Role :: RoleName(x) != s
  {
    if s == "admin" then Some(Admin)
    else if s == "manager" then Some(Manager)
    else if s == "developer" then Some(Developer)
    else if s == "viewer" then Some(Viewer)
    else None
  }

  const DefaultRole: Role := Developer

  datatype ProjectStatus = Active | Archived | Completed

  function ProjectStatusName(s: ProjectStatus): string {
    match s
    case Active => "active"
    case Archived => "archived"
    case Completed => "completed"
  }

  function ParseProjectStatus(s: string): (r: Option<ProjectStatus>)
    ensures r.Some? ==> ProjectStatusName(r.value) == s
    ensures r.None? ==> forall x: ProjectStatus :: ProjectStatusName(x) != s
  {
    if s == "active" then Some(Active)
    else if s == "archived" then Some(Archived)
    else if s == "completed" then Some(Completed)
    else None
  }

  const DefaultProjectStatus: ProjectStatus := Active

  datatype TicketStatus = Todo | InProgress | Done

  function TicketStatusName(s: TicketStatus): string {
    match s
    case Todo => "todo"
    case InProgress => "in-progress"
    case Done => "done"
  }

  function ParseTicketStatus(s: string): (r: Option<TicketStatus>)
    ensures r.Some? ==> TicketStatusName(r.value) == s
    ensures r.None? ==> forall x: TicketStatus :: TicketStatusName(x) != s
  {
    if s == "todo" then Some(Todo)
    else if s == "in-progress" then Some(InProgress)
    else if s == "done" then Some(Done)
    else None
  }

  const DefaultTicketStatus: TicketStatus := Todo

  /** `t => t.status === c`. */
  function StatusIs(c: TicketStatus): Ticket -> bool {
    (t: Ticket) => t.status == c
  }

  datatype Priority = Low | Medium | High | Critical

  function PriorityName(p: Priority): string {
    match p
    case Low => "low"
    case Medium => "medium"
    case High => "high"
    case Critical => "critical"
  }

  function ParsePriority(s: string): (r: Option<Priority>)
    ensures r.Some? ==> PriorityName(r.value) == s
    ensures r.None? ==> forall x: Priority :: PriorityName(x) != s
  {
    if s == "low" then Some(Low)
    else if s == "medium" then Some(Medium)
    else if s == "high" then Some(High)
    else if s == "critical" then Some(Critical)
    else None
  }

  const DefaultPriority: Priority := Medium

  datatype TicketType = Bug | Feature | Task | Improvement

  function TicketTypeName(t: TicketType): string {
    match t
    case Bug => "bug"
    case Feature => "feature"
    case Task => "task"
    case Improvement => "improvement"
  }

  function ParseTicketType(s: string): (r: Option<TicketType>)
    ensures r.Some? ==> TicketTypeName(r.value) == s
    ensures r.None? ==> forall x: TicketType :: TicketTypeName(x) != s
  {
    if s == "bug" then Some(Bug)
    else if s == "feature" then Some(Feature)
    else if s == "task" then Some(Task)
    else if s == "improvement" then Some(Improvement)
    else None
  }

  const DefaultTicketType: TicketType := Bug

  // -------------------------------------------------------------- records

  /** A bcrypt hash of a password. Treated as an opaque, injective image of the
      plain text; salt and cost are not modelled. */
  datatype PasswordHash = Bcrypt(plain: string)

  /** A sha256 hex digest of a reset token, opaque and injective. */
  datatype TokenDigest = Sha256(input: string)

  datatype User = User(
    id: UserId,
    name: string,
    email: string,
    password: PasswordHash,
    role: Role,
    isEmailVerified: bool,
    emailNotifications: bool,
    resetPasswordToken: Option<TokenDigest>,
    resetPasswordExpire: Option<Millis>)

  datatype Project = Project(
    id: ProjectId,
    title: string,
    key: Option<string>,
    description: Option<string>,
    owner: UserId,
    teamMembers: seq<UserId>,
    status: ProjectStatus)

  datatype Ticket = Ticket(
    id: TicketId,
    title: string,
    ticketNumber: Option<int>,
    description: Option<string>,
    project: ProjectId,
    creator: UserId,
    assignee: Option<UserId>,
    status: TicketStatus,
    priority: Priority,
    kind: TicketType,
    tags: seq<string>)

  datatype Comment = Comment(
    id: CommentId,
    ticket: TicketId,
    user: UserId,
    text: string,
    createdAt: Millis)

  datatype OtpPurpose = EmailVerification

  /** A one-time code record. models/OTP.js is not part of this model; the
      fields are those the auth controller writes and queries. */
  datatype Otp = Otp(
    id: OtpId,
    user: UserId,
    email: string,
    code: string,
    purpose: OtpPurpose,
    isUsed: bool,
    expiresAt: Millis)

  // ------------------------------------------------------- setters, defaults

  /** A user document as `User.create` builds it: the `trim` setter on name,
      the `lowercase` and `trim` setters on email, the pre-save bcrypt hash,
      and the schema defaults for every field the caller leaves out. */
  function NewUser(id: UserId, name: string, email: string, password: string): (u: User)
    ensures u.id == id && u.email == NormalizeEmail(email) && u.password == Bcrypt(password)
    ensures u.role == DefaultRole && !u.isEmailVerified && u.emailNotifications
    ensures u.resetPasswordToken.None? && u.resetPasswordExpire.None?
  {
    User(id, Trim(name), NormalizeEmail(email), Bcrypt(password), DefaultRole,
         false, true, None, None)
  }

  /** The `uppercase` and `trim` setters of Project.key, in declaration order. */
  function NormalizeKey(k: string): (r: string)
    ensures r == Trim(Upper(k))
    ensures forall i :: 0 <= i < |r| ==> !IsLowerLetter(r[i])
  {
    var u := Upper(k);
    var r := Trim(u);
    var i :| OccursAt(u, r, i);
    OccurrenceChars(u, r, i);
    r
  }

  /** `r` is the upper-cased characters of `k` from position `i` on, and
      only whitespace of `k` lies outside them. */
  predicate UpperSliceAt(k: string, r: string, i: int) {
    0 <= i <= |k| - |r| && BlankOutside(k, i, i + |r|) &&
    forall j :: 0 <= j < |r| ==> r[j] == UpperChar(k[i + j])
  }

  /** The stored key is the upper-cased characters of `k` between its
      leading and trailing whitespace. */
  lemma NormalizeKeyChars(k: string)
    ensures exists i :: UpperSliceAt(k, NormalizeKey(k), i)
  {
    var u := Upper(k);
    var r := Trim(u);
    var i :| OccursAt(u, r, i) && BlankOutside(u, i, i + |r|);
    UpperSliceWitness(k, u, r, i);
    assert r == NormalizeKey(k);
  }

  lemma UpperSliceWitness(k: string, u: string, r: string, i: int)
    requires |u| == |k| && forall j :: 0 <= j < |k| ==> u[j] == UpperChar(k[j])
    requires OccursAt(u, r, i) && BlankOutside(u, i, i + |r|)
    ensures UpperSliceAt(k, r, i)
  {
    OccurrenceChars(u, r, i);
    forall j | 0 <= j < |k| && !(i <= j < i + |r|)
      ensures IsSpace(k[j])
    {
      assert u[j] == UpperChar(k[j]);
    }
  }

  // ------------------------------------------------------------ validators

  /** `match: /^[A-Z]{2,10}$/` on Project.key. */
  predicate KeyPattern(k: string) {
    2 <= |k| <= 10 && forall i :: 0 <= i < |k| ==> IsUpper(k[i])
  }

  /** A key that matches the pattern is a fixed point of the key setters, and
      the separate `maxlength: 10` adds nothing to the pattern. */
  lemma {:induction false} ValidKeyIsNormal(k: string)
    requires KeyPattern(k)
    ensures NormalizeKey(k) == k
    ensures |k| <= 10
  {
    assert forall i :: 0 <= i < |k| ==> UpperChar(k[i]) == k[i];
    assert Upper(k) == k;
    assert !IsSpace(k[0]) && !IsSpace(k[|k| - 1]);
    TrimOfTrimmed(k);
  }

  predicate ProjectSchemaOk(p: Project) {
    && p.title != "" && |p.title| <= 100
    && p.key.Some? && KeyPattern(p.key.value)
    && (p.description.Some? ==> |p.description.value| <= 500)
  }

  /** `unique: true` on Project.key. */
  predicate KeysUnique(ps: seq<Project>) {
    forall i, j :: 0 <= i < j < |ps| && ps[i].key.Some? && ps[j].key.Some? ==>
      ps[i].key.value != ps[j].key.value
  }

  predicate TicketSchemaOk(t: Ticket) {
    && t.title != "" && |t.title| <= 200
    && t.ticketNumber.Some?
    && (t.description.Some? ==> |t.description.value| <= 2000)
  }

  /** The unique index on (project, ticketNumber). */
  predicate TicketNumbersUnique(ts: seq<Ticket>) {
    forall i, j :: 0 <= i < j < |ts| && ts[i].project == ts[j].project ==>
      ts[i].ticketNumber.None? || ts[i].ticketNumber != ts[j].ticketNumber
  }

  predicate CommentSchemaOk(c: Comment) {
    c.text != "" && |c.text| <= 1000
  }

  /** Name, email and password validators of User (the email `match`
      expression is not part of this model). */
  predicate UserSchemaOk(u: User) {
    && u.name != "" && |u.name| <= 50
    && u.email != ""
    && |u.password.plain| >= 6
  }

  /** `unique: true` on User.email. */
  predicate EmailsUnique(us: seq<User>) {
    forall i, j :: 0 <= i < j < |us| ==> us[i].email != us[j].email
  }

  /** A user created from a name that is 1..50 characters once trimmed, a
      non-blank email and a password of at least six characters passes every
      validator, whatever the case and padding of the email. */
  lemma NewUserSchemaOk(id: UserId, name: string, email: string, password: string)
    requires 0 < |Trim(name)| <= 50
    requires NormalizeEmail(email) != ""
    requires |password| >= 6
    ensures UserSchemaOk(NewUser(id, name, email, password))
  {
  }
}

=== FILE: schema_gaps.dfy ===
/** Where controller output meets the write-time validators. Project.key and
    Ticket.ticketNumber are required by their schemas, yet createProject
    never supplies a key and createTicket never assigns a number, so
    `Project.create` and `Ticket.create` refuse every document these
    handlers build. The members here model the handlers as written; the
    rest of the model runs them against the schema variant without those
    two requirements (the keyless, unnumbered variant). The same holds for
    the status-change mail: updateTicketStatus re-populates the assignee
    with only a name and an email, so the notification flag it then tests is
    never loaded; the rest of the model reads the stored flag. */
module SchemaGaps {
  import opened Wrappers
  import opened Schema
  import opened Store
  import ProjectOps
  import TicketOps

  /** The head of the ValidationError message Mongoose reports. */
  const ProjectValidationFailed := "Project validation failed"
  const TicketValidationFailed := "Ticket validation failed"

  /** createProject with `Project.create` validating the document it is
      handed: the 400 for a missing title, then a 500 from the validators. */
  function CreateProjectAsWritten(st: Store, actor: UserId, title: string, description: Option<string>,
                                  teamMembers: Option<seq<UserId>>, newId: ProjectId): (r: Outcome<Project>)
    requires FreshProjectId(st, newId)
    ensures r.result.Failure? && r.store == st && r.mails == []
    ensures title != "" ==> r.result == Failure(ServerError(ProjectValidationFailed))
  {
    var handled := ProjectOps.CreateProject(st, actor, title, description, teamMembers, newId);
    match handled.result
    case Failure(_) => handled
    case Success(p) =>
      if ProjectSchemaOk(p) then handled else Fail(st, ServerError(ProjectValidationFailed))
  }

  /** createTicket with `Ticket.create` validating the document it is
      handed. The membership expansion has been saved before the create
      and is not rolled back; no mail is sent, because mailing follows the
      create. */
  function CreateTicketAsWritten(st: Store, actor: UserId, req: TicketOps.NewTicket, newId: TicketId): (r: Outcome<Ticket>)
    requires FreshTicketId(st, newId)
    ensures r.result.Failure? && r.mails == [] && r.store.tickets == st.tickets
    ensures TicketOps.CreateTicket(st, actor, req, newId).result.Success? ==>
      && r.result == Failure(ServerError(TicketValidationFailed))
      && req.project.Some?
      && FindProject(r.store, req.project.value).Some?
      && actor in FindProject(r.store, req.project.value).value.teamMembers
      && ProjectsGrow(st, r.store)
  {
    var handled := TicketOps.CreateTicket(st, actor, req, newId);
    match handled.result
    case Failure(_) => handled
    case Success(t) =>
      if TicketSchemaOk(t) then handled
      else Outcome(handled.store.(tickets := st.tickets), [], Failure(ServerError(TicketValidationFailed)))
  }

  /** A user field a `populate` selection can name. */
  datatype UserField = NameField | EmailField | NotificationsField

  /** The selection of the second `populate` in updateTicketStatus. */
  const StatusMailSelection: set<UserField> := {NameField, EmailField}

  /** `assignee.emailNotifications` on a document populated with selection
      `sel`: a field outside the selection is not loaded, its schema default
      is not applied, and the undefined value tests false. */
  predicate NotifiesAfterPopulate(u: User, sel: set<UserField>) {
    NotificationsField in sel && u.emailNotifications
  }

  /** updateTicketStatus with the assignee re-populated through selection
      `sel` before the notification test: the statuses, writes and replies
      of the corrected handler, and its mail exactly when the selection
      loads the flag. */
  function UpdateTicketStatusSelecting(st: Store, actor: UserId, id: TicketId, status: string,
                                       sel: set<UserField>): (r: Outcome<Ticket>)
    ensures r.store == TicketOps.UpdateTicketStatus(st, actor, id, status).store
    ensures r.result == TicketOps.UpdateTicketStatus(st, actor, id, status).result
    ensures NotificationsField in sel ==> r.mails == TicketOps.UpdateTicketStatus(st, actor, id, status).mails
    ensures NotificationsField !in sel ==> r.mails == []
  {
    var handled := TicketOps.UpdateTicketStatus(st, actor, id, status);
    match handled.result
    case Failure(_) => handled
    case Success(t) =>
      var before := FindTicket(st, id).value;
      var notify := before.assignee.Some? && before.assignee.value != actor
                    && FindUser(handled.store, before.assignee.value).Some?
                    && NotifiesAfterPopulate(FindUser(handled.store, before.assignee.value).value, sel);
      var mails := if notify then [Mail(before.assignee.value, StatusChanged(id, before.status, t.status))] else [];
      handled.(mails := mails)
  }

  /** updateTicketStatus as written: the name-and-email selection, so the
      same statuses, writes and replies as the corrected handler and never a
      status mail. */
  function UpdateTicketStatusAsWritten(st: Store, actor: UserId, id: TicketId, status: string): (r: Outcome<Ticket>)
    ensures r.store == TicketOps.UpdateTicketStatus(st, actor, id, status).store
    ensures r.result == TicketOps.UpdateTicketStatus(st, actor, id, status).result
    ensures r.mails == []
  {
    UpdateTicketStatusSelecting(st, actor, id, status, StatusMailSelection)
  }

  /** A member who moves a ticket assigned to someone else with
      notifications on: the corrected handler mails that assignee, the
      handler as written sends nothing. */
  lemma StatusMailDropped(st: Store, actor: UserId, id: TicketId, status: string)
    requires ParseTicketStatus(status).Some? && FindTicket(st, id).Some?
    requires FindProject(st, FindTicket(st, id).value.project).Some?
    requires IsMember(FindProject(st, FindTicket(st, id).value.project).value, actor)
    requires FindTicket(st, id).value.assignee.Some? && FindTicket(st, id).value.assignee.value != actor
    requires FindUser(st, FindTicket(st, id).value.assignee.value).Some?
    requires FindUser(st, FindTicket(st, id).value.assignee.value).value.emailNotifications
    ensures TicketOps.UpdateTicketStatus(st, actor, id, status).mails != []
    ensures UpdateTicketStatusAsWritten(st, actor, id, status).result.Success?
    ensures UpdateTicketStatusAsWritten(st, actor, id, status).mails == []
  {
  }

  /** The same ticket with a number would pass, as long as its title and
      description are within bounds: the number is the only gap. */
  lemma NumberedTicketPassesSchema(st: Store, actor: UserId, req: TicketOps.NewTicket, newId: TicketId, n: int)
    requires FreshTicketId(st, newId)
    requires TicketOps.CreateTicket(st, actor, req, newId).result.Success?
    requires |req.title| <= 200 && (req.description.Some? ==> |req.description.value| <= 2000)
    ensures TicketSchemaOk(TicketOps.CreateTicket(st, actor, req, newId).result.value.(ticketNumber := Some(n)))
  {
  }

  /** A project with a valid key would pass, given bounded title and
      description: the key is the only gap. */
  lemma KeyedProjectPassesSchema(st: Store, actor: UserId, title: string, description: Option<string>,
                                 teamMembers: Option<seq<UserId>>, newId: ProjectId, key: string)
    requires FreshProjectId(st, newId)
    requires ProjectOps.CreateProject(st, actor, title, description, teamMembers, newId).result.Success?
    requires KeyPattern(key) && |title| <= 100 && (description.Some? ==> |description.value| <= 500)
    ensures ProjectSchemaOk(ProjectOps.CreateProject(st, actor, title, description, teamMembers, newId).result.value.(key := Some(key)))
  {
  }
}

=== FILE: seqs.dfy ===
/** Generic sequence functions used by the controllers (deleteMany, updateMany,
    findOne) and by the client pages (Array.prototype.filter, find, sort). */
module Seqs {
  import opened Wrappers

  /** `r` is an order-preserving subsequence of `s`. */
  predicate IsSubseq<T(==)>(r: seq<T>, s: seq<T>)
    decreases |s|
  {
    if r == [] then true
    else if s == [] then false
    else if r[0] == s[0] then IsSubseq(r[1..], s[1..])
    else IsSubseq(r, s[1..])
  }

  /** Array.prototype.filter. */
  function Filter<T(==,!new)>(s: seq<T>, keep: T -> bool): (r: seq<T>)
    ensures |r| <= |s|
    ensures forall x :: x in r <==> x in s && keep(x)
    ensures IsSubseq(r, s)
    ensures (forall x :: x in s ==> keep(x)) ==> r == s
  {
    if s == [] then []
    else if keep(s[0]) then [s[0]] + Filter(s[1..], keep)
    else Filter(s[1..], keep)
  }

  /** Filters with the same condition give the same result. */
  lemma {:induction false} FilterSameKeep<T(!new)>(s: seq<T>, p: T -> bool, q: T -> bool)
    requires forall x :: p(x) == q(x)
    ensures Filter(s, p) == Filter(s, q)
  {
    if s != [] {
      FilterSameKeep(s[1..], p, q);
    }
  }

  /** Filtering distributes over concatenation. */
  lemma {:induction false} FilterConcat<T(!new)>(s: seq<T>, t: seq<T>, keep: T -> bool)
    ensures Filter(s + t, keep) == Filter(s, keep) + Filter(t, keep)
  {
    if s == [] {
      assert s + t == t;
    } else {
      assert (s + t)[1..] == s[1..] + t;
      FilterConcat(s[1..], t, keep);
    }
  }

  /** Three filters whose conditions are exclusive and exhaustive split a
      sequence between them. */
  lemma {:induction false} FilterSplit3<T(!new)>(s: seq<T>, p: T -> bool, q: T -> bool, r: T -> bool)
    requires forall x :: (p(x) || q(x) || r(x)) && !(p(x) && q(x)) && !(p(x) && r(x)) && !(q(x) && r(x))
    ensures multiset(Filter(s, p)) + multiset(Filter(s, q)) + multiset(Filter(s, r)) == multiset(s)
  {
    if s != [] {
      var x, rest := s[0], s[1..];
      FilterSplit3(rest, p, q, r);
      FilterSplit3Step(x, rest, p, q, r);
      assert [x] + rest == s;
    }
  }

  /** The induction step of FilterSplit3: one more element goes to exactly
      one of the three filters. */
  lemma FilterSplit3Step<T(!new)>(x: T, rest: seq<T>, p: T -> bool, q: T -> bool, r: T -> bool)
    requires (p(x) || q(x) || r(x)) && !(p(x) && q(x)) && !(p(x) && r(x)) && !(q(x) && r(x))
    requires multiset(Filter(rest, p)) + multiset(Filter(rest, q)) + multiset(Filter(rest, r)) == multiset(rest)
    ensures multiset(Filter([x] + rest, p)) + multiset(Filter([x] + rest, q)) + multiset(Filter([x] + rest, r))
            == multiset([x] + rest)
  {
    FilterCons(x, rest, p);
    FilterCons(x, rest, q);
    FilterCons(x, rest, r);
    assert multiset([x] + rest) == multiset{x} + multiset(rest);
  }

  /** One step of Filter on a non-empty sequence. */
  lemma FilterCons<T(!new)>(x: T, rest: seq<T>, keep: T -> bool)
    ensures Filter([x] + rest, keep) == if keep(x) then [x] + Filter(rest, keep) else Filter(rest, keep)
  {
    assert ([x] + rest)[1..] == rest;
  }

  /** Two filters give the same result in either order. */
  lemma {:induction false} FilterCommutes<T(!new)>(s: seq<T>, p: T -> bool, q: T -> bool)
    ensures Filter(Filter(s, p), q) == Filter(Filter(s, q), p)
  {
    if s != [] {
      FilterCommutes(s[1..], p, q);
    }
  }

  /** The number of elements of `s` satisfying `hit`. */
  function Count<T(==,!new)>(s: seq<T>, hit: T -> bool): (n: nat)
    ensures n == |Filter(s, hit)|
    ensures n <= |s|
  {
    if s == [] then 0
    else (if hit(s[0]) then 1 else 0) + Count(s[1..], hit)
  }

  /** Array.prototype.map restricted to element-wise rewriting. */
  function MapSeq<T>(s: seq<T>, f: T -> T): (r: seq<T>)
    ensures |r| == |s|
    ensures forall i :: 0 <= i < |s| ==> r[i] == f(s[i])
  {
    if s == [] then [] else [f(s[0])] + MapSeq(s[1..], f)
  }

  /** Array.prototype.find / Model.findOne in natural order: the first hit. */
  function Find<T(==,!new)>(s: seq<T>, hit: T -> bool): (r: Option<T>)
    ensures r.Some? ==> r.value in s && hit(r.value)
    ensures r.None? <==> forall x :: x in s ==> !hit(x)
    ensures r.Some? ==> exists i :: 0 <= i < |s| && s[i] == r.value && forall j :: 0 <= j < i ==> !hit(s[j])
  {
    if s == [] then None
    else if hit(s[0]) then Some(s[0])
    else
      var r := Find(s[1..], hit);
      if r.Some? then
        var i :| 0 <= i < |s[1..]| && s[1..][i] == r.value && forall j :: 0 <= j < i ==> !hit(s[1..][j]);
        assert s[i + 1] == r.value;
        r
      else r
  }

  /** Rewriting every element with a map that never changes whether an
      element is a hit moves the first hit to its image. */
  lemma {:induction false} FindAfterMap<T(!new)>(s: seq<T>, hit: T -> bool, f: T -> T)
    requires forall x :: hit(f(x)) == hit(x)
    ensures Find(MapSeq(s, f), hit) == match Find(s, hit) case None => None case Some(x) => Some(f(x))
  {
    if s != [] {
      var m := MapSeq(s, f);
      assert m[1..] == MapSeq(s[1..], f);
      FindAfterMap(s[1..], hit, f);
    }
  }

  /** Appending never changes a hit already found in the prefix. */
  lemma {:induction false} FindAppend<T(!new)>(s: seq<T>, t: seq<T>, hit: T -> bool)
    ensures Find(s + t, hit) == if Find(s, hit).Some? then Find(s, hit) else Find(t, hit)
  {
    if s == [] {
      assert s + t == t;
    } else {
      assert (s + t)[1..] == s[1..] + t;
      FindAppend(s[1..], t, hit);
    }
  }

  /** Dropping only elements that are not hits leaves the first hit in place. */
  lemma {:induction false} FindAfterFilter<T(!new)>(s: seq<T>, keep: T -> bool, hit: T -> bool)
    requires forall x :: hit(x) ==> keep(x)
    ensures Find(Filter(s, keep), hit) == Find(s, hit)
  {
    if s != [] {
      FindAfterFilter(s[1..], keep, hit);
    }
  }

  /** Position of the first hit, as Array.prototype.findIndex. */
  function FirstIndex<T>(s: seq<T>, hit: T -> bool): (r: Option<nat>)
    ensures r.Some? ==> r.value < |s| && hit(s[r.value]) && forall j :: 0 <= j < r.value ==> !hit(s[j])
    ensures r.None? ==> forall j :: 0 <= j < |s| ==> !hit(s[j])
  {
    if s == [] then None
    else if hit(s[0]) then Some(0)
    else
      match FirstIndex(s[1..], hit)
      case None => None
      case Some(k) => Some(k + 1)
  }

  /** Adjacent elements are ordered by `le`. */
  predicate SortedBy<T>(s: seq<T>, le: (T, T) -> bool) {
    forall i :: 0 <= i < |s| - 1 ==> le(s[i], s[i + 1])
  }

  /** `le` relates every pair one way or the other. */
  ghost predicate Total<T(!new)>(le: (T, T) -> bool) {
    forall a, b :: le(a, b) || le(b, a)
  }

  /** Inserts `x` before the first element it may precede. */
  function Insert<T>(x: T, s: seq<T>, le: (T, T) -> bool): (r: seq<T>)
    ensures multiset(r) == multiset(s) + multiset{x}
    ensures |r| == |s| + 1
  {
    if s == [] || le(x, s[0]) then [x] + s
    else
      assert s == [s[0]] + s[1..];
      [s[0]] + Insert(x, s[1..], le)
  }

  lemma {:induction false} InsertSorted<T(!new)>(x: T, s: seq<T>, le: (T, T) -> bool)
    requires Total(le)
    requires SortedBy(s, le)
    ensures SortedBy(Insert(x, s, le), le)
    ensures |s| > 0 ==> Insert(x, s, le)[0] == x || Insert(x, s, le)[0] == s[0]
  {
    if s == [] || le(x, s[0]) {
    } else {
      InsertSorted(x, s[1..], le);
      var tail := Insert(x, s[1..], le);
      assert le(s[0], x);
      assert |s| > 1 ==> le(s[0], s[1]);
      assert le(s[0], tail[0]);
      assert Insert(x, s, le) == [s[0]] + tail;
    }
  }

  /** A stable insertion sort: an earlier element stays ahead of every later
      element it may precede, as Array.prototype.sort (stable since ES2019)
      does for a comparator `cmp` with `le(a, b) == (cmp(a, b) <= 0)`. */
  function Sort<T>(s: seq<T>, le: (T, T) -> bool): (r: seq<T>)
    ensures multiset(r) == multiset(s)
    ensures |r| == |s|
  {
    if s == [] then []
    else
      assert s == [s[0]] + s[1..];
      Insert(s[0], Sort(s[1..], le), le)
  }

  /** Sorting neither adds nor loses an element. */
  lemma SortSameElements<T>(s: seq<T>, le: (T, T) -> bool)
    ensures forall x :: x in Sort(s, le) <==> x in s
  {
    var r := Sort(s, le);
    assert forall x :: x in r <==> x in multiset(r);
    assert forall x :: x in s <==> x in multiset(s);
  }

  lemma {:induction false} SortSorted<T(!new)>(s: seq<T>, le: (T, T) -> bool)
    requires Total(le)
    ensures SortedBy(Sort(s, le), le)
  {
    if s != [] {
      SortSorted(s[1..], le);
      InsertSorted(s[0], Sort(s[1..], le), le);
    }
  }

  /** A comparator that never reorders (returns 0 for every pair) keeps the input. */
  lemma {:induction false} SortKeepsOrderWhenAllTie<T>(s: seq<T>, le: (T, T) -> bool)
    requires forall a, b :: le(a, b)
    ensures Sort(s, le) == s
  {
    if s != [] {
      SortKeepsOrderWhenAllTie(s[1..], le);
      assert s == [s[0]] + s[1..];
    }
  }

  /** The elements `same` picks out all tie under `le`: each may precede
      every other. */
  ghost predicate TieClass<T(!new)>(same: T -> bool, le: (T, T) -> bool) {
    forall a, b :: same(a) && same(b) ==> le(a, b)
  }

  /** Inserting never moves `x` past an element it ties with, so within a
      tie class the order is that of `[x] + s`. */
  lemma {:induction false} FilterInsert<T(!new)>(x: T, s: seq<T>, le: (T, T) -> bool, same: T -> bool)
    requires TieClass(same, le)
    ensures Filter(Insert(x, s, le), same) == Filter([x] + s, same)
  {
    if s != [] && !le(x, s[0]) {
      FilterInsert(x, s[1..], le, same);
      FilterCons(s[0], Insert(x, s[1..], le), same);
      FilterCons(x, s[1..], same);
      FilterCons(x, s, same);
      FilterCons(s[0], s[1..], same);
      assert [s[0]] + s[1..] == s;
    }
  }

  /** Stability: sorting keeps the input order of the elements of every tie
      class. */
  lemma {:induction false} SortStable<T(!new)>(s: seq<T>, le: (T, T) -> bool, same: T -> bool)
    requires TieClass(same, le)
    ensures Filter(Sort(s, le), same) == Filter(s, same)
  {
    if s != [] {
      SortStable(s[1..], le, same);
      FilterInsert(s[0], Sort(s[1..], le), le, same);
      FilterCons(s[0], Sort(s[1..], le), same);
      FilterCons(s[0], s[1..], same);
      assert [s[0]] + s[1..] == s;
    }
  }
}

=== FILE: store.dfy ===
/** The database as one immutable value, the outcome every controller
    handler produces, and the authorization predicates shared by the
    project, ticket and comment controllers. */
module Store {
  import opened Wrappers
  import opened Seqs
  import opened Schema

  /** The five collections, each in natural (insertion) order. `findById` and
      `findOne` return the first matching document; `save` rewrites every
      document with the saved id. */
  datatype Store = Store(
    users: seq<User>,
    projects: seq<Project>,
    tickets: seq<Ticket>,
    comments: seq<Comment>,
    otps: seq<Otp>)

  /** The HTTP error responses the handlers send. `BadRequestWithCount` is a
      400 whose body also reports how many records block the request.
      `ServerError` is the 500 of the handlers' catch blocks. */
  datatype Error =
    | BadRequest(message: string)
    | BadRequestWithCount(message: string, count: nat)
    | Unauthorized(message: string)
    | Forbidden(message: string)
    | NotFound(message: string)
    | ServerError(message: string)
  {
    function Code(): nat {
      match this
      case BadRequest(_) => 400
      case BadRequestWithCount(_, _) => 400
      case Unauthorized(_) => 401
      case Forbidden(_) => 403
      case NotFound(_) => 404
      case ServerError(_) => 500
    }
  }

  /** The head of the message of the TypeError raised when a populated
      reference is null; Node continues it with the property read, as in
      "(reading '_id')". */
  const NullReference := "Cannot read properties of null"

  /** What an email is about; templates and transport are not modelled. */
  datatype MailKind =
    | VerificationCode(code: string)
    | PasswordResetLink(rawToken: string)
    | TicketAssigned(ticket: TicketId)
    | StatusChanged(ticket: TicketId, from: TicketStatus, to: TicketStatus)
    | NewComment(ticket: TicketId)
    | AddedToProject(project: ProjectId)

  /** One attempted `sendEmail` call. */
  datatype Mail = Mail(to: UserId, kind: MailKind)

  /** What a handler leaves behind: the store after every write it awaited,
      the mails it attempted, and the response. The store is kept on error
      because some handlers fail after a write has been saved. */
  datatype Outcome<+T> = Outcome(store: Store, mails: seq<Mail>, result: Result<T, Error>)

  function Fail<T>(st: Store, e: Error): Outcome<T> {
    Outcome(st, [], Failure(e))
  }

  // -------------------------------------------------------- authorization

  /** The membership test the handlers repeat: owner, or listed in teamMembers. */
  predicate IsMember(p: Project, u: UserId) {
    p.owner == u || u in p.teamMembers
  }

  predicate IsOwner(p: Project, u: UserId) {
    p.owner == u
  }

  // -------------------------------------------------------------- lookups

  function FindUser(st: Store, id: UserId): Option<User> {
    Find(st.users, (u: User) => u.id == id)
  }

  function FindProject(st: Store, id: ProjectId): Option<Project> {
    Find(st.projects, (p: Project) => p.id == id)
  }

  function FindTicket(st: Store, id: TicketId): Option<Ticket> {
    Find(st.tickets, (t: Ticket) => t.id == id)
  }

  function FindComment(st: Store, id: CommentId): Option<Comment> {
    Find(st.comments, (c: Comment) => c.id == id)
  }

  /** `User.findOne({ email })`: the lowercase and trim setters of the email
      path also apply to the query value. */
  function FindUserByEmail(st: Store, email: string): Option<User> {
    FindUserByStoredEmail(st, Text.NormalizeEmail(email))
  }

  /** The first user whose stored email is exactly `e`. */
  function FindUserByStoredEmail(st: Store, e: string): Option<User> {
    Find(st.users, (u: User) => u.email == e)
  }

  predicate UserExists(st: Store, id: UserId) {
    exists u :: u in st.users && u.id == id
  }

  predicate FreshUserId(st: Store, id: UserId) {
    forall u :: u in st.users ==> u.id != id
  }

  predicate FreshProjectId(st: Store, id: ProjectId) {
    forall p :: p in st.projects ==> p.id != id
  }

  predicate FreshTicketId(st: Store, id: TicketId) {
    forall t :: t in st.tickets ==> t.id != id
  }

  predicate FreshCommentId(st: Store, id: CommentId) {
    forall c :: c in st.comments ==> c.id != id
  }

  // --------------------------------------------------------------- writes

  /** `project.save()`. */
  function SaveProject(st: Store, p: Project): (r: Store)
    ensures r == st.(projects := r.projects)
    ensures |r.projects| == |st.projects|
    ensures forall i :: 0 <= i < |st.projects| ==>
      r.projects[i] == if st.projects[i].id == p.id then p else st.projects[i]
  {
    st.(projects := MapSeq(st.projects, (q: Project) => if q.id == p.id then p else q))
  }

  /** The project collection after `p` was replaced by `q` through
      `project.save()`, which the handlers call only when `q` differs. */
  function SavedIfChanged(st: Store, p: Project, q: Project): seq<Project> {
    if q == p then st.projects else SaveProject(st, q).projects
  }

  /** A second save of the same id overwrites the first. */
  lemma SaveProjectTwice(st: Store, a: Project, b: Project)
    requires a.id == b.id
    ensures SaveProject(SaveProject(st, a), b) == SaveProject(st, b)
  {
    var r1 := SaveProject(SaveProject(st, a), b);
    var r2 := SaveProject(st, b);
    assert r1.projects == r2.projects;
  }

  /** `ticket.save()`. */
  function SaveTicket(st: Store, t: Ticket): (r: Store)
    ensures r == st.(tickets := r.tickets)
    ensures |r.tickets| == |st.tickets|
    ensures forall i :: 0 <= i < |st.tickets| ==>
      r.tickets[i] == if st.tickets[i].id == t.id then t else st.tickets[i]
  {
    st.(tickets := MapSeq(st.tickets, (q: Ticket) => if q.id == t.id then t else q))
  }

  /** `user.save()`. */
  function SaveUser(st: Store, u: User): (r: Store)
    ensures r == st.(users := r.users)
    ensures |r.users| == |st.users|
    ensures forall i :: 0 <= i < |st.users| ==>
      r.users[i] == if st.users[i].id == u.id then u else st.users[i]
  {
    st.(users := MapSeq(st.users, (q: User) => if q.id == u.id then u else q))
  }

  /** `comment.save()`. */
  function SaveComment(st: Store, c: Comment): (r: Store)
    ensures r == st.(comments := r.comments)
    ensures |r.comments| == |st.comments|
    ensures forall i :: 0 <= i < |st.comments| ==>
      r.comments[i] == if st.comments[i].id == c.id then c else st.comments[i]
  {
    st.(comments := MapSeq(st.comments, (q: Comment) => if q.id == c.id then c else q))
  }

  /** After saving `p`, findById(p.id) returns `p` if the project existed,
      and every other id finds what it found before. */
  lemma FindAfterSaveProject(st: Store, p: Project, id: ProjectId)
    ensures FindProject(SaveProject(st, p), id) ==
      if id == p.id && FindProject(st, id).Some? then Some(p) else FindProject(st, id)
  {
    var f := (q: Project) => if q.id == p.id then p else q;
    FindAfterMap(st.projects, (q: Project) => q.id == id, f);
  }

  lemma FindAfterSaveTicket(st: Store, t: Ticket, id: TicketId)
    ensures FindTicket(SaveTicket(st, t), id) ==
      if id == t.id && FindTicket(st, id).Some? then Some(t) else FindTicket(st, id)
  {
    var f := (q: Ticket) => if q.id == t.id then t else q;
    FindAfterMap(st.tickets, (q: Ticket) => q.id == id, f);
  }

  lemma FindAfterSaveUser(st: Store, u: User, id: UserId)
    ensures FindUser(SaveUser(st, u), id) ==
      if id == u.id && FindUser(st, id).Some? then Some(u) else FindUser(st, id)
  {
    var f := (q: User) => if q.id == u.id then u else q;
    FindAfterMap(st.users, (q: User) => q.id == id, f);
  }

  /** Saving one user leaves every other user's lookup as it was. */
  lemma SaveUserKeepsOthers(st: Store, u: User)
    ensures forall v :: v != u.id ==> FindUser(SaveUser(st, u), v) == FindUser(st, v)
  {
    forall v | v != u.id
      ensures FindUser(SaveUser(st, u), v) == FindUser(st, v)
    {
      FindAfterSaveUser(st, u, v);
    }
  }

  /** `Ticket.updateMany({ project, assignee: { $in: gone } }, { assignee: null })`. */
  function UnassignInProject(ts: seq<Ticket>, project: ProjectId, gone: UserId -> bool): (r: seq<Ticket>)
    ensures |r| == |ts|
    ensures forall i :: 0 <= i < |ts| ==>
      r[i] == if ts[i].project == project && ts[i].assignee.Some? && gone(ts[i].assignee.value)
              then ts[i].(assignee := None) else ts[i]
  {
    MapSeq(ts, (t: Ticket) =>
      if t.project == project && t.assignee.Some? && gone(t.assignee.value)
      then t.(assignee := None) else t)
  }

  /** `if (!members.includes(u)) members.push(u)`. */
  function AddMember(ms: seq<UserId>, u: UserId): (r: seq<UserId>)
    ensures u in r
    ensures forall x :: x in r <==> x in ms || x == u
    ensures |ms| <= |r| <= |ms| + 1 && r[..|ms|] == ms
  {
    if u in ms then ms else ms + [u]
  }

  // ----------------------------------------------------------- invariants

  /** Referential integrity the cascades protect: every ticket names an
      existing project and every comment an existing ticket. */
  predicate Linked(st: Store) {
    && (forall t :: t in st.tickets ==> exists p :: p in st.projects && p.id == t.project)
    && (forall c :: c in st.comments ==> exists t :: t in st.tickets && t.id == c.ticket)
  }

  /** Every assignee is a member of the project its ticket belongs to, as
      findById resolves that project. */
  predicate AssigneesAreMembers(st: Store) {
    forall t :: t in st.tickets && t.assignee.Some? && FindProject(st, t.project).Some? ==>
      IsMember(FindProject(st, t.project).value, t.assignee.value)
  }

  /** No project appears or disappears, and each keeps its owner and every
      member it had. */
  ghost predicate ProjectsGrow(st: Store, st2: Store) {
    forall q :: Widens(FindProject(st, q), FindProject(st2, q))
  }

  /** `after` is `before` with possibly more members. */
  predicate Widens(before: Option<Project>, after: Option<Project>) {
    && (after.Some? <==> before.Some?)
    && (before.Some? ==>
          && after.value.owner == before.value.owner
          && (forall m :: m in before.value.teamMembers ==> m in after.value.teamMembers))
  }

  /** Only the project collection matters to ProjectsGrow. */
  lemma ProjectsGrowSameProjects(a: Store, b: Store, c: Store)
    requires ProjectsGrow(a, b) && c.projects == b.projects
    ensures ProjectsGrow(a, c)
  {
    forall q ensures FindProject(c, q) == FindProject(b, q) { }
  }

  /** Saving a wider version of an existing project only grows the projects. */
  lemma SaveWiderProject(st: Store, p: Project)
    requires FindProject(st, p.id).Some? && FindProject(st, p.id).value.owner == p.owner
    requires forall m :: m in FindProject(st, p.id).value.teamMembers ==> m in p.teamMembers
    ensures ProjectsGrow(st, SaveProject(st, p))
  {
    forall q
      ensures FindProject(SaveProject(st, p), q) ==
              if q == p.id && FindProject(st, q).Some? then Some(p) else FindProject(st, q)
    {
      FindAfterSaveProject(st, p, q);
    }
  }

  lemma ProjectsGrowTrans(a: Store, b: Store, c: Store)
    requires ProjectsGrow(a, b) && ProjectsGrow(b, c)
    ensures ProjectsGrow(a, c)
  {
    forall q
      ensures Widens(FindProject(a, q), FindProject(c, q))
    {
      assert Widens(FindProject(a, q), FindProject(b, q));
      assert Widens(FindProject(b, q), FindProject(c, q));
    }
  }

  /** Old tickets keep satisfying AssigneesAreMembers while projects only grow. */
  lemma AssigneesKeptWhenProjectsGrow(st: Store, st2: Store, t: Ticket)
    requires AssigneesAreMembers(st) && ProjectsGrow(st, st2)
    requires t in st.tickets && t.assignee.Some? && FindProject(st2, t.project).Some?
    ensures IsMember(FindProject(st2, t.project).value, t.assignee.value)
  {
    assert Widens(FindProject(st, t.project), FindProject(st2, t.project));
  }
}

=== FILE: text.dfy ===
/** Character and string functions the source borrows from JavaScript and
    from Mongoose setters: toLowerCase, toUpperCase, trim, includes, and the
    `\D` class of a regular expression. Case mapping covers ASCII letters. */
module Text {
  import opened Seqs

  predicate IsUpper(c: char) { 'A' <= c <= 'Z' }
  predicate IsLowerLetter(c: char) { 'a' <= c <= 'z' }
  predicate IsDigit(c: char) { '0' <= c <= '9' }

  /** The characters String.prototype.trim strips (the ASCII ones). */
  predicate IsSpace(c: char) {
    c == ' ' || c == '\t' || c == '\n' || c == '\r' || c == '\U{000B}' || c == '\U{000C}'
  }

  function LowerChar(c: char): (r: char)
    ensures !IsUpper(r)
    ensures !IsUpper(c) ==> r == c
    ensures IsSpace(r) <==> IsSpace(c)
  {
    if IsUpper(c) then (c as int - 'A' as int + 'a' as int) as char else c
  }

  function UpperChar(c: char): (r: char)
    ensures !IsLowerLetter(r)
    ensures !IsLowerLetter(c) ==> r == c
    ensures IsSpace(r) <==> IsSpace(c)
  {
    if IsLowerLetter(c) then (c as int - 'a' as int + 'A' as int) as char else c
  }

  /** String.prototype.toLowerCase. */
  function Lower(s: string): (r: string)
    ensures |r| == |s|
    ensures forall i :: 0 <= i < |s| ==> r[i] == LowerChar(s[i])
    ensures forall i :: 0 <= i < |r| ==> !IsUpper(r[i])
  {
    if s == [] then [] else [LowerChar(s[0])] + Lower(s[1..])
  }

  /** String.prototype.toUpperCase. */
  function Upper(s: string): (r: string)
    ensures |r| == |s|
    ensures forall i :: 0 <= i < |s| ==> r[i] == UpperChar(s[i])
    ensures forall i :: 0 <= i < |r| ==> !IsLowerLetter(r[i])
  {
    if s == [] then [] else [UpperChar(s[0])] + Upper(s[1..])
  }

  /** A string with no upper-case letter is its own lower-case form. */
  lemma LowerOfLowerCase(s: string)
    requires forall i :: 0 <= i < |s| ==> !IsUpper(s[i])
    ensures Lower(s) == s
  {
  }

  function TrimStart(s: string): (r: string)
    ensures |r| <= |s| && r == s[|s| - |r|..]
    ensures r != [] ==> !IsSpace(r[0])
    ensures forall i :: 0 <= i < |s| - |r| ==> IsSpace(s[i])
  {
    if s != [] && IsSpace(s[0]) then TrimStart(s[1..]) else s
  }

  function TrimEnd(s: string): (r: string)
    ensures |r| <= |s| && r == s[..|r|]
    ensures r != [] ==> !IsSpace(r[|r| - 1])
    ensures forall i :: |r| <= i < |s| ==> IsSpace(s[i])
  {
    if s != [] && IsSpace(s[|s| - 1]) then TrimEnd(s[..|s| - 1]) else s
  }

  /** `sub` occurs in `s` starting at position `i`. */
  predicate OccursAt(s: string, sub: string, i: int) {
    0 <= i <= |s| - |sub| && s[i..i + |sub|] == sub
  }

  /** Every character of an occurrence is a character of the host string. */
  lemma OccurrenceChars(s: string, sub: string, i: int)
    requires OccursAt(s, sub, i)
    ensures forall k :: 0 <= k < |sub| ==> sub[k] == s[i + k]
  {
  }

  lemma SliceOfSuffix(s: string, a: nat, n: nat)
    requires a + n <= |s|
    ensures s[a..][..n] == s[a..a + n]
  {
  }

  /** Every character of `s` outside positions `a` up to `b` is whitespace. */
  predicate BlankOutside(s: string, a: int, b: int) {
    forall k :: 0 <= k < |s| && !(a <= k < b) ==> IsSpace(s[k])
  }

  /** String.prototype.trim: the slice of `s` left after dropping the
      whitespace at both ends, and nothing else. */
  function Trim(s: string): (r: string)
    ensures |r| <= |s|
    ensures exists i :: OccursAt(s, r, i) && BlankOutside(s, i, i + |r|)
    ensures r != [] ==> !IsSpace(r[0]) && !IsSpace(r[|r| - 1])
  {
    var t := TrimStart(s);
    var r := TrimEnd(t);
    TrimParts(s, t, r);
    r
  }

  /** Dropping whitespace from the front of `s` and then from the back of
      what is left leaves a slice of `s` with only whitespace around it. */
  lemma TrimParts(s: string, t: string, r: string)
    requires |t| <= |s| && t == s[|s| - |t|..]
    requires forall k :: 0 <= k < |s| - |t| ==> IsSpace(s[k])
    requires |r| <= |t| && r == t[..|r|]
    requires forall k :: |r| <= k < |t| ==> IsSpace(t[k])
    ensures OccursAt(s, r, |s| - |t|)
    ensures BlankOutside(s, |s| - |t|, |s| - |t| + |r|)
  {
    var i := |s| - |t|;
    SliceOfSuffix(s, i, |r|);
    forall k | i + |r| <= k < |s| ensures IsSpace(s[k]) {
      assert s[k] == t[k - i];
    }
  }

  /** A string already free of whitespace at both ends is unchanged by trim. */
  lemma TrimOfTrimmed(s: string)
    requires s != [] ==> !IsSpace(s[0]) && !IsSpace(s[|s| - 1])
    ensures Trim(s) == s
  {
  }

  /** One leading blank before a string already trimmed is all trim removes. */
  lemma TrimOfPadded(s: string)
    requires s != [] && !IsSpace(s[0]) && !IsSpace(s[|s| - 1])
    ensures Trim([' '] + s) == s
  {
    var p := [' '] + s;
    assert p[0] == ' ' && p[1..] == s;
    assert TrimStart(p) == TrimStart(s);
    TrimOfTrimmed(s);
    assert Trim(p) == Trim(s);
  }

  /** A stored email asked for with one leading blank: lower-casing leaves the
      blank in place, and the email setters remove it again. */
  lemma NormalizeEmailOfPadded(e: string)
    requires e != "" && NormalizeEmail(e) == e
    ensures Lower([' '] + e) == [' '] + e
    ensures NormalizeEmail([' '] + e) == e
  {
    LowerOfLowerCase([' '] + e);
    TrimOfPadded(e);
  }

  /** Trimming is idempotent. */
  lemma TrimIdempotent(s: string)
    ensures Trim(Trim(s)) == Trim(s)
  {
    TrimOfTrimmed(Trim(s));
  }

  /** A slice of the tail of `s` is the slice of `s` one place further on. */
  lemma SliceOfTail(s: string, i: nat, n: nat)
    requires i + n < |s|
    ensures s[1..][i..i + n] == s[i + 1..i + 1 + n]
  {
    var a, b := s[1..][i..i + n], s[i + 1..i + 1 + n];
    forall k | 0 <= k < n ensures a[k] == b[k] {
      assert a[k] == s[i + 1 + k];
    }
    assert a == b;
  }

  /** `p` is a prefix of `s` (String.prototype.startsWith). */
  predicate StartsWith(s: string, p: string) {
    |p| <= |s| && s[..|p|] == p
  }

  /** String.prototype.includes: `sub` occurs somewhere in `s`. */
  function Contains(s: string, sub: string): (r: bool)
    ensures r <==> exists i :: OccursAt(s, sub, i)
  {
    if StartsWith(s, sub) then
      assert OccursAt(s, sub, 0);
      true
    else if s == [] then
      assert forall i :: !OccursAt(s, sub, i);
      false
    else
      var r := Contains(s[1..], sub);
      assert r ==> exists i :: OccursAt(s, sub, i) by {
        if r {
          var i :| OccursAt(s[1..], sub, i);
          SliceOfTail(s, i, |sub|);
          assert OccursAt(s, sub, i + 1);
        }
      }
      assert (exists i :: OccursAt(s, sub, i)) ==> r by {
        if exists i :: OccursAt(s, sub, i) {
          var i :| OccursAt(s, sub, i);
          assert i != 0;
          SliceOfTail(s, i - 1, |sub|);
          assert OccursAt(s[1..], sub, i - 1);
        }
      }
      r
  }

  /** `a.toLowerCase().includes(b.toLowerCase())`. */
  predicate IncludesIgnoreCase(s: string, sub: string) {
    Contains(Lower(s), Lower(sub))
  }

  /** The empty string occurs in every string. */
  lemma EmptyIncluded(s: string)
    ensures IncludesIgnoreCase(s, "")
  {
    assert OccursAt(Lower(s), Lower(""), 0);
  }

  /** The setters `lowercase: true, trim: true` applied in declaration order. */
  function NormalizeEmail(s: string): (r: string)
    ensures r == Trim(Lower(s))
    ensures forall i :: 0 <= i < |r| ==> !IsUpper(r[i])
    ensures r != [] ==> !IsSpace(r[0]) && !IsSpace(r[|r| - 1])
  {
    var l := Lower(s);
    var r := Trim(l);
    var i :| OccursAt(l, r, i);
    OccurrenceChars(l, r, i);
    r
  }

  /** `r` is the lower-cased characters of `s` from position `i` on, and
      only whitespace of `s` lies outside them. */
  predicate LowerSliceAt(s: string, r: string, i: int) {
    0 <= i <= |s| - |r| && BlankOutside(s, i, i + |r|) &&
    forall k :: 0 <= k < |r| ==> r[k] == LowerChar(s[i + k])
  }

  /** The stored address is the lower-cased characters of `s` between its
      leading and trailing whitespace. */
  lemma NormalizeEmailChars(s: string)
    ensures exists i :: LowerSliceAt(s, NormalizeEmail(s), i)
  {
    var l := Lower(s);
    var r := Trim(l);
    var i :| OccursAt(l, r, i) && BlankOutside(l, i, i + |r|);
    LowerSliceWitness(s, l, r, i);
    assert r == NormalizeEmail(s);
  }

  lemma LowerSliceWitness(s: string, l: string, r: string, i: int)
    requires |l| == |s| && forall j :: 0 <= j < |s| ==> l[j] == LowerChar(s[j])
    requires OccursAt(l, r, i) && BlankOutside(l, i, i + |r|)
    ensures LowerSliceAt(s, r, i)
  {
    OccurrenceChars(l, r, i);
    forall j | 0 <= j < |s| && !(i <= j < i + |r|)
      ensures IsSpace(s[j])
    {
      assert l[j] == LowerChar(s[j]);
    }
  }

  /** Normalising an already normalised address changes nothing, so lookups
      through the setter agree with the stored value. */
  lemma {:induction false} NormalizeEmailIdempotent(s: string)
    ensures NormalizeEmail(NormalizeEmail(s)) == NormalizeEmail(s)
  {
    var n := NormalizeEmail(s);
    LowerOfLowerCase(n);
    TrimOfTrimmed(n);
  }

  /** Code-unit lexicographic order: `a` sorts no later than `b`. */
  predicate LexLe(a: string, b: string)
    decreases |a|
  {
    a == [] || (b != [] && (a[0] < b[0] || (a[0] == b[0] && LexLe(a[1..], b[1..]))))
  }

  /** Any two strings are ordered one way or the other. */
  lemma {:induction false} LexLeTotal(a: string, b: string)
    ensures LexLe(a, b) || LexLe(b, a)
    decreases |a|
  {
    if a != [] && b != [] && a[0] == b[0] {
      LexLeTotal(a[1..], b[1..]);
    }
  }

  /** Every string sorts no later than itself. */
  lemma {:induction false} LexLeRefl(a: string)
    ensures LexLe(a, a)
    decreases |a|
  {
    if a != [] {
      LexLeRefl(a[1..]);
    }
  }

  /** `s.replace(/\D/g, "")`: the decimal digits of `s`, in order, and
      nothing else. */
  function DigitsOnly(s: string): (r: string)
    ensures r == Filter(s, IsDigit)
    ensures forall i :: 0 <= i < |r| ==> IsDigit(r[i])
  {
    if s == [] then []
    else if IsDigit(s[0]) then [s[0]] + DigitsOnly(s[1..])
    else DigitsOnly(s[1..])
  }
}

=== FILE: ticket_context.dfy ===
/** frontend/src/contexts/TicketContext.jsx: the client's ticket list, the
    selected ticket, the list filters and the query built from them. */
module TicketContext {
  import opened Wrappers
  import opened Schema
  import opened ClientLists

  /** A filter or query-parameter value: `null` or a string. */
  datatype FilterValue = Null | Text(text: string)

  /** JavaScript truthiness of a filter value. */
  predicate Truthy(v: FilterValue) {
    v.Text? && v.text != ""
  }

  /** Filters and query parameters are plain objects keyed by name. */
  type Params = map<string, FilterValue>

  const InitialFilters: Params := map[
    "projectId" := Null, "status" := Text(""), "priority" := Text(""),
    "assignee" := Text(""), "type" := Text(""), "search" := Text("")]

  datatype TicketState = TicketState(
    tickets: seq<Ticket>,
    current: Option<Ticket>,
    filters: Params,
    loading: bool,
    error: Option<string>)

  const Initial := TicketState([], None, InitialFilters, false, None)

  datatype TicketAction =
    | SetLoading(on: bool)
    | SetError(message: string)
    | SetTickets(items: seq<Ticket>)
    | SetCurrent(selected: Option<Ticket>)
    | AddTicket(added: Ticket)
    | UpdateTicket(updated: Ticket)
    | DeleteTicket(removed: TicketId)
    | SetFilters(patch: Params)
    | ClearFilters
    | ClearCurrent
    | Unrecognised(name: string)

  function IdOf(t: Ticket): nat { t.id }

  /** ticketReducer. */
  function Reduce(s: TicketState, a: TicketAction): (r: TicketState)
    ensures a.Unrecognised? ==> r == s
    ensures !a.SetFilters? && !a.ClearFilters? ==> r.filters == s.filters
    ensures !a.SetError? && !a.SetTickets? ==> r.error == s.error
    ensures a.SetFilters? || a.ClearFilters? || a.ClearCurrent? ==> r.loading == s.loading
    ensures a.SetError? || a.SetTickets? || a.SetCurrent? || a.AddTicket? || a.UpdateTicket? || a.DeleteTicket? ==>
      !r.loading
    ensures a.SetLoading? ==> r == s.(loading := a.on)
    ensures a.SetError? ==> r.error == Some(a.message) && r.tickets == s.tickets && r.current == s.current
    ensures a.SetTickets? ==> r.tickets == a.items && r.error.None? && r.current == s.current
    ensures a.SetCurrent? ==> r.current == a.selected && r.tickets == s.tickets
    ensures a.AddTicket? ==>
      && |r.tickets| == |s.tickets| + 1 && r.tickets[0] == a.added && r.tickets[1..] == s.tickets
      && r.current == s.current
    ensures a.UpdateTicket? ==>
      && |r.tickets| == |s.tickets|
      && (forall i :: 0 <= i < |s.tickets| ==>
            r.tickets[i] == if s.tickets[i].id == a.updated.id then a.updated else s.tickets[i])
      && (if s.current.Some? && s.current.value.id == a.updated.id then r.current == Some(a.updated)
          else r.current == s.current)
    ensures a.DeleteTicket? ==>
      && (forall t :: t in r.tickets <==> t in s.tickets && t.id != a.removed)
      && (r.current.None? <==> s.current.None? || s.current.value.id == a.removed)
      && (r.current.Some? ==> r.current == s.current)
    ensures a.SetFilters? ==>
      && r == s.(filters := r.filters)
      && (forall k :: k in r.filters <==> k in s.filters || k in a.patch)
      && (forall k :: k in a.patch ==> r.filters[k] == a.patch[k])
      && (forall k :: k in s.filters && k !in a.patch ==> r.filters[k] == s.filters[k])
    ensures a.ClearFilters? ==> r == s.(filters := InitialFilters)
    ensures a.ClearCurrent? ==> r == s.(current := None)
  {
    match a
    case SetLoading(on) => s.(loading := on)
    case SetError(m) => s.(error := Some(m), loading := false)
    case SetTickets(ts) => s.(tickets := ts, loading := false, error := None)
    case SetCurrent(t) => s.(current := t, loading := false)
    case AddTicket(t) => s.(tickets := [t] + s.tickets, loading := false)
    case UpdateTicket(t) =>
      s.(tickets := ReplaceById(s.tickets, t, IdOf), current := SyncCurrent(s.current, t, IdOf), loading := false)
    case DeleteTicket(k) =>
      s.(tickets := RemoveById(s.tickets, k, IdOf), current := DropCurrent(s.current, k, IdOf), loading := false)
    case SetFilters(p) => s.(filters := s.filters + p)
    case ClearFilters => s.(filters := InitialFilters)
    case ClearCurrent => s.(current := None)
    case Unrecognised(_) => s
  }

  /** The fetchTickets query: explicit parameters over the stored filters,
      then every key whose value is falsy deleted. */
  function Query(filters: Params, params: Params): (r: Params)
    ensures forall k :: k in r <==>
      (k in params && Truthy(params[k])) || (k !in params && k in filters && Truthy(filters[k]))
    ensures forall k :: k in r ==> r[k] == if k in params then params[k] else filters[k]
    ensures forall k :: k in r ==> Truthy(r[k])
  {
    var merged := filters + params;
    map k | k in merged && Truthy(merged[k]) :: merged[k]
  }

  /** With the initial filters and no parameters the query is empty. */
  lemma ClearedQueryIsEmpty()
    ensures Query(InitialFilters, map[]) == map[]
  {
    var q := Query(InitialFilters, map[]);
    forall k | k in InitialFilters
      ensures k !in q
    {
      assert !Truthy(InitialFilters[k]);
    }
  }

  /** Storing a patch and then fetching asks for the same tickets as
      fetching with the patch as explicit parameters. */
  lemma {:induction false} StoredFiltersActAsParams(s: TicketState, patch: Params)
    ensures Query(Reduce(s, SetFilters(patch)).filters, map[]) == Query(s.filters, patch)
  {
    var a := Query(Reduce(s, SetFilters(patch)).filters, map[]);
    var b := Query(s.filters, patch);
    assert forall k :: k in a <==> k in b;
    assert forall k :: k in a ==> a[k] == b[k];
  }

  /** The selected ticket never disagrees with the listed copy of it. */
  lemma {:induction false} ReduceKeepsAgreement(s: TicketState, a: TicketAction)
    requires Agree(s.tickets, s.current, IdOf)
    requires !a.SetTickets? && !a.SetCurrent?
    requires a.AddTicket? ==> forall t :: t in s.tickets ==> t.id != a.added.id
    requires a.AddTicket? && s.current.Some? ==> s.current.value.id != a.added.id
    ensures Agree(Reduce(s, a).tickets, Reduce(s, a).current, IdOf)
  {
    match a
    case UpdateTicket(t) => ReplaceAgrees(s.tickets, s.current, t, IdOf);
    case DeleteTicket(k) => RemoveAgrees(s.tickets, s.current, k, IdOf);
    case AddTicket(t) =>
      var r := Reduce(s, a);
      if r.current.Some? {
        forall i | 0 <= i < |r.tickets| && r.tickets[i].id == r.current.value.id
          ensures r.tickets[i] == r.current.value
        {
          assert i != 0;
          assert r.tickets[i] == s.tickets[i - 1];
        }
      }
    case _ =>
  }

  /** Deleting a ticket just added under a fresh id restores the list. */
  lemma AddThenDelete(s: TicketState, t: Ticket)
    requires forall q :: q in s.tickets ==> q.id != t.id
    ensures Reduce(Reduce(s, AddTicket(t)), DeleteTicket(t.id)).tickets == s.tickets
  {
    RemoveAfterPrepend(s.tickets, t, IdOf);
  }
}

=== FILE: ticket_ops.dfy ===
/** backend/controllers/ticketController.js: ticket handlers, including the
    implicit membership expansion on create and assign and the assignment and
    status notifications. */
module TicketOps {
  import opened Wrappers
  import opened Seqs
  import opened Text
  import opened Schema
  import opened Store

  const TitleAndProjectRequired := "Title and project are required"
  const ProjectNotFound := "Project not found"
  const TicketNotFound := "Ticket not found"
  const AssigneeNotFound := "Assignee user not found"
  const NotAuthorizedCreate := "Not authorized to create tickets in this project"
  const NotAuthorizedView := "Not authorized to view tickets in this project"
  const NotAuthorizedViewTicket := "Not authorized to view this ticket"
  const NotAuthorizedUpdate := "Not authorized to update this ticket"
  const OnlyOwnerOrCreator := "Only project owner or ticket creator can delete this ticket"
  const ValidStatusRequired := "Valid status is required"
  const NotAuthorizedStatus := "Not authorized to update ticket status"
  const TicketDeleted := "Ticket and associated comments deleted"

  /** The named membership expansion: `u` is pushed onto teamMembers and the
      project saved only when `u` is not already listed (the owner included). */
  function ExpandMembership(st: Store, p: Project, u: UserId): (r: (Store, Project))
    ensures u in r.1.teamMembers
    ensures r.1 == p.(teamMembers := AddMember(p.teamMembers, u))
    ensures r.0 == st.(projects := SavedIfChanged(st, p, r.1))
    ensures forall m :: m in r.1.teamMembers <==> m in p.teamMembers || m == u
    ensures u in p.teamMembers ==> r == (st, p)
    ensures u !in p.teamMembers ==> r.0 == SaveProject(st, r.1)
    ensures FindProject(st, p.id) == Some(p) ==>
      ProjectsGrow(st, r.0) && FindProject(r.0, p.id) == Some(r.1)
  {
    if u in p.teamMembers then (st, p)
    else
      var q := p.(teamMembers := AddMember(p.teamMembers, u));
      SaveExpanded(st, p, q);
      (SaveProject(st, q), q)
  }

  /** Saving a stored project with one more member only widens membership. */
  lemma SaveExpanded(st: Store, p: Project, q: Project)
    requires q.id == p.id && q.owner == p.owner
    requires forall m :: m in p.teamMembers ==> m in q.teamMembers
    ensures FindProject(st, p.id) == Some(p) ==>
      ProjectsGrow(st, SaveProject(st, q)) && FindProject(SaveProject(st, q), p.id) == Some(q)
  {
    FindAfterSaveProject(st, q, p.id);
    if FindProject(st, p.id) == Some(p) {
      SaveWiderProject(st, q);
    }
  }

  /** An assignment mail to `a`, sent only when `a` is a user who accepts notifications. */
  function MailIfNotified(st: Store, a: UserId, kind: MailKind): (ms: seq<Mail>)
    ensures |ms| <= 1
    ensures ms != [] <==> FindUser(st, a).Some? && FindUser(st, a).value.emailNotifications
    ensures forall m :: m in ms ==> m == Mail(a, kind)
  {
    match FindUser(st, a)
    case Some(u) => if u.emailNotifications then [Mail(a, kind)] else []
    case None => []
  }

  /** The project as createTicket leaves it: the caller pushed, then a
      given assignee, each only when not yet listed. */
  function Widened(p: Project, actor: UserId, assignee: Option<UserId>): Project {
    var p1 := p.(teamMembers := AddMember(p.teamMembers, actor));
    if assignee.Some? then p1.(teamMembers := AddMember(p1.teamMembers, assignee.value)) else p1
  }

  /** The project as updateTicket leaves it: a non-null assignee is pushed
      when not yet listed. */
  function WithAssignee(p: Project, f: AssigneeField): Project {
    if f.AssignTo? then p.(teamMembers := AddMember(p.teamMembers, f.user)) else p
  }

  /** `actor` may work on ticket `id`: it exists, its project resolves, and
      the caller is the owner or listed in teamMembers. */
  predicate TicketMember(st: Store, actor: UserId, id: TicketId) {
    && FindTicket(st, id).Some?
    && FindProject(st, FindTicket(st, id).value.project).Some?
    && IsMember(FindProject(st, FindTicket(st, id).value.project).value, actor)
  }

  /** The ticket exists but its project reference is dangling. */
  predicate DanglingProject(st: Store, id: TicketId) {
    FindTicket(st, id).Some? && FindProject(st, FindTicket(st, id).value.project).None?
  }

  /** The body of createTicket; absent or empty values are falsy. */
  datatype NewTicket = NewTicket(
    title: string,
    description: Option<string>,
    project: Option<ProjectId>,
    assignee: Option<UserId>,
    priority: Option<Priority>,
    kind: Option<TicketType>,
    tags: Option<seq<string>>)

  /** The ticket document createTicket builds; no ticketNumber is set. */
  function BuildTicket(req: NewTicket, pid: ProjectId, actor: UserId, id: TicketId): (t: Ticket)
    ensures t.id == id && t.project == pid && t.creator == actor && t.assignee == req.assignee
    ensures t.title == req.title && t.description == req.description && t.ticketNumber.None?
    ensures t.status == Todo
    ensures t.priority == (if req.priority.Some? then req.priority.value else Medium)
    ensures t.kind == (if req.kind.Some? then req.kind.value else Bug)
    ensures t.tags == (if req.tags.Some? then req.tags.value else [])
  {
    Ticket(id, req.title, None, req.description, pid, actor, req.assignee, DefaultTicketStatus,
           req.priority.GetOr(DefaultPriority), req.kind.GetOr(DefaultTicketType), req.tags.GetOr([]))
  }

  /** createTicket. Checks run 400 (title or project missing), 404 (project),
      403 (non-member); then the caller, and a given assignee, are added to
      teamMembers. An unknown assignee gives 404 after the caller's addition
      has been saved. */
  function CreateTicket(st: Store, actor: UserId, req: NewTicket, newId: TicketId): (r: Outcome<Ticket>)
    requires FreshTicketId(st, newId)
    ensures r.result.Failure? ==> r.mails == []
    ensures req.title == "" || req.project.None? ==>
      r == Fail(st, BadRequest(TitleAndProjectRequired))
    ensures req.title != "" && req.project.Some? && FindProject(st, req.project.value).None? ==>
      r == Fail(st, NotFound(ProjectNotFound))
    ensures req.title != "" && req.project.Some? && FindProject(st, req.project.value).Some?
            && !IsMember(FindProject(st, req.project.value).value, actor) ==>
      r == Fail(st, Forbidden(NotAuthorizedCreate))
    ensures r.result == Failure(NotFound(AssigneeNotFound)) ==>
      && req.project.Some? && req.assignee.Some? && FindUser(st, req.assignee.value).None?
      && FindProject(r.store, req.project.value).Some?
      && actor in FindProject(r.store, req.project.value).value.teamMembers
      && r.store.tickets == st.tickets
      && ProjectsGrow(st, r.store)
    ensures r.result.Success? ==>
      && req.title != "" && req.project.Some?
      && FindProject(st, req.project.value).Some?
      && IsMember(FindProject(st, req.project.value).value, actor)
      && CreatedIn(st, r, actor, req, newId)
    ensures req.title != "" && req.project.Some? && FindProject(st, req.project.value).Some?
            && IsMember(FindProject(st, req.project.value).value, actor)
            && (req.assignee.None? || FindUser(st, req.assignee.value).Some?) ==>
      r.result.Success?
  {
    if req.title == "" || req.project.None? then Fail(st, BadRequest(TitleAndProjectRequired))
    else
      match FindProject(st, req.project.value)
      case None => Fail(st, NotFound(ProjectNotFound))
      case Some(p) =>
        if !IsMember(p, actor) then Fail(st, Forbidden(NotAuthorizedCreate))
        else CreateInProject(st, p, actor, req, newId)
  }

  /** What a successful createTicket leaves behind: the new ticket with its
      defaults appended, the caller and any assignee listed in the project. */
  ghost predicate CreatedIn(st: Store, r: Outcome<Ticket>, actor: UserId, req: NewTicket, newId: TicketId)
    requires r.result.Success? && req.project.Some?
  {
    var t := r.result.value;
    var pid := req.project.value;
    && t == BuildTicket(req, pid, actor, newId)
    && FindProject(st, pid).Some?
    && r.store.projects == SavedIfChanged(st, FindProject(st, pid).value,
                                          Widened(FindProject(st, pid).value, actor, req.assignee))
    && FindProject(r.store, pid).Some?
    && actor in FindProject(r.store, pid).value.teamMembers
    && (req.assignee.Some? ==>
          UserExists(st, req.assignee.value)
          && req.assignee.value in FindProject(r.store, pid).value.teamMembers)
    && r.store.tickets == st.tickets + [t]
    && ProjectsGrow(st, r.store)
    && r.store.users == st.users && r.store.comments == st.comments && r.store.otps == st.otps
    && (r.mails != [] <==>
          req.assignee.Some? && req.assignee.value != actor
          && FindUser(st, req.assignee.value).Some? && FindUser(st, req.assignee.value).value.emailNotifications)
    && (forall m :: m in r.mails ==>
          req.assignee.Some? && m == Mail(req.assignee.value, TicketAssigned(newId)) && req.assignee.value != actor)
  }

  /** createTicket after the authorization checks: the caller is added first. */
  function CreateInProject(st: Store, p: Project, actor: UserId, req: NewTicket, newId: TicketId): (r: Outcome<Ticket>)
    requires req.project == Some(p.id) && FindProject(st, p.id) == Some(p) && IsMember(p, actor)
    ensures r.result.Failure? ==>
      && r.result == Failure(NotFound(AssigneeNotFound)) && r.mails == []
      && req.assignee.Some? && FindUser(st, req.assignee.value).None?
      && FindProject(r.store, p.id).Some?
      && actor in FindProject(r.store, p.id).value.teamMembers
      && r.store == st.(projects := SavedIfChanged(st, p, Widened(p, actor, None)))
      && ProjectsGrow(st, r.store)
    ensures r.result.Success? ==> CreatedIn(st, r, actor, req, newId)
  {
    var (st1, p1) := ExpandMembership(st, p, actor);
    match req.assignee
    case None =>
      FinishCreates(st, st1, p1, actor, req, newId);
      Finish(st1, p1, actor, req, p.id, newId)
    case Some(a) =>
      if FindUser(st1, a).None? then Outcome(st1, [], Failure(NotFound(AssigneeNotFound)))
      else
        var (st2, p2) := ExpandMembership(st1, p1, a);
        ProjectsGrowTrans(st, st1, st2);
        ExpandTwice(st, p, p1, p2);
        FinishCreates(st, st2, p2, actor, req, newId);
        Finish(st2, p2, actor, req, p.id, newId)
  }

  /** The tail of createTicket: insert the ticket, then mail an assignee
      other than the caller. */
  function Finish(st: Store, p: Project, actor: UserId, req: NewTicket, pid: ProjectId, newId: TicketId): (r: Outcome<Ticket>)
    ensures r.result == Success(BuildTicket(req, pid, actor, newId))
    ensures r.store == st.(tickets := st.tickets + [BuildTicket(req, pid, actor, newId)])
    ensures r.mails != [] <==>
      req.assignee.Some? && req.assignee.value != actor
      && FindUser(st, req.assignee.value).Some? && FindUser(st, req.assignee.value).value.emailNotifications
    ensures forall m :: m in r.mails ==>
      req.assignee.Some? && m == Mail(req.assignee.value, TicketAssigned(newId)) && req.assignee.value != actor
  {
    var t := BuildTicket(req, pid, actor, newId);
    var st1 := st.(tickets := st.tickets + [t]);
    var mails := if req.assignee.Some? && req.assignee.value != actor
                 then MailIfNotified(st1, req.assignee.value, TicketAssigned(newId)) else [];
    Outcome(st1, mails, Success(t))
  }

  /** Finishing in a store whose only change is wider membership, with the
      caller and any assignee already members, is a creation as CreatedIn
      describes. */
  lemma FinishCreates(st: Store, st2: Store, p2: Project, actor: UserId, req: NewTicket, newId: TicketId)
    requires req.project.Some?
    requires ProjectsGrow(st, st2)
    requires st2 == st.(projects := st2.projects)
    requires FindProject(st, req.project.value).Some?
    requires st2.projects == SavedIfChanged(st, FindProject(st, req.project.value).value,
                                            Widened(FindProject(st, req.project.value).value, actor, req.assignee))
    requires FindProject(st2, req.project.value).Some?
    requires actor in FindProject(st2, req.project.value).value.teamMembers
    requires req.assignee.Some? ==>
      FindUser(st, req.assignee.value).Some?
      && req.assignee.value in FindProject(st2, req.project.value).value.teamMembers
    ensures CreatedIn(st, Finish(st2, p2, actor, req, req.project.value, newId), actor, req, newId)
  {
    var r := Finish(st2, p2, actor, req, req.project.value, newId);
    ProjectsGrowSameProjects(st, st2, r.store);
  }

  /** Two membership pushes on one project leave the collection as one save
      of the final version would. */
  lemma ExpandTwice(st: Store, p: Project, p1: Project, p2: Project)
    requires p1.id == p.id && p2.id == p.id
    requires |p.teamMembers| <= |p1.teamMembers| <= |p2.teamMembers|
    requires p1 == p || |p1.teamMembers| > |p.teamMembers|
    ensures SavedIfChanged(st.(projects := SavedIfChanged(st, p, p1)), p1, p2) == SavedIfChanged(st, p, p2)
  {
    if p1 != p && p2 != p1 {
      SaveProjectTwice(st, p1, p2);
    }
  }

  /** The query string of getTickets; empty or absent values are not applied. */
  datatype TicketQuery = TicketQuery(
    projectId: Option<ProjectId>,
    status: Option<TicketStatus>,
    priority: Option<Priority>,
    assignee: Option<UserId>,
    kind: Option<TicketType>,
    search: string)

  /** The field filters of getTickets. The search term is matched as a literal
      case-insensitive substring of the title or the description. */
  predicate MatchesQuery(t: Ticket, q: TicketQuery) {
    && (q.status.Some? ==> t.status == q.status.value)
    && (q.priority.Some? ==> t.priority == q.priority.value)
    && (q.assignee.Some? ==> t.assignee == q.assignee)
    && (q.kind.Some? ==> t.kind == q.kind.value)
    && (q.search != "" ==>
          IncludesIgnoreCase(t.title, q.search)
          || (t.description.Some? && IncludesIgnoreCase(t.description.value, q.search)))
  }

  /** getTickets. With a projectId: 404 or 403 first, then that project's
      tickets; without: the tickets of every project the caller is a member of.
      Either way no ticket outside the caller's projects is returned. */
  function GetTickets(st: Store, actor: UserId, q: TicketQuery): (r: Outcome<seq<Ticket>>)
    ensures r.store == st && r.mails == []
    ensures q.projectId.Some? && FindProject(st, q.projectId.value).None? ==>
      r.result == Failure(NotFound(ProjectNotFound))
    ensures q.projectId.Some? && FindProject(st, q.projectId.value).Some?
            && !IsMember(FindProject(st, q.projectId.value).value, actor) ==>
      r.result == Failure(Forbidden(NotAuthorizedView))
    ensures r.result.Success? ==>
      && IsSubseq(r.result.value, st.tickets)
      && (forall t :: t in r.result.value ==>
            exists p :: p in st.projects && p.id == t.project && IsMember(p, actor))
      && (forall t :: t in r.result.value ==> MatchesQuery(t, q))
    ensures q.projectId.Some? && FindProject(st, q.projectId.value).Some?
            && IsMember(FindProject(st, q.projectId.value).value, actor) ==>
      r.result.Success?
    ensures r.result.Success? && q.projectId.Some? ==>
      forall t :: t in r.result.value <==> t in st.tickets && t.project == q.projectId.value && MatchesQuery(t, q)
    ensures q.projectId.None? ==>
      r.result.Success? &&
      (forall t :: t in r.result.value <==>
         t in st.tickets && MatchesQuery(t, q)
         && exists p :: p in st.projects && p.id == t.project && IsMember(p, actor))
  {
    match q.projectId
    case Some(pid) =>
      (match FindProject(st, pid)
       case None => Fail(st, NotFound(ProjectNotFound))
       case Some(p) =>
         if !IsMember(p, actor) then Fail(st, Forbidden(NotAuthorizedView))
         else
           var r := Filter(st.tickets, (t: Ticket) => t.project == pid && MatchesQuery(t, q));
           Outcome(st, [], Success(r)))
    case None =>
      var visible := set p | p in st.projects && IsMember(p, actor) :: p.id;
      var r := Filter(st.tickets, (t: Ticket) => t.project in visible && MatchesQuery(t, q));
      Outcome(st, [], Success(r))
  }

  /** getTicketById: 404 when absent, 500 when its project reference is
      dangling (the populated project is null), 403 for a non-member. */
  function GetTicketById(st: Store, actor: UserId, id: TicketId): (r: Outcome<Ticket>)
    ensures r.store == st && r.mails == []
    ensures FindTicket(st, id).None? ==> r.result == Failure(NotFound(TicketNotFound))
    ensures DanglingProject(st, id) ==> r.result == Failure(ServerError(NullReference))
    ensures FindTicket(st, id).Some? && FindProject(st, FindTicket(st, id).value.project).Some?
            && !IsMember(FindProject(st, FindTicket(st, id).value.project).value, actor) ==>
      r.result == Failure(Forbidden(NotAuthorizedViewTicket))
    ensures r.result.Success? <==> TicketMember(st, actor, id)
    ensures r.result.Success? ==> Some(r.result.value) == FindTicket(st, id)
  {
    match FindTicket(st, id)
    case None => Fail(st, NotFound(TicketNotFound))
    case Some(t) =>
      match FindProject(st, t.project)
      case None => Fail(st, ServerError(NullReference))
      case Some(p) =>
        if !IsMember(p, actor) then Fail(st, Forbidden(NotAuthorizedViewTicket))
        else Outcome(st, [], Success(t))
  }

  /** A getTickets query that applies no filter. */
  const NoFilters := TicketQuery(None, None, None, None, None, "")

  /** getTicketById and getTickets agree: a ticket a caller may open by id
      is listed both among all their tickets and among its project's
      tickets, and a ticket listed for its project opens by id. */
  lemma ByIdIsListed(st: Store, actor: UserId, id: TicketId)
    ensures var r := GetTicketById(st, actor, id);
      r.result.Success? ==>
        && r.result.value in GetTickets(st, actor, NoFilters).result.value
        && GetTickets(st, actor, NoFilters.(projectId := Some(r.result.value.project))).result.Success?
        && r.result.value in GetTickets(st, actor, NoFilters.(projectId := Some(r.result.value.project))).result.value
    ensures FindTicket(st, id).Some?
            && GetTickets(st, actor, NoFilters.(projectId := Some(FindTicket(st, id).value.project))).result.Success? ==>
      GetTicketById(st, actor, id).result == Success(FindTicket(st, id).value)
  {
    var r := GetTicketById(st, actor, id);
    if r.result.Success? {
      var t := r.result.value;
      var p := FindProject(st, t.project).value;
      assert t in st.tickets && MatchesQuery(t, NoFilters);
      assert p in st.projects && p.id == t.project && IsMember(p, actor);
    }
  }

  /** The `assignee` of an updateTicket body: left out, explicitly null, or an id. */
  datatype AssigneeField = Unset | Cleared | AssignTo(user: UserId)

  datatype TicketPatch = TicketPatch(
    title: string,
    description: string,
    status: Option<TicketStatus>,
    priority: Option<Priority>,
    assignee: AssigneeField,
    kind: Option<TicketType>,
    tags: Option<seq<string>>)

  function NewAssignee(prev: Option<UserId>, f: AssigneeField): Option<UserId> {
    match f
    case Unset => prev
    case Cleared => None
    case AssignTo(a) => Some(a)
  }

  /** Only truthy fields overwrite; `assignee` overwrites whenever defined. */
  function PatchTicket(t: Ticket, patch: TicketPatch): (r: Ticket)
    ensures r.id == t.id && r.project == t.project && r.creator == t.creator
    ensures r.ticketNumber == t.ticketNumber
    ensures r.title == (if patch.title != "" then patch.title else t.title)
    ensures r.description == (if patch.description != "" then Some(patch.description) else t.description)
    ensures r.status == (if patch.status.Some? then patch.status.value else t.status)
    ensures r.priority == (if patch.priority.Some? then patch.priority.value else t.priority)
    ensures r.kind == (if patch.kind.Some? then patch.kind.value else t.kind)
    ensures r.tags == (if patch.tags.Some? then patch.tags.value else t.tags)
    ensures patch.assignee.Unset? ==> r.assignee == t.assignee
    ensures patch.assignee.Cleared? ==> r.assignee.None?
    ensures patch.assignee.AssignTo? ==> r.assignee == Some(patch.assignee.user)
  {
    t.(title := if patch.title != "" then patch.title else t.title,
       description := if patch.description != "" then Some(patch.description) else t.description,
       status := if patch.status.Some? then patch.status.value else t.status,
       priority := if patch.priority.Some? then patch.priority.value else t.priority,
       assignee := NewAssignee(t.assignee, patch.assignee),
       kind := if patch.kind.Some? then patch.kind.value else t.kind,
       tags := if patch.tags.Some? then patch.tags.value else t.tags)
  }

  /** updateTicket. Member-only; a non-null assignee must exist and is added
      to teamMembers; an assignment mail goes out only to a new assignee who
      differs from the previous one and from the caller. */
  function UpdateTicket(st: Store, actor: UserId, id: TicketId, patch: TicketPatch): (r: Outcome<Ticket>)
    ensures r.result.Failure? ==> r.store == st && r.mails == []
    ensures FindTicket(st, id).None? ==> r.result == Failure(NotFound(TicketNotFound))
    ensures FindTicket(st, id).Some? && FindProject(st, FindTicket(st, id).value.project).Some?
            && !IsMember(FindProject(st, FindTicket(st, id).value.project).value, actor) ==>
      r.result == Failure(Forbidden(NotAuthorizedUpdate))
    ensures DanglingProject(st, id) ==> r.result == Failure(ServerError(NullReference))
    ensures TicketMember(st, actor, id) && patch.assignee.AssignTo? && FindUser(st, patch.assignee.user).None? ==>
      r.result == Failure(NotFound(AssigneeNotFound))
    ensures TicketMember(st, actor, id) && (patch.assignee.AssignTo? ==> UserExists(st, patch.assignee.user)) ==>
      r.result.Success?
    ensures r.result.Success? ==>
      && FindTicket(st, id).Some? && FindProject(st, FindTicket(st, id).value.project).Some?
      && IsMember(FindProject(st, FindTicket(st, id).value.project).value, actor)
      && (patch.assignee.AssignTo? ==> UserExists(st, patch.assignee.user))
      && UpdatedTo(st, FindTicket(st, id).value, r, actor, patch)
  {
    match FindTicket(st, id)
    case None => Fail(st, NotFound(TicketNotFound))
    case Some(t) =>
      match FindProject(st, t.project)
      case None => Fail(st, ServerError(NullReference))
      case Some(p) =>
        if !IsMember(p, actor) then Fail(st, Forbidden(NotAuthorizedUpdate))
        else if patch.assignee.AssignTo? && FindUser(st, patch.assignee.user).None? then
          Fail(st, NotFound(AssigneeNotFound))
        else ApplyTicketUpdate(st, t, p, actor, patch)
  }

  /** What a successful updateTicket leaves behind. */
  ghost predicate UpdatedTo(st: Store, t: Ticket, r: Outcome<Ticket>, actor: UserId, patch: TicketPatch)
    requires r.result.Success?
  {
    var t1 := r.result.value;
    && t1 == PatchTicket(t, patch)
    && FindProject(st, t.project).Some?
    && r.store.projects == SavedIfChanged(st, FindProject(st, t.project).value,
                                          WithAssignee(FindProject(st, t.project).value, patch.assignee))
    && (patch.assignee.AssignTo? ==>
          FindProject(r.store, t.project).Some?
          && patch.assignee.user in FindProject(r.store, t.project).value.teamMembers)
    && r.store.tickets == SaveTicket(st, t1).tickets
    && ProjectsGrow(st, r.store)
    && r.store.users == st.users && r.store.comments == st.comments && r.store.otps == st.otps
    && (r.mails != [] <==>
          && t1.assignee.Some? && t1.assignee != t.assignee && t1.assignee.value != actor
          && FindUser(st, t1.assignee.value).Some?
          && FindUser(st, t1.assignee.value).value.emailNotifications)
    && (forall m :: m in r.mails ==>
          && t1.assignee.Some? && m == Mail(t1.assignee.value, TicketAssigned(t.id))
          && t1.assignee != t.assignee && t1.assignee.value != actor)
  }

  /** updateTicket after its checks: expand membership, patch, save, notify. */
  function ApplyTicketUpdate(st: Store, t: Ticket, p: Project, actor: UserId, patch: TicketPatch): (r: Outcome<Ticket>)
    requires FindProject(st, t.project) == Some(p)
    ensures r.result.Success? && UpdatedTo(st, t, r, actor, patch)
  {
    var e := if patch.assignee.AssignTo? then ExpandMembership(st, p, patch.assignee.user) else (st, p);
    var st1 := e.0;
    var t1 := PatchTicket(t, patch);
    var st2 := SaveTicket(st1, t1);
    var mails := if t1.assignee.Some? && t1.assignee != t.assignee && t1.assignee.value != actor
                 then MailIfNotified(st2, t1.assignee.value, TicketAssigned(t.id)) else [];
    Outcome(st2, mails, Success(t1))
  }

  /** The two writes of deleteTicket: its comments, then the ticket. */
  function DeleteTicketSteps(st: Store, id: TicketId): (steps: seq<Store>)
    ensures |steps| == 2
    ensures steps[0] == st.(comments := steps[0].comments)
    ensures steps[1] == steps[0].(tickets := steps[1].tickets)
    ensures forall c :: c in steps[0].comments <==> c in st.comments && c.ticket != id
    ensures forall t :: t in steps[1].tickets <==> t in st.tickets && t.id != id
  {
    var s0 := st.(comments := Filter(st.comments, (c: Comment) => c.ticket != id));
    var s1 := s0.(tickets := Filter(s0.tickets, (t: Ticket) => t.id != id));
    [s0, s1]
  }

  /** deleteTicket: allowed to the project owner or the ticket creator only,
      a stricter test than membership; removes the ticket and its comments. */
  function DeleteTicket(st: Store, actor: UserId, id: TicketId): (r: Outcome<string>)
    ensures r.mails == []
    ensures r.result.Failure? ==> r.store == st
    ensures FindTicket(st, id).None? ==> r.result == Failure(NotFound(TicketNotFound))
    ensures DanglingProject(st, id) ==> r.result == Failure(ServerError(NullReference))
    ensures FindTicket(st, id).Some? && FindProject(st, FindTicket(st, id).value.project).Some?
            && !IsOwner(FindProject(st, FindTicket(st, id).value.project).value, actor)
            && FindTicket(st, id).value.creator != actor ==>
      r.result == Failure(Forbidden(OnlyOwnerOrCreator))
    ensures r.result.Success? <==>
      FindTicket(st, id).Some? && FindProject(st, FindTicket(st, id).value.project).Some?
      && (IsOwner(FindProject(st, FindTicket(st, id).value.project).value, actor)
          || FindTicket(st, id).value.creator == actor)
    ensures r.result.Success? ==>
      && r.store.users == st.users && r.store.projects == st.projects && r.store.otps == st.otps
      && (forall c :: c in r.store.comments <==> c in st.comments && c.ticket != id)
      && (forall t :: t in r.store.tickets <==> t in st.tickets && t.id != id)
  {
    match FindTicket(st, id)
    case None => Fail(st, NotFound(TicketNotFound))
    case Some(t) =>
      match FindProject(st, t.project)
      case None => Fail(st, ServerError(NullReference))
      case Some(p) =>
        if !(IsOwner(p, actor) || t.creator == actor) then Fail(st, Forbidden(OnlyOwnerOrCreator))
        else Outcome(DeleteTicketSteps(st, id)[1], [], Success(TicketDeleted))
  }

  /** Both writes of deleteTicket keep comments pointing at existing tickets
      and tickets at existing projects. */
  lemma DeleteTicketStepsKeepLinks(st: Store, id: TicketId)
    requires Linked(st)
    ensures forall k :: 0 <= k < 2 ==> Linked(DeleteTicketSteps(st, id)[k])
  {
    var steps := DeleteTicketSteps(st, id);
    forall k | 0 <= k < 2
      ensures Linked(steps[k])
    {
      forall c | c in steps[k].comments
        ensures exists t :: t in steps[k].tickets && t.id == c.ticket
      {
        var t :| t in st.tickets && t.id == c.ticket;
        assert t in steps[k].tickets;
      }
    }
  }

  /** updateTicketStatus. A status outside the enum is refused (400) before
      any lookup; then 404, 500 for a dangling project, 403; only `status`
      changes; the assignee is mailed only when it is not the caller. */
  function UpdateTicketStatus(st: Store, actor: UserId, id: TicketId, status: string): (r: Outcome<Ticket>)
    ensures r.result.Failure? ==> r.store == st && r.mails == []
    ensures ParseTicketStatus(status).None? ==> r == Fail(st, BadRequest(ValidStatusRequired))
    ensures ParseTicketStatus(status).Some? && FindTicket(st, id).None? ==>
      r.result == Failure(NotFound(TicketNotFound))
    ensures ParseTicketStatus(status).Some? && DanglingProject(st, id) ==>
      r.result == Failure(ServerError(NullReference))
    ensures ParseTicketStatus(status).Some? && FindTicket(st, id).Some?
            && FindProject(st, FindTicket(st, id).value.project).Some?
            && !IsMember(FindProject(st, FindTicket(st, id).value.project).value, actor) ==>
      r.result == Failure(Forbidden(NotAuthorizedStatus))
    ensures r.result.Success? <==>
      ParseTicketStatus(status).Some? && FindTicket(st, id).Some?
      && FindProject(st, FindTicket(st, id).value.project).Some?
      && IsMember(FindProject(st, FindTicket(st, id).value.project).value, actor)
    ensures r.result.Success? ==>
      var t := FindTicket(st, id).value;
      && TicketStatusName(r.result.value.status) == status
      && r.result.value == t.(status := r.result.value.status)
      && r.store == SaveTicket(st, r.result.value)
      && (r.mails != [] <==>
            t.assignee.Some? && t.assignee.value != actor
            && FindUser(st, t.assignee.value).Some? && FindUser(st, t.assignee.value).value.emailNotifications)
      && (forall m :: m in r.mails ==>
            t.assignee.Some? && t.assignee.value != actor
            && m == Mail(t.assignee.value, StatusChanged(id, t.status, r.result.value.status)))
  {
    match ParseTicketStatus(status)
    case None => Fail(st, BadRequest(ValidStatusRequired))
    case Some(s) =>
      match FindTicket(st, id)
      case None => Fail(st, NotFound(TicketNotFound))
      case Some(t) =>
        match FindProject(st, t.project)
        case None => Fail(st, ServerError(NullReference))
        case Some(p) =>
          if !IsMember(p, actor) then Fail(st, Forbidden(NotAuthorizedStatus))
          else
            var t1 := t.(status := s);
            var st1 := SaveTicket(st, t1);
            var mails := if t.assignee.Some? && t.assignee.value != actor
                         then MailIfNotified(st1, t.assignee.value, StatusChanged(id, t.status, s)) else [];
            Outcome(st1, mails, Success(t1))
  }
}

=== FILE: verify_email_page.dfy ===
/** frontend/src/pages/VerifyEmail.jsx: the code input, the verify button
    and the resend countdown. The one-second timer is a `Tick` event. */
module VerifyEmailPage {
  import opened Wrappers
  import opened Text

  const CodeLength: nat := 6
  /** Seconds the resend button stays disabled after a successful resend. */
  const ResendCooldown: nat := 60

  /** The input handler: strip every non-digit, keep the first six. */
  function SanitizeCode(raw: string): (r: string)
    ensures |r| <= CodeLength
    ensures forall i :: 0 <= i < |r| ==> IsDigit(r[i])
    ensures |r| == if |DigitsOnly(raw)| < CodeLength then |DigitsOnly(raw)| else CodeLength
    ensures r == DigitsOnly(raw)[..|r|]
  {
    var d := DigitsOnly(raw);
    if |d| <= CodeLength then d else d[..CodeLength]
  }

  /** Sanitising a sanitised code changes nothing. */
  lemma {:induction false} SanitizeIdempotent(raw: string)
    ensures SanitizeCode(SanitizeCode(raw)) == SanitizeCode(raw)
  {
    var r := SanitizeCode(raw);
    assert DigitsOnly(r) == r;
  }

  datatype Page = Page(code: string, loading: bool, resending: bool, error: string, countdown: int)

  const Initial := Page("", false, false, "", 0)

  /** Typing into the code field. */
  function Type(p: Page, raw: string): (r: Page)
    ensures r.code == SanitizeCode(raw) && r.error == ""
    ensures r.loading == p.loading && r.resending == p.resending && r.countdown == p.countdown
  {
    p.(code := SanitizeCode(raw), error := "")
  }

  /** `disabled={loading || otp.length !== 6}`, negated. */
  predicate CanVerify(p: Page) {
    !p.loading && |p.code| == CodeLength
  }

  /** `disabled={resending || countdown > 0}`, negated. */
  predicate CanResend(p: Page) {
    !p.resending && p.countdown <= 0
  }

  /** The code held by the page is always a run of at most six digits. */
  predicate WellFormed(p: Page) {
    |p.code| <= CodeLength && forall i :: 0 <= i < |p.code| ==> IsDigit(p.code[i])
  }

  /** Whatever was typed, the page holds a well-formed code, and the button
      is enabled exactly when six digits are in and no request is running. */
  lemma TypedCodeWellFormed(p: Page, raw: string)
    ensures WellFormed(Type(p, raw))
    ensures CanVerify(Type(p, raw)) <==> !p.loading && |DigitsOnly(raw)| >= CodeLength
  {
  }

  /** The countdown effect: one second later a positive countdown is one less. */
  function Tick(p: Page): (r: Page)
    ensures p.countdown > 0 ==> r == p.(countdown := p.countdown - 1)
    ensures p.countdown <= 0 ==> r == p
  {
    if p.countdown > 0 then p.(countdown := p.countdown - 1) else p
  }

  /** The page after `k` timer events. */
  function Ticks(p: Page, k: nat): Page
    decreases k
  {
    if k == 0 then p else Ticks(Tick(p), k - 1)
  }

  /** The countdown runs down by one per second and stops at zero; nothing
      else on the page moves. */
  lemma {:induction false} TicksCountDown(p: Page, k: nat)
    requires p.countdown >= 0
    ensures Ticks(p, k).countdown == if p.countdown > k then p.countdown - k else 0
    ensures Ticks(p, k) == p.(countdown := Ticks(p, k).countdown)
    decreases k
  {
    if k > 0 {
      TicksCountDown(Tick(p), k - 1);
    }
  }

  /** Shown when a failed resend carries no message of its own. */
  const ResendFailed := "Failed to resend OTP."

  /** `err.response?.data?.message || "Failed to resend OTP."` */
  function ResendMessage(m: string): (r: string)
    ensures r != ""
    ensures m != "" ==> r == m
  {
    if m == "" then ResendFailed else m
  }

  /** Pressing resend: the error is cleared and the button locks while the
      request runs. */
  function ResendStarted(p: Page): (r: Page)
    ensures r.resending && !CanResend(r) && r.error == ""
    ensures r.code == p.code && r.loading == p.loading && r.countdown == p.countdown
  {
    p.(error := "", resending := true)
  }

  /** A resend request settles: on success the countdown restarts at sixty
      seconds, on failure the server's message, or the fallback, is shown. */
  function ResendSettled(p: Page, failure: Option<string>): (r: Page)
    ensures !r.resending && r.code == p.code && r.loading == p.loading
    ensures failure.None? ==> r.countdown == ResendCooldown && r.error == p.error
    ensures failure.Some? ==> r.countdown == p.countdown && r.error != ""
    ensures failure.Some? && failure.value != "" ==> r.error == failure.value
  {
    match failure
    case None => p.(resending := false, countdown := ResendCooldown)
    case Some(m) => p.(resending := false, error := ResendMessage(m))
  }

  /** The whole resend handler, start to settle: a success leaves no error
      from before, a failure shows only its own message, and the button is
      unlocked either way. */
  function Resend(p: Page, failure: Option<string>): (r: Page)
    ensures !r.resending && r.code == p.code && r.loading == p.loading
    ensures failure.None? ==> r.countdown == ResendCooldown && r.error == ""
    ensures failure.Some? ==> r.countdown == p.countdown && r.error == ResendMessage(failure.value)
  {
    ResendSettled(ResendStarted(p), failure)
  }

  /** After a successful resend the button stays disabled for exactly sixty
      timer events. */
  lemma {:induction false} ResendLocksForCooldown(p: Page, k: nat)
    ensures var q := Resend(p, None);
      (k < ResendCooldown ==> !CanResend(Ticks(q, k))) && (k >= ResendCooldown ==> CanResend(Ticks(q, k)))
  {
    TicksCountDown(Resend(p, None), k);
  }
}

=== FILE: workspace_page.dfy ===
/** frontend/src/pages/Workspace.jsx: the project list narrowed by a search
    on title or key and by status. */
module WorkspacePage {
  import opened Seqs
  import opened Text
  import opened Schema
  import opened ClientLists

  /** The search condition: an empty search passes everything; otherwise the
      title or the key must contain it, ignoring case. A project without a
      key is matched on its title alone. */
  predicate SearchMatches(search: string, p: Project) {
    search == "" || IncludesIgnoreCase(p.title, search) || (p.key.Some? && IncludesIgnoreCase(p.key.value, search))
  }

  function Searcher(search: string): Project -> bool {
    (p: Project) => SearchMatches(search, p)
  }

  datatype WorkspaceFilters = WorkspaceFilters(search: string, status: Choice<ProjectStatus>)

  function Matcher(f: WorkspaceFilters): Project -> bool {
    (p: Project) => SearchMatches(f.search, p) && Admits(f.status, p.status)
  }

  /** `filteredProjects`. */
  function FilteredProjects(ps: seq<Project>, f: WorkspaceFilters): (r: seq<Project>)
    ensures IsSubseq(r, ps)
    ensures forall p :: p in r <==> p in ps && SearchMatches(f.search, p) && Admits(f.status, p.status)
    ensures f.search == "" && f.status.All? ==> r == ps
  {
    Filter(ps, Matcher(f))
  }
}

=== FILE: wrappers.dfy ===
/** Failure-carrying datatypes shared by the whole model. */
module Wrappers {

  /** A value that may be absent (JavaScript `null` / `undefined`). */
  datatype Option<+T> = None | Some(value: T) {
    function GetOr(default: T): T {
      match this
      case Some(v) => v
      case None => default
    }
  }

  /** The outcome of an operation that may fail with an error value. */
  datatype Result<+T, +E> = Success(value: T) | Failure(error: E)
}
